=== FILE: README.md ===
# supabase-lab command-line core, in Dafny

supabase-lab is a small interactive shell for trying out a Supabase
backend. It reads `key = value` settings from configuration files. It
prompts for commands (`login`, `exit`, `print`, `logout` and the
development commands `debug` and `dev`). Before parsing, it replaces every
`.name` in a typed line with the configured value of `name`. The `dev`
command dispatches to experiments: `ping`, `edge` (calls an edge function
with a payload), the realtime channel and table listeners, and `beep`
(timed console beeps tracked in a registry).

The repository has two layouts. The older one is top-level `core.py`,
`session.py`, `dev.py` and `lab.py`. The newer, asynchronous one lives
under `python/`. The model covers both where they differ. The newer
`parse` ignores an empty command; the older one reports it. The newer
`dev` knows sixteen experiment names, the older one three. The newer
`parse_args` groups quoted terms; the older one splits at whitespace.
`session.py` escapes only the spaces inside braces; `core.py` escapes
every space.

Modules, in dependency order:

- `Wrappers`: `Option` and a `Result` whose errors are Python exception kinds.
- `Text`: Python's `str.strip`, `str.split`, `str.replace`, `str.lower`, whitespace and `\w`.
- `Dict`: a Python `dict` as an insertion-ordered list of entries.
- `Config`: the configuration loader `get_config`.
  - Its three regular expressions.
  - The brace escaping with the space delimiter `'\0'`.
  - Boolean coercion.
  - Reading files in order.
- `Args`: both `parse_args` variants. For the quote-grouping one, the model proves a round trip with writing arguments.
- `Output`: `print_item`, `verbose` and `handle_error`.
- `Core`: the session state.
  - `sign_in` behind its empty-credential guard.
  - `sign_out`.
  - `exit_completely`.
- `Debug`: the three `debug` commands.
- `Dev`: `dev` dispatch, `ping`, `edge`, and the argument handling of the channel and table experiments.
- `Beeps`: the beep registry, the time suffixes and the parsing of `beep` arguments.
- `Lab`: the `.name` substitution, `parse`, the login credentials and the prompt.
- `Pipeline`: the end-to-end path of a brace payload. It starts in a configuration file and ends at an edge function.

Calls into the Supabase client and the outside world are parameters:

- The answer of the authentication service is a `SignInOutcome`.
- Whether `ast.literal_eval` accepts a payload is a function `evaluates`.
- The file system is a `ConfigFile` per name: its lines, `Missing` or a `Directory`.

## Model

| member | source | states |
|---|---|---|
| Text.Strip | session.py:33 | `str.strip()`: the result is empty exactly when the line is all whitespace; otherwise its two ends are not whitespace, and it is the line with its leading whitespace removed |
| Text.StripPadding | session.py:33 | stripping removes exactly the whitespace around a text whose ends are not whitespace |
| Text.Split | core.py:218 | `str.split()`: non-empty words without whitespace; no word exactly when the text is all whitespace |
| Text.SplitJoinSpaced | core.py:218 | splitting words joined by single spaces gives the words back |
| Text.SplitJoinedFrom | core.py:218 | splitting from the end of any prefix gives exactly the joined words |
| Text.SplitAt | core.py:218 | at a position where a word cannot continue, the words split from there are the words before the position followed by the words after it |
| Text.SplitJoinedAfter | core.py:218 | the words of a text followed by a space and joined words are the text's own words followed by those words |
| Text.SplitSkipsSpace | core.py:218 | a leading whitespace character adds no word |
| Text.ReplaceRoundTrip | core.py:106 | replacing a character and replacing back restores a text that did not hold the replacement |
| Text.Replace | core.py:106 | `str.replace` of one character: the same length, each occurrence of the old character becomes the new one, every other character is kept; `Text.ReplaceRoundTrip` undoes it |
| Dict.Get | core.py:207-208 | `key in d` / `d.get`: absent exactly when no entry has the key |
| Dict.Set | core.py:112 | `d[k] = v`: `k` now maps to `v`, every other key keeps its value, and a present key keeps its place while a new key goes last |
| Dict.SetKeepsDistinct | core.py:112 | assignment keeps keys distinct |
| Config.MatchAssign | session.py:37 | `^(\S*)\s*=\s*(.*)$`: matches exactly when some `=` follows a whitespace-free prefix and whitespace; group 1 is the longest such prefix, group 2 the rest after whitespace |
| Config.FallbacksNeverMatch | session.py:38-41 | every line the two fallback patterns match is matched by the first one, so the fallbacks are never reached |
| Config.EscapeBraces | session.py:44 | the brace substitution keeps the length of the value (what it changes is stated by `EscapeBracesSpec`) |
| Config.EscapeBracesSpec | session.py:44 | exactly the spaces inside a `{...}` payload become the delimiter; every other character is kept |
| Config.EscapeBracesRoundTrip | session.py:44 | turning the delimiter back into spaces restores a value that did not hold the delimiter |
| Config.EscapeBracesRoundTripNeedsNoDelimiter | session.py:44 | a value holding the delimiter does not survive the round trip |
| Config.EscapedPayloadIsOneWord | session.py:44 | a brace payload whose only whitespace is spaces escapes to one whitespace-free word |
| Config.EscapeAllRoundTrip | core.py:106 | core.py's variant leaves no space in a value and is undone by the reverse replacement |
| Config.EscapeValueRoundTrip | session.py:44 | either loader's escaping is undone by turning the delimiter back into spaces |
| Config.EscapeValue | session.py:44 | a loader's escaping keeps the length and changes only spaces, each into the delimiter; core.py's loader changes every space (core.py:106), and `Config.EscapeValueRoundTrip` undoes either |
| Config.Coerce | session.py:45-48 | the lower-cased spellings `t true y 1` become True, `f false n 0` become False, anything else stays text |
| Config.CoerceIgnoresCase | session.py:45-48 | any two values equal after lower-casing coerce alike: both to the same boolean or both to text, and a boolean spelling coerces as its lower-case form does |
| Config.ParseLine | session.py:33-52 | what one line does, stated by `Config.ParseLineSpec`, `Config.ParseLineAssigns` and `Config.ParseLineEchoes` and checked on concrete shapes by `Config.AssignmentLineStored`, `Config.EmptyValueStored`, `Config.SpacedKeyIsUnknown` and `Config.NoEqualsIsUnknown` |
| Config.ParseLineSpec | session.py:33-52 | blank and comment lines are skipped; a line no pattern matches is echoed with `?`; a stored key holds no whitespace |
| Config.ParseLineAssigns | session.py:37-50 | a matching line stores the escaped, coerced group 2 under group 1 |
| Config.ParseLineEchoes | session.py:51-52 | a non-matching line is echoed as `line?` |
| Config.NonAssignmentKeepsConfig | session.py:34-35 | skipped and echoed lines leave the configuration unchanged |
| Config.ApplyEffect | session.py:50 | an assignment makes its key read as its value, and every other key reads as before |
| Config.AssignmentLineStored | session.py:33-50 | `key = value`, with any whitespace around key, `=` and value, stores the value under the key |
| Config.EmptyValueStored | session.py:37-50 | `key =` stores the empty string |
| Config.SpacedKeyIsUnknown | session.py:37-52 | a key with whitespace inside matches no pattern, so the line is echoed and nothing is stored |
| Config.NoEqualsIsUnknown | session.py:37-52 | a line without `=` is echoed |
| Config.LastWriteWins | session.py:50 | against a reference definition of the last assignment: the last line assigning a key wins, and an unassigned key keeps its value |
| Config.ApplyEffectsKeepsKeys | session.py:50 | assignment never removes or reorders keys, and keys stay distinct |
| Config.Load | session.py:31-52 | reading the files in turn fails exactly when some file cannot be read, and then reports the first such file, every earlier file having been read |
| Config.LoadReadsInOrder | session.py:31-52 | loading applies every line read, in file order, up to the first unreadable file |
| Config.LoadSequential | session.py:31-52 | loading `a` then `b` equals loading `a + b` when every file of `a` can be read |
| Config.GetConfig | session.py:28-58 | loading fails exactly when some file is missing or a directory; the report is the one that loader prints for the first such file, every earlier file having been read |
| Config.GetConfigReadsInOrder | session.py:28-58 | `get_config` is the in-order application of all lines read before the first unreadable file |
| Config.LastFileWins | session.py:28-58 | across files, the last assignment to a key wins |
| Config.GetConfigSequential | session.py:28-58 | two calls equal one call on the concatenated file list, when the first list can be read |
| Args.Step | python/dev.py:256 | one pass of the quote-grouping alternation matches exactly at a bare character or at a quote with a closing partner |
| Args.Repeat | python/dev.py:256-257 | the greedy repetition ends where no further pass matches |
| Args.Pick | python/dev.py:258 | `match[0] or match[1] or match[2]` is empty exactly when all three groups are empty |
| Args.Tokens | python/dev.py:256-258 | `re.findall` turned into tokens; stated by `Args.Step`, `Args.Repeat` and `Args.Pick` for one match and by the `Args.ParseArgs` lemmas for the whole text |
| Args.ParseArgs | python/dev.py:253-258 | the newer `parse_args`, stated by `Args.ParseArgsPlain`, `Args.ParseArgsRoundTrip`, `Args.ParseArgsQuoted`, `Args.UnclosedQuoteSkipped` and `Args.MixedTermKeepsBareRun` |
| Args.ParseArgsPlain | python/dev.py:253-258 | on text without quotes the newer `parse_args` is `split()`, except that the empty text gives one empty token |
| Args.ParseArgsRoundTrip | python/dev.py:253-258 | `parse_args` gives back a non-empty list of arguments written with their quoting and joined with spaces |
| Args.ParseArgsQuoted | python/dev.py:256-258 | a quoted term is one token without its quotes, spaces included |
| Args.UnclosedQuoteSkipped | python/dev.py:256-257 | an unclosed quote matches nothing, and the text after it is split as usual |
| Args.MixedTermKeepsBareRun | python/dev.py:256-258 | a bare run, a quoted string and a bare run written together are one match. Each group keeps its last capture, so the token is the bare run after the quotes (`ab"cd"ef` gives `ef`), else the one before them, and the quoted text only when both runs are empty |
| Args.MixedTermThen | python/dev.py:256-258 | such a mixed term followed by whitespace or the end gives that one token, and the rest of the text is split on its own |
| Args.SplitArgs | dev.py:99-102 | the older `parse_args`: None stays None, text becomes its whitespace-separated words |
| Args.SplitArgsKeepsPayload | dev.py:99-102 | a word followed by an escaped brace payload splits into exactly those two tokens |
| Output.EntryLine | core.py:194-198 | other keys print `key: value`; a text password prints `password: ` and one star per character; a password stored as a bool, and nothing else, raises TypeError |
| Output.PasswordShowsOnlyLength | core.py:197-198 | passwords of the same length print the same line |
| Output.OtherKeysShown | core.py:195-196 | other keys print their value verbatim |
| Output.PrintEntries | core.py:193-198 | one line per entry in insertion order, stopping at the first entry that raises |
| Output.PrintEntriesCompletes | core.py:193-198 | printing completes exactly when no password is stored as a bool |
| Output.PrintItem | core.py:192-203 | a mapping prints its entries, a list numbers its items from 0, anything else prints one line |
| Output.ListingNumbered | core.py:199-201 | each list line starts with its index |
| Output.Verbose | core.py:205-209 | a configured `verbose` overrides `Main.verbose` |
| Output.HandleError | core.py:187-190 | one line `message: Kind: text`, and a traceback exactly when forced or when verbose is truthy |
| Output.ConfiguredVerboseWins | core.py:205-209 | a configured verbose wins over the main flag in both directions |
| Output.VerboseNoIsOn | core.py:187-209 | `verbose = no` in a file turns tracebacks on, because `no` is stored as truthy text |
| Output.NoIsText | session.py:45-48 | `no` is not a boolean spelling in either loader |
| Core.SignIn | core.py:240-263 | empty e-mail or password is refused with nothing changed; otherwise the session is active exactly when the service accepted, and only acceptance replaces the token |
| Core.SignInHidesPassword | core.py:253 | two sign-ins differing only in a non-empty password print the same lines and end in the same state |
| Core.SignOut | core.py:269-272 | sign-out deactivates the session and changes nothing else |
| Core.ExitCompletely | core.py:274-280 | exit stops the loop and deactivates the session; it prints `\r` when asked, signs out only when active, and ends with `Bye.` |
| Core.ExitTwice | core.py:274-280 | a second exit prints only `Bye.` and changes nothing |
| Core.SignInThenExit | core.py:240-280 | an accepted sign-in followed by exit ends stopped and inactive with the token kept |
| Debug.NamedSpec | python/dev.py:269-287 | a word names a field exactly when it is one of that field's names, so no word names two fields |
| Debug.RequestedByName | core.py:220-232 | a field is requested exactly when one of its names is among the filter words |
| Debug.SequenceMembers | python/dev.py:269-287 | a field is printed exactly when it is wanted and the version knows it |
| Debug.Selected | core.py:215-234 | with None read as the empty string, a field is printed exactly when the version knows it and the split filter words want it |
| Debug.NoFiltersShowsSeven | core.py:219-234 | without filters every version prints the same seven fields; tasks and threads need a name |
| Debug.FiltersSelectByName | python/dev.py:267-287 | with filters, a field is printed exactly when the version knows it and one of its names was given |
| Debug.SelectedOne | core.py:218-234 | a single filter word prints exactly the field it names |
| Debug.JwtAlias | core.py:226 | `jwt` and `jwt_token` select the same field |
| Debug.AuthenticatedReplacesSessionActive | dev.py:108-127 | in both dev.py versions `authenticated` selects the session flag and `session_active` nothing; core.py is the other way round |
| Debug.OldNameUnknown | python/dev.py:279 | each version's other name for the session flag names nothing |
| Debug.FieldLines | python/dev.py:267-297 | each field but the configuration dump prints without raising; a setting field prints one line `name = ...`; the dump starts with `config:` and raises exactly what printing the configuration raises |
| Debug.ShowSetting | core.py:223-225 | a missing configuration value prints as `None` |
| Debug.PrintFields | core.py:219-234 | printing a list of fields completes exactly when every field completes, and then prints each field's lines in order; otherwise the exception is the configuration dump's |
| Debug.ShowDebug | core.py:215-234 | `debug(args)` prints the selected fields' lines in order; it fails exactly when the configuration dump is selected and printing the configuration raises |
| Debug.DebugUrl | core.py:220-221 | `debug url` prints exactly `url = <url>` |
| Debug.DebugFailsOnlyOnFlagPassword | core.py:232-234 | `debug` fails exactly when the configuration dump is selected and the password is stored as a bool, and then with TypeError |
| Dev.Route | python/dev.py:229-250 | the name table: each experiment is selected exactly by its names (`sub`/`subscribe`, `lchan`/`listenchan`, and so on, the newer ones only in the newer layout); a known name hands its remaining text over unchanged, and any other name is echoed |
| Dev.SplitExperiment | python/dev.py:225-228 | `(\S*)(.*)$`: group 1 is the leading run of non-whitespace and group 2 the rest, which is empty or starts with whitespace |
| Dev.SplitExperimentUnique | python/dev.py:225-228 | that split is the only one with those properties |
| Dev.Dispatch | python/dev.py:218-250 | no text shows the help; otherwise the text is unrecognised exactly when its first word names no experiment of the layout, and a known experiment gets the rest of the text |
| Dev.DispatchByName | dev.py:79-97 | a name followed by text dispatches as routing that name with that text |
| Dev.LeadingSpaceIsUnrecognised | dev.py:85-97 | text starting with whitespace names the empty experiment and prints `?` |
| Dev.Echo | python/dev.py:218-250 | what `dev` prints itself, stated by `Dev.NoTextShowsHelp`, `Dev.PingEchoes`, `Dev.UnknownEchoed` and `Dev.LeadingSpaceIsUnrecognised` |
| Dev.UnknownEchoed | python/dev.py:250 | every name the layout does not know dispatches to the unrecognised experiment, and `dev` prints the name followed by `?` |
| Dev.NoTextShowsHelp | dev.py:79-84 | `dev` alone prints the three help lines |
| Dev.PingEchoes | python/dev.py:82-83 | `dev ping x` prints `ping  x`, with the separating space kept |
| Dev.AliasesAgree | python/dev.py:235-246 | the long and short spellings select the same experiment |
| Dev.ExtendedExtendsBasic | dev.py:91-97 | the newer layout routes the older one's names the same way, and the older one knows no other names |
| Dev.EdgeRequest | python/dev.py:71-79 | fewer than two tokens raises IndexError; a missing url raises KeyError, and a bool url raises TypeError; otherwise the call goes to `url/functions/v1/<endpoint>` with the evaluated payload, or `{}` |
| Dev.EdgeNeedsPayload | python/dev.py:72-74 | `dev edge <endpoint>` alone raises IndexError |
| Dev.ListenArgs | python/dev.py:100-104 | no token raises IndexError; the first token is the channel, and the event is the second token or `test` |
| Dev.SendArgs | python/dev.py:107-112 | the first token is the channel and the last the message; the event is the second token only with three or more tokens |
| Dev.ListenWithoutText | python/dev.py:100-104 | `lchan` with empty text listens on the empty channel with event `test` |
| Dev.ListenWords | python/dev.py:100-104 | `lchan c e` and `lchan c` without quotes |
| Dev.SendWords | python/dev.py:107-112 | `schan c m` uses the default event, and `schan c e m` uses event `e` |
| Dev.SendChannelOnly | python/dev.py:107-112 | `schan c` sends the channel name as the message |
| Dev.TargetName | python/dev.py:86-93 | the channel or table name is the stripped text |
| Dev.TargetNameIgnoresPadding | python/dev.py:115-116 | surrounding whitespace does not change the name |
| Beeps.SetBeeping | python/dev.py:119-121 | `beeping(id, status)` sets entry `id` and keeps every other entry; no registry raises KeyError |
| Beeps.StopAll | python/dev.py:122-124 | `beeping(None)` clears every entry and keeps the keys |
| Beeps.IsBeeping | python/dev.py:125-127 | reading an entry gives its flag; a missing registry or id raises KeyError |
| Beeps.DelBeepId | python/dev.py:139-141 | removes exactly `id` |
| Beeps.GetBeepId | python/dev.py:129-137 | creates the registry when missing and returns the least id not in use |
| Beeps.LeastFreeUnique | python/dev.py:132-137 | the least free id is unique |
| Beeps.DeletedIdReused | python/dev.py:129-141 | after deletion, the next id is the deleted one or smaller |
| Beeps.SuffixSplit | python/dev.py:195-202 | `^(\d*)([smhSMH]?)$` splits into digits and at most one suffix letter |
| Beeps.ToSeconds | python/dev.py:195-202 | text of another shape is kept verbatim |
| Beeps.ToSecondsUnits | python/dev.py:24 | no suffix and `s` count seconds, `m` minutes and `h` hours |
| Beeps.ToSecondsUpperCase | python/dev.py:24 | upper-case suffixes pass the pattern and raise KeyError in the table |
| Beeps.FormOf | python/dev.py:174-192 | the four patterns in order: every interval is a time that starts the arguments, the first two patterns also read a time as duration, a lone time is the whole text, and a message never starts with whitespace (in the third pattern not with a digit) |
| Beeps.FormSingle | python/dev.py:190-192 | the arguments are the fourth pattern exactly when they are one time |
| Beeps.FormPair | python/dev.py:180-183 | two times separated by whitespace are the second pattern with those times |
| Beeps.FormFull | python/dev.py:174-178 | two times and a message, separated by whitespace, are the first pattern with those parts |
| Beeps.FormWithMessage | python/dev.py:185-188 | a time, whitespace and a message that cannot start a time are the third pattern |
| Beeps.ParseSingle | python/dev.py:154-192 | `beep <time>` starts a beep of the fourth pattern |
| Beeps.ParsePair | python/dev.py:154-192 | `beep <time> <time>` starts a beep of the second pattern |
| Beeps.TimeThenMessage | python/dev.py:154-192 | `beep <time> <text>`, the text not starting with a digit or a dot, starts a beep of the third pattern |
| Beeps.Params | python/dev.py:185-188 | corrected third pattern: the message comes from group 4, with the default duration |
| Beeps.ParamsAsWritten | python/dev.py:174-192 | as written, exactly the third pattern raises IndexError |
| Beeps.ParseBeep | python/dev.py:154-192 | `stop` alone is the stop-every request; any request that is not a stop carries the form of the stripped text; the empty-id branch `int('')` is never reached, because the stripped text cannot end in the space it needs |
| Beeps.Beep | python/dev.py:154-215 | the whole `beep` coroutine, stated by `Beeps.BeepStopOne`, `Beeps.BeepStopEvery`, `Beeps.BeepRestoresRegistry`, `Beeps.BeepCrashKeepsId` and the decimal-time lemmas |
| Beeps.Settle | python/dev.py:156-164 | a stop request ends with the updated registry, or with KeyError when there is none |
| Beeps.BeepStopOne | python/dev.py:157-161 | `stop N` clears beep N and touches no other entry; no registry means KeyError |
| Beeps.BeepStopEvery | python/dev.py:162-164 | `stop` clears every beep without adding or removing ids |
| Beeps.ParseStop | python/dev.py:156-164 | `stop N` and `stop` are recognised |
| Beeps.StartBeep | python/dev.py:166-215 | a new beep never ends as a stop; one that runs has the least free id, marked while it runs and gone afterwards; one that crashes leaves that id registered and every other entry unchanged |
| Beeps.RunWith | python/dev.py:143-215 | after the id is marked: a beep runs exactly when both times convert to seconds, with those seconds and the message; a conversion error crashes with the id still marked; a duration left as text crashes with CancelledError, and an interval left as text with TypeError, the flag cleared but the id kept |
| Beeps.BeepRestoresRegistry | python/dev.py:166-215 | a beep runs exactly when its parameters are read and both times convert to seconds; then it takes the least free id, is marked beeping while it runs, and leaves the registry as it found it |
| Beeps.BeepCrashKeepsId | python/dev.py:166-215 | a beep that crashes leaves its id in the registry, so it is never handed out again, and keeps every other entry |
| Beeps.DecimalTime | python/dev.py:172-202 | a decimal such as `1.5` is a time for the patterns but stays text after the conversion |
| Beeps.VerbatimIntervalCrashes | python/dev.py:143-152 | a lone interval left as text crashes with TypeError and leaves its id registered as not beeping |
| Beeps.DecimalIntervalLeaks | python/dev.py:143-215 | `beep 1.5` crashes with TypeError and leaves its id registered as not beeping |
| Beeps.VerbatimDurationCrashes | python/dev.py:204-215 | a duration left as text, after an interval that does not fail, crashes with CancelledError and leaves its id registered as not beeping |
| Beeps.DecimalDurationLeaks | python/dev.py:199-215 | `beep <time> 2.5` crashes with CancelledError and leaves its id registered as not beeping |
| Beeps.MessageAsWritten | python/dev.py:185-188 | as written, every request of the third pattern crashes with IndexError, its id still marked as beeping and never handed out again |
| Beeps.BeepAsWrittenLeaks | python/dev.py:166-188 | as written, `beep <time> <text>` crashes with IndexError after marking its id as beeping, and the id is never cleared |
| Beeps.BeepWithMessage | python/dev.py:185-188 | corrected, the same arguments run exactly when the interval converts to seconds, with the message and a 10-second duration; an interval left as text crashes with TypeError, one that fails to convert with its conversion error |
| Lab.DotValue | python/lab.py:53-60 | a missing name stays `.name`; a bool prints as `True`/`False`; the password becomes one star per character, nine when it is missing |
| Lab.Subst | python/lab.py:53-67 | the `.name` substitution of a typed line, stated by `Lab.SubstWithoutDot`, `Lab.SubstReference`, `Lab.SubstAppend`, `Lab.SubstAround` and `Lab.PasswordMasked` |
| Lab.SubstWithoutDot | python/lab.py:67 | a line without a dot is unchanged |
| Lab.SubstReference | python/lab.py:67 | a lone `.name` becomes its value |
| Lab.SubstAppend | python/lab.py:67 | substitution works piece by piece when the second piece does not continue a word |
| Lab.SubstAround | python/lab.py:67 | a reference inside a line is replaced, and the text around it is substituted on its own |
| Lab.PasswordMasked | lab.py:35-48 | `.password` never appears in clear: it becomes as many stars as the password has characters |
| Lab.SplitCommand | python/lab.py:77-82 | `^(\S*)\s(.*)$`: the command is the leading run of non-whitespace and the arguments follow exactly one whitespace character; a line without whitespace has no arguments |
| Lab.SplitCommandUnique | python/lab.py:79-82 | the split is determined by command, separator and arguments |
| Lab.SplitCommandBare | python/lab.py:77-78 | a line without whitespace is a bare command |
| Lab.Select | python/lab.py:84-128 | the newer layout does nothing exactly for an empty command; `login`, `exit`, `print`, `logout`, `debug` and `dev` each select exactly their own command, and any other word is unknown |
| Lab.Parse | lab.py:65-113 | a line selects nothing exactly in the newer layout with an empty command; an unknown command is the line's leading whitespace-free part |
| Lab.ParseByName | python/lab.py:76-128 | a word, one whitespace character and text parse as that word's command with that text |
| Lab.Reply | python/lab.py:106-128 | what the front end prints itself, stated by `Lab.PrintEchoes`, `Lab.UnknownChangesNothing` and `Lab.EmptyCommand` |
| Lab.PrintEchoes | python/lab.py:106-111 | `print` echoes everything after the single separator, and a bare `print` prints an empty line |
| Lab.EmptyCommand | lab.py:65-113 | a line starting with whitespace is ignored by the newer layout and reported as unknown by the older |
| Lab.Credentials | python/lab.py:90-99 | with both keys configured, each non-empty configured value is used; a credential is the typed one otherwise, so a used configured value is never empty |
| Lab.CredentialsFromConfig | python/lab.py:92-99 | with both keys configured and non-empty nothing is asked for; with both configured and one empty only that one is asked for; with either key missing both are asked for |
| Lab.Respond | python/lab.py:88-128 | exit stops and deactivates, logout deactivates, login keeps the settings and activates only on acceptance, and every other command keeps the state; `print` and unknown commands print their reply |
| Lab.UnknownChangesNothing | python/lab.py:123-128 | an unknown command prints `name?` and three help lines and changes nothing |
| Lab.EmptyPasswordRefused | python/lab.py:92-100 | an empty configured password is asked for, and an empty typed one is refused by the guard |
| Lab.PromptFor | python/lab.py:65 | the session prompt exactly when signed in, the authentication prompt otherwise |
| Pipeline.ReferenceSubstituted | python/lab.py:67 | `dev edge e .key` becomes the line with the stored escaped payload in place |
| Pipeline.LineIsDevCommand | python/lab.py:120-121 | that line parses as `dev` with `edge e <payload>` |
| Pipeline.ArgsRunEdge | python/dev.py:225-234 | those arguments run `edge` |
| Pipeline.PayloadReachesEdgeFunction | session.py:44 | a configured brace payload referenced as `.key` reaches `url/functions/v1/<endpoint>` exactly as written, spaces included |

## Left out

- The Supabase client, HTTP requests (`edge_function`, `connect`) and the realtime backend are not modelled. Their inputs are the model's outputs (`EdgeCall`, `Listen`, `Send`), and the sign-in answer is a parameter.
- `explore` and `show_time` are left out: they dump SDK objects and format timestamps.
- `asyncio` tasks, threads, sleeping and the loop of `run_beep` are left out. A beep's run is a value (`Ran`) holding the registry during and after the run. What `list_tasks` and `list_threads` print is modelled (`Debug.FieldLines`): the task and thread names are parameters in `View`.
- `ast.literal_eval` is the parameter `evaluates`: only whether it accepts the text is modelled, not the Python value it builds.
- Floating-point times are not computed. `ToSeconds` works on integer digit strings and keeps a decimal time as text, as the code does. What that text does later is modelled: it reaches `asyncio.sleep`, and the beep crashes with its id left in the registry (`Beeps.RunWith`).
- Terminal I/O (`input`, `getpass`, prompt_toolkit) is left out. Typed credentials are parameters. Lines are modelled without their newline, which is why several line parsers require `IsLine`. `fileinput` keeps the `'\n'` of each configuration line, but the loaders strip every line before parsing it (session.py:33, core.py:95), so the result is the same; a typed line arrives without one.
- The periodic check that ends an expired session (python/lab.py:70-74) is not modelled, and neither is the `EOFError`/`KeyboardInterrupt` handling of the older loop (lab.py:51-57).
- Text.IsDigit: `\d` and `int()` are ASCII digits only here. Python also accepts other Unicode decimal digits, so `stop ٣` stops beep 3 in Python, while the model does not read it as a stop request.
- Text.IsWordChar: `\w` is ASCII only, and `str.lower` lowers ASCII letters only. This is exact for the boolean spellings. The model differs whenever a `.name` reference is directly followed by a non-ASCII letter or digit. In `print .emailé`, Python reads the name `emailé`, finds no such key and keeps `.emailé`. The model ends the name at `é` and prints the configured e-mail followed by `é`.
- python/backend.py is not part of this model. `Lab.Respond` signs in through core.py's `sign_in` and `sign_out`; the newer backend masks the password with `min(len, 8)` stars in its error line.
- The `core.Session` class of the newer layout is not part of this model. Its fields are taken to be `Main`'s (`url`, `config`, `jwt_token`, `authenticated` for `session_active`), and its prompt is the session prompt.
- Lab.Respond: `debug` and `dev` print nothing and keep the state in this member. Their behaviour is modelled on its own in `Debug` and `Dev`.
- `sub`, `unsub`, `lschan` and `ldb` are modelled only up to the name they pass to the backend.
- The beep registry lives in the configuration mapping under `beeping`. It is modelled as its own optional map, so `debug` does not print it. Likewise, after a first beep a typed `.beeping` makes the substitution function of python/lab.py:53-67 return a dict, and `re.sub` raises TypeError; the model instead treats `beeping` as a missing name and keeps `.beeping` literally.
- Config.EscapeBraces: its own contract states only that the length is kept; the characters it changes are stated by `Config.EscapeBracesSpec`.
- Config.GetConfig: the generic `Exception` branch (session.py:57-58) covers errors the model cannot produce, so it is not represented.

## Findings

| source | as written | input that shows it | evidently intended | confidence | as-written member | corrected member |
|---|---|---|---|---|---|---|
| python/dev.py:185-188 | the third beep pattern has four groups, yet the message is read with `m.group(7)`; that raises IndexError after `beeping(id, True)` and before the `try`/`finally` that would clear the id | `dev beep 2 hello` | read the message from `m.group(4)`, so the beep runs with message `hello` and the id is released afterwards | not executed | Beeps.BeepAsWrittenLeaks | Beeps.BeepWithMessage |

=== FILE: args.dfy ===
/** The argument splitters of the dev sub-commands. python/dev.py splits
    with a pattern that keeps quoted terms together; dev.py uses a plain
    whitespace split. */
module Args {
  import opened Wrappers
  import opened Text
  import Config

  predicate IsQuote(c: char) {
    c == '"' || c == '\''
  }

  /** `[^\s'"]`: a character of an unquoted run. */
  predicate IsBare(c: char) {
    !IsSpace(c) && !IsQuote(c)
  }

  predicate NoQuotes(s: string) {
    forall t :: 0 <= t < |s| ==> !IsQuote(s[t])
  }

  predicate BareIn(s: string, a: nat, b: nat) {
    a <= b <= |s| && forall t :: a <= t < b ==> IsBare(s[t])
  }

  /** The end of the run of bare characters from `i`: what `[^\s'"]+`
      consumes greedily. */
  function SkipBare(s: string, i: nat): (e: nat)
    requires i <= |s|
    ensures BareIn(s, i, e)
    ensures e < |s| ==> !IsBare(s[e])
    decreases |s| - i
  {
    if i == |s| || !IsBare(s[i]) then i else SkipBare(s, i + 1)
  }

  /** The first position from `i` on that holds `c`, or `|s|`: where the
      closing quote of `"([^"]*)"` lies. */
  function FindChar(s: string, i: nat, c: char): (e: nat)
    requires i <= |s|
    ensures i <= e <= |s|
    ensures forall t :: i <= t < e ==> s[t] != c
    ensures e < |s| ==> s[e] == c
    decreases |s| - i
  {
    if i == |s| || s[i] == c then i else FindChar(s, i + 1, c)
  }

  lemma {:induction false} SkipBareExact(s: string, i: nat, e: nat)
    requires BareIn(s, i, e) && (e < |s| ==> !IsBare(s[e]))
    ensures SkipBare(s, i) == e
    decreases e - i
  {
    if i < e {
      SkipBareExact(s, i + 1, e);
    }
  }

  lemma {:induction false} FindCharAbsent(s: string, i: nat, c: char)
    requires i <= |s| && forall t :: i <= t < |s| ==> s[t] != c
    ensures FindChar(s, i, c) == |s|
    decreases |s| - i
  {
    if i < |s| {
      FindCharAbsent(s, i + 1, c);
    }
  }

  lemma {:induction false} FindCharExact(s: string, i: nat, c: char, e: nat)
    requires i <= e < |s| && s[e] == c && forall t :: i <= t < e ==> s[t] != c
    ensures FindChar(s, i, c) == e
    decreases e - i
  {
    if i < e {
      FindCharExact(s, i + 1, c, e);
    }
  }

  // ---------------------------------------------------------------------
  // The quote-aware split (python/dev.py:253-258)
  // ---------------------------------------------------------------------

  /** The three groups of `(?:([^\s'"]+)|"([^"]*)"|'([^']*)')+` as one
      match leaves them: inside a repetition each group keeps its last
      capture, and a group that never took part reads as the empty string. */
  datatype Groups = Groups(bare: string, double: string, single: string)

  const Unset := Groups("", "", "")

  /** One pass through the repeated alternation at position `i`: where it
      ends and the groups it leaves, or None when no alternative matches
      there. A quote without a closing partner matches nothing. */
  function Step(s: string, i: nat, g: Groups): (r: Option<(nat, Groups)>)
    requires i <= |s|
    ensures r.Some? ==> i < r.value.0 <= |s|
    ensures r.Some? <==> i < |s| && (IsBare(s[i]) || (IsQuote(s[i]) && FindChar(s, i + 1, s[i]) < |s|))
  {
    if i == |s| then None
    else if IsBare(s[i]) then
      var e := SkipBare(s, i);
      Some((e, g.(bare := s[i..e])))
    else if IsQuote(s[i]) && FindChar(s, i + 1, s[i]) < |s| then
      var c := FindChar(s, i + 1, s[i]);
      Some((c + 1, if s[i] == '"' then g.(double := s[i + 1..c]) else g.(single := s[i + 1..c])))
    else
      None
  }

  /** The repetition, greedy: passes follow one another until none
      matches. Nothing follows the repetition in the pattern, so the first
      attempt is the match. */
  function Repeat(s: string, i: nat, g: Groups): (r: (nat, Groups))
    requires i <= |s|
    ensures i <= r.0 <= |s|
    ensures Step(s, i, g).Some? ==> i < r.0
    ensures r.0 < |s| ==> Step(s, r.0, r.1).None?
    decreases |s| - i
  {
    match Step(s, i, g)
    case None => (i, g)
    case Some(next) => Repeat(s, next.0, next.1)
  }

  /** `match[0] or match[1] or match[2]`: the first non-empty group. */
  function Pick(g: Groups): (r: string)
    ensures r == [] <==> g.bare == [] && g.double == [] && g.single == []
  {
    if g.bare != [] then g.bare else if g.double != [] then g.double else g.single
  }

  /** `re.findall` over `s`, each match turned into its token. Where no
      match starts the search moves on by one character. */
  function Tokens(s: string): seq<string>
    decreases |s|
  {
    if s == [] then []
    else if Step(s, 0, Unset).None? then Tokens(s[1..])
    else
      var m := Repeat(s, 0, Unset);
      [Pick(m.1)] + Tokens(s[m.0..])
  }

  /** `parse_args(args)`: an empty string gives one empty token, anything
      else the tokens found. */
  function ParseArgs(args: string): seq<string> {
    if args == [] then [[]] else Tokens(args)
  }

  /** On text without quotes `parse_args` is `split()`, except that the
      empty string gives one empty token. */
  lemma ParseArgsPlain(args: string)
    requires NoQuotes(args)
    ensures args == [] ==> ParseArgs(args) == [[]]
    ensures args != [] ==> ParseArgs(args) == Split(args)
  {
    TokensPlain(args, 0);
    assert args[0..] == args;
  }

  /** Without quotes the tokens from any position are the words of
      `split()` from there. */
  lemma {:induction false} TokensPlain(s: string, i: nat)
    requires i <= |s| && NoQuotes(s)
    ensures Tokens(s[i..]) == SplitFrom(s, i)
    decreases |s| - i
  {
    if i == |s| {
      assert s[i..] == [];
      assert SkipSpaces(s, i) == |s|;
    } else if IsSpace(s[i]) {
      PlainSpaceStep(s, i);
      TokensPlain(s, i + 1);
      SplitSkipsSpace(s, i);
    } else {
      var e := PlainWordStep(s, i);
      TokensPlain(s, e);
      SplitFromWord(s, i, e);
    }
  }

  lemma PlainSpaceStep(s: string, i: nat)
    requires i < |s| && IsSpace(s[i])
    ensures Tokens(s[i..]) == Tokens(s[i + 1..])
  {
    var t := s[i..];
    assert t[0] == s[i];
    assert t[1..] == s[i + 1..];
    TokensSkipSpace(t);
  }

  /** The word at position `i` is the next token. */
  lemma PlainWordStep(s: string, i: nat) returns (e: nat)
    requires i < |s| && NoQuotes(s) && !IsSpace(s[i])
    ensures i < e <= |s| && NoSpaceIn(s, i, e) && (e < |s| ==> IsSpace(s[e]))
    ensures Tokens(s[i..]) == [s[i..e]] + Tokens(s[e..])
  {
    var t := s[i..];
    assert t[0] == s[i];
    var b := SkipBare(t, 0);
    assert NoQuotes(t) by {
      forall u | 0 <= u < |t| ensures !IsQuote(t[u]) {
        assert t[u] == s[i + u];
      }
    }
    PlainTerm(t);
    e := i + b;
    assert NoSpaceIn(s, i, e) by {
      forall u | i <= u < e ensures !IsSpace(s[u]) {
        assert s[u] == t[u - i];
      }
    }
    if e < |s| {
      assert s[e] == t[b];
    }
    assert t[0..b] == s[i..e];
    assert t[b..] == s[e..];
  }

  /** Without quotes a match is a run of non-whitespace and its token is
      that run. */
  lemma PlainTerm(t: string)
    requires t != [] && NoQuotes(t) && !IsSpace(t[0])
    ensures var e := SkipBare(t, 0);
      && e > 0 && (e < |t| ==> IsSpace(t[e]))
      && Tokens(t) == [t[0..e]] + Tokens(t[e..])
  {
    var e := SkipBare(t, 0);
    var g := Groups(t[0..e], "", "");
    assert Step(t, 0, Unset) == Some((e, g));
    if e < |t| {
      assert !IsQuote(t[e]);
    }
    assert Repeat(t, 0, Unset) == (e, g) by {
      assert Step(t, e, g).None?;
    }
  }

  /** A whitespace character at the front adds no token. */
  lemma TokensSkipSpace(s: string)
    requires s != [] && IsSpace(s[0])
    ensures Tokens(s) == Tokens(s[1..])
  {
  }

  /** How an argument is written on the command line so that the split
      gives it back: as it is when it is a non-empty run of bare
      characters, otherwise between double quotes, or between single
      quotes when it holds a double quote. */
  function Render(a: string): (r: string)
    ensures |r| > 0
  {
    if a != [] && BareIn(a, 0, |a|) then a
    else if '"' !in a then "\"" + a + "\""
    else "'" + a + "'"
  }

  /** An argument can be written when it is bare or lacks one of the two
      quote characters. */
  predicate Representable(a: string) {
    (a != [] && BareIn(a, 0, |a|)) || '"' !in a || '\'' !in a
  }

  function Renders(args: seq<string>): (r: seq<string>)
    ensures |r| == |args|
    ensures forall n :: 0 <= n < |args| ==> r[n] == Render(args[n])
  {
    seq(|args|, n requires 0 <= n < |args| => Render(args[n]))
  }

  /** A bare argument at the front, followed by the end or by whitespace,
      is one match whose token is the argument. */
  lemma BareAt(a: string, tail: string)
    requires a != [] && BareIn(a, 0, |a|)
    requires tail == [] || IsSpace(tail[0])
    ensures Tokens(a + tail) == [a] + Tokens(tail)
  {
    var s := a + tail;
    assert BareIn(s, 0, |a|) by {
      forall t | 0 <= t < |a| ensures IsBare(s[t]) {
        assert s[t] == a[t];
      }
    }
    if |a| < |s| {
      assert s[|a|] == tail[0];
    }
    SkipBareExact(s, 0, |a|);
    var g := Groups(s[0..|a|], "", "");
    assert s[0..|a|] == a;
    assert Step(s, 0, Unset) == Some((|a|, g));
    assert Repeat(s, 0, Unset) == (|a|, g) by {
      assert Step(s, |a|, g).None?;
    }
    assert s[|a|..] == tail;
  }

  /** A quoted argument at the front, followed by the end or by whitespace,
      is one match whose token is the text between the quotes. */
  lemma QuotedAt(q: char, a: string, tail: string)
    requires IsQuote(q) && q !in a
    requires tail == [] || IsSpace(tail[0])
    ensures Tokens([q] + a + [q] + tail) == [a] + Tokens(tail)
  {
    var s := [q] + a + [q] + tail;
    var g := QuotedMatch(q, a, tail);
    assert s[|a| + 2..] == tail;
  }

  /** The match of a quoted argument and the groups it leaves. */
  lemma QuotedMatch(q: char, a: string, tail: string) returns (g: Groups)
    requires IsQuote(q) && q !in a
    requires tail == [] || IsSpace(tail[0])
    ensures var s := [q] + a + [q] + tail;
      && Step(s, 0, Unset).Some?
      && Repeat(s, 0, Unset) == (|a| + 2, g) && Pick(g) == a
  {
    var s := [q] + a + [q] + tail;
    assert s[0] == q;
    assert forall t :: 1 <= t < |a| + 1 ==> s[t] == a[t - 1];
    assert s[|a| + 1] == q;
    FindCharExact(s, 1, q, |a| + 1);
    assert s[1..|a| + 1] == a;
    g := if q == '"' then Groups("", a, "") else Groups("", "", a);
    assert Step(s, 0, Unset) == Some((|a| + 2, g));
    if |a| + 2 < |s| {
      assert s[|a| + 2] == tail[0];
    }
    assert Step(s, |a| + 2, g).None?;
  }

  /** Splitting gives back the arguments that were written and joined with
      single spaces. */
  lemma {:induction false} TokensJoined(args: seq<string>)
    requires forall n :: 0 <= n < |args| ==> Representable(args[n])
    ensures Tokens(JoinSpaced(Renders(args))) == args
    decreases |args|
  {
    if args != [] {
      TokensJoined(args[1..]);
      JoinedStep(args);
      assert args == [args[0]] + args[1..];
    }
  }

  /** The first written argument gives the first token; the rest are the
      tokens of the remaining arguments. */
  lemma JoinedStep(args: seq<string>)
    requires args != [] && forall n :: 0 <= n < |args| ==> Representable(args[n])
    ensures Tokens(JoinSpaced(Renders(args))) == [args[0]] + Tokens(JoinSpaced(Renders(args[1..])))
  {
    var rs := Renders(args);
    assert rs[1..] == Renders(args[1..]);
    if |args| == 1 {
      TermThen(args[0], []);
      assert rs[0] + [] == JoinSpaced(rs);
    } else {
      var rest := JoinSpaced(rs[1..]);
      var tail := " " + rest;
      TermThen(args[0], tail);
      assert tail[1..] == rest;
      TokensSkipSpace(tail);
      assert rs[0] + tail == JoinSpaced(rs);
    }
  }

  /** A written argument contributes its token and nothing else. */
  lemma TermThen(a: string, tail: string)
    requires Representable(a)
    requires tail == [] || IsSpace(tail[0])
    ensures Tokens(Render(a) + tail) == [a] + Tokens(tail)
  {
    if a != [] && BareIn(a, 0, |a|) {
      BareAt(a, tail);
    } else if '"' !in a {
      QuotedAt('"', a, tail);
      assert Render(a) == ['"'] + a + ['"'];
    } else {
      QuotedAt('\'', a, tail);
      assert Render(a) == ['\''] + a + ['\''];
    }
  }

  /** Round trip: `parse_args` undoes writing and joining a non-empty list
      of arguments. */
  lemma ParseArgsRoundTrip(args: seq<string>)
    requires args != []
    requires forall n :: 0 <= n < |args| ==> Representable(args[n])
    ensures ParseArgs(JoinSpaced(Renders(args))) == args
  {
    TokensJoined(args);
    var rs := Renders(args);
    assert |rs[0]| > 0;
    assert JoinSpaced(rs) != [] by {
      if |rs| > 1 {
        assert JoinSpaced(rs) == rs[0] + " " + JoinSpaced(rs[1..]);
      }
    }
  }

  /** A quoted term becomes one token without its quotes, even when it holds
      spaces. */
  lemma ParseArgsQuoted(q: char, a: string)
    requires IsQuote(q) && q !in a
    ensures ParseArgs([q] + a + [q]) == [a]
  {
    QuotedTerm(q, a);
  }

  lemma QuotedTerm(q: char, a: string)
    requires IsQuote(q) && q !in a
    ensures Tokens([q] + a + [q]) == [a]
  {
    QuotedAt(q, a, []);
    assert [q] + a + [q] + [] == [q] + a + [q];
  }

  /** A quote that is never closed matches nothing: the text after it is
      split as usual. */
  lemma UnclosedQuoteSkipped(q: char, w: string)
    requires IsQuote(q) && w != [] && BareIn(w, 0, |w|)
    ensures ParseArgs([q] + w) == [w]
  {
    var s := [q] + w;
    assert forall t :: 1 <= t < |s| ==> s[t] == w[t - 1];
    assert FindChar(s, 1, q) == |s|;
    assert Step(s, 0, Unset).None?;
    assert s[1..] == w;
    BareAt(w, []);
    assert w + [] == w;
  }

  /** A term that mixes bare text and a quoted string is one match. Each
      group keeps its last capture, so the token is the bare run after the
      quotes, else the one before them, and the quoted text only when there
      is no bare run at all: `ab"cd"ef` gives `ef`, `ab"cd"` gives `ab`. */
  lemma MixedTermKeepsBareRun(q: char, a: string, d: string, b: string)
    requires IsQuote(q) && q !in d && BareIn(a, 0, |a|) && BareIn(b, 0, |b|)
    ensures ParseArgs(a + [q] + d + [q] + b) == [if b != [] then b else if a != [] then a else d]
  {
    MixedTermThen(q, a, d, b, []);
    assert a + [q] + d + [q] + b + [] == a + [q] + d + [q] + b;
  }

  /** The mixed term followed by the end or by whitespace: one token, and
      the rest is split on its own. */
  lemma MixedTermThen(q: char, a: string, d: string, b: string, tail: string)
    requires IsQuote(q) && q !in d && BareIn(a, 0, |a|) && BareIn(b, 0, |b|)
    requires tail == [] || IsSpace(tail[0])
    ensures Tokens(a + [q] + d + [q] + b + tail) ==
      [if b != [] then b else if a != [] then a else d] + Tokens(tail)
  {
    var s := a + [q] + d + [q] + b + tail;
    var k := |a| + |d| + 2 + |b|;
    MixedLayout(q, a, d, b, tail);
    if k < |s| {
      assert s[k] == tail[0];
    }
    var g := MixedMatch(s, q, a, d, b, |a|, |a| + |d| + 2, k);
    assert Pick(g) == (if b != [] then b else if a != [] then a else d);
  }

  /** The passes over a mixed term laid out in `s`: the bare run `a`, the
      quoted `d` and the bare run `b`, then the end or whitespace. */
  lemma MixedMatch(s: string, q: char, a: string, d: string, b: string, i: nat, j: nat, k: nat) returns (g: Groups)
    requires IsQuote(q) && i == |a| && j == i + |d| + 2 && k == j + |b| && k <= |s|
    requires BareIn(s, 0, i) && s[0..i] == a
    requires s[i] == q && s[j - 1] == q && s[i + 1..j - 1] == d
    requires forall t :: i < t < j - 1 ==> s[t] != q
    requires BareIn(s, j, k) && s[j..k] == b
    requires k < |s| ==> IsSpace(s[k])
    ensures Step(s, 0, Unset).Some?
    ensures Repeat(s, 0, Unset) == (k, g)
    ensures g.bare == (if b != [] then b else a)
    ensures g.double == (if q == '"' then d else "") && g.single == (if q == '"' then "" else d)
  {
    var g1 := Groups(a, "", "");
    FrontRun(s, a);
    var g2 := QuoteRun(s, i, j - 1, q, d, g1);
    if a == [] {
      assert g1 == Unset;
    }
    g := BackRun(s, j, k, b, g2);
    assert Repeat(s, 0, Unset) == Repeat(s, i, g1) == Repeat(s, j, g2) == (k, g);
  }

  /** A bare run `a` at the front, ended by a character that is not bare,
      is a first pass that leaves `a` in the bare group; the empty run is
      no pass at all. */
  lemma FrontRun(s: string, a: string)
    requires BareIn(s, 0, |a|) && s[0..|a|] == a && |a| < |s| && !IsBare(s[|a|])
    ensures Repeat(s, 0, Unset) == Repeat(s, |a|, Groups(a, "", ""))
    ensures a != [] ==> Step(s, 0, Unset).Some?
  {
    if a != [] {
      BareStep(s, 0, |a|, Unset);
    }
  }

  /** A bare run `b` from `j` to `k`, followed by the end or by
      whitespace, is the last pass: it leaves `b` in the bare group when it
      is not empty. */
  lemma BackRun(s: string, j: nat, k: nat, b: string, g: Groups) returns (g': Groups)
    requires k == j + |b| && BareIn(s, j, k) && s[j..k] == b && (k < |s| ==> IsSpace(s[k]))
    ensures g' == (if b != [] then g.(bare := b) else g)
    ensures Repeat(s, j, g) == (k, g')
  {
    g' := if b != [] then g.(bare := b) else g;
    if b != [] {
      BareStep(s, j, k, g);
    }
    assert Step(s, k, g').None?;
  }

  /** Where the pieces of `a + [q] + d + [q] + b + tail` lie. */
  lemma MixedLayout(q: char, a: string, d: string, b: string, tail: string)
    requires IsQuote(q) && q !in d && BareIn(a, 0, |a|) && BareIn(b, 0, |b|)
    ensures var s, i, j := a + [q] + d + [q] + b + tail, |a|, |a| + |d| + 2;
      && |s| == j + |b| + |tail|
      && BareIn(s, 0, i) && s[0..i] == a
      && s[i] == q && s[j - 1] == q && s[i + 1..j - 1] == d
      && (forall t :: i < t < j - 1 ==> s[t] != q)
      && BareIn(s, j, j + |b|) && s[j..j + |b|] == b && s[j + |b|..] == tail
  {
    var m, r := [q] + d + [q], b + tail;
    assert a + [q] + d + [q] + b + tail == a + (m + r);
    FrontLayout(a, m + r);
    QuoteLayout(q, d, a, r);
    BackLayout(a + m, b, tail);
    assert a + m + b + tail == a + [q] + d + [q] + b + tail;
  }

  lemma FrontLayout(a: string, u: string)
    requires BareIn(a, 0, |a|)
    ensures BareIn(a + u, 0, |a|) && (a + u)[0..|a|] == a && (a + u)[|a|..] == u
  {
    PieceAt(a, u);
  }

  lemma QuoteLayout(q: char, d: string, a: string, r: string)
    requires q !in d
    ensures var s, i, j := a + ([q] + d + [q] + r), |a|, |a| + |d| + 2;
      && s[i] == q && s[j - 1] == q && s[i + 1..j - 1] == d
      && (forall t :: i < t < j - 1 ==> s[t] != q)
  {
    var s, i, j := a + ([q] + d + [q] + r), |a|, |a| + |d| + 2;
    assert forall t :: i < t < j - 1 ==> s[t] == d[t - i - 1];
    assert s[i + 1..j - 1] == d;
  }

  lemma BackLayout(p: string, b: string, tail: string)
    requires BareIn(b, 0, |b|)
    ensures var s, j := p + b + tail, |p|;
      && BareIn(s, j, j + |b|) && s[j..j + |b|] == b && s[j + |b|..] == tail
  {
    var s, j := p + b + tail, |p|;
    assert forall t :: j <= t < j + |b| ==> s[t] == b[t - j];
    assert s[j..j + |b|] == b;
  }

  /** The front of `p + r` is `p` and the rest is `r`. */
  lemma PieceAt(p: string, r: string)
    ensures (p + r)[..|p|] == p && (p + r)[|p|..] == r
    ensures forall t :: 0 <= t < |p| ==> (p + r)[t] == p[t]
  {
  }

  /** A pass through the bare alternative from `i` to the end `e` of the
      run. */
  lemma BareStep(s: string, i: nat, e: nat, g: Groups)
    requires i < e && BareIn(s, i, e) && (e < |s| ==> !IsBare(s[e]))
    ensures Step(s, i, g) == Some((e, g.(bare := s[i..e])))
  {
    SkipBareExact(s, i, e);
  }

  /** A pass through a quoted alternative from the quote `q` at `i` to its
      partner at `c`, with `d` between them. */
  lemma QuoteRun(s: string, i: nat, c: nat, q: char, d: string, g: Groups) returns (g': Groups)
    requires i < c < |s| && IsQuote(q) && s[i] == q && s[c] == q && s[i + 1..c] == d
    requires forall t :: i < t < c ==> s[t] != q
    ensures g' == (if q == '"' then g.(double := d) else g.(single := d))
    ensures Step(s, i, g) == Some((c + 1, g'))
    ensures Repeat(s, i, g) == Repeat(s, c + 1, g')
  {
    FindCharExact(s, i + 1, q, c);
    g' := if q == '"' then g.(double := d) else g.(single := d);
  }

  // ---------------------------------------------------------------------
  // The plain split (dev.py:99-102)
  // ---------------------------------------------------------------------

  /** `parse_args(args)` of dev.py: None stays None, text is split at
      whitespace. */
  function SplitArgs(args: Option<string>): (r: Option<seq<string>>)
    ensures r.None? <==> args.None?
    ensures r.Some? ==> Words(r.value) && (r.value == [] <==> AllSpace(args.value))
  {
    match args
    case None => None
    case Some(a) => Some(Split(a))
  }

  /** A word followed by a brace payload that the loader escaped splits into
      exactly those two tokens: the payload stays whole. */
  lemma SplitArgsKeepsPayload(word: string, inner: string)
    requires word != [] && NoSpace(word)
    requires forall t :: 0 <= t < |inner| ==> inner[t] != '}'
    requires forall t :: 0 <= t < |inner| ==> inner[t] == ' ' || !IsSpace(inner[t])
    ensures var payload := Config.EscapeBraces("{" + inner + "}");
      SplitArgs(Some(word + " " + payload)) == Some([word, payload])
  {
    Config.EscapedPayloadIsOneWord(inner);
    SplitWordPair(word, Config.EscapeBraces("{" + inner + "}"));
  }

  lemma SplitWordPair(word: string, payload: string)
    requires word != [] && NoSpace(word) && payload != [] && NoSpace(payload)
    ensures Split(word + " " + payload) == [word, payload]
  {
    var ws := [word, payload];
    assert Words(ws);
    assert JoinSpaced(ws) == word + " " + payload by {
      assert ws[1..] == [payload];
    }
    SplitJoinSpaced(ws);
  }
}

=== FILE: beeps.dfy ===
/** The `beep` experiment of python/dev.py: a registry of beep ids kept in
    the configuration under `beeping`, the operations on it, and the
    parsing of `beep` arguments into an interval, a duration and a message. */
module Beeps {
  import opened Wrappers
  import opened Text
  import Args
  import Config

  /** Beep id to "still beeping". */
  type Registry = map<nat, bool>

  /** `config['beeping']`: absent until the first id is handed out. */
  type Slot = Option<Registry>

  // ---------------------------------------------------------------------
  // The registry (python/dev.py:119-141)
  // ---------------------------------------------------------------------

  /** `beeping(id, status)` with both given: entry `id` becomes `status`. */
  function SetBeeping(slot: Slot, id: nat, status: bool): (r: Result<Registry>)
    ensures r.Err? <==> slot.None?
    ensures r.Err? ==> r.fault == KeyError
    ensures r.Ok? ==> r.value.Keys == slot.value.Keys + {id} && r.value[id] == status
    ensures r.Ok? ==> forall k :: k in slot.value && k != id ==> r.value[k] == slot.value[k]
  {
    match slot
    case None => Err(KeyError)
    case Some(m) => Ok(m[id := status])
  }

  /** `beeping(None)`: every entry becomes False. */
  function StopAll(slot: Slot): (r: Result<Registry>)
    ensures r.Err? <==> slot.None?
    ensures r.Err? ==> r.fault == KeyError
    ensures r.Ok? ==> r.value.Keys == slot.value.Keys && forall k :: k in r.value ==> !r.value[k]
  {
    match slot
    case None => Err(KeyError)
    case Some(m) => Ok(map k | k in m :: false)
  }

  /** `beeping(id)` without a status: the stored flag. The registry is a
      value here, so reading it cannot change it. */
  function IsBeeping(slot: Slot, id: nat): (r: Result<bool>)
    ensures r.Ok? <==> slot.Some? && id in slot.value
    ensures r.Err? ==> r.fault == KeyError
    ensures r.Ok? ==> r.value == slot.value[id]
  {
    match slot
    case None => Err(KeyError)
    case Some(m) => if id in m then Ok(m[id]) else Err(KeyError)
  }

  /** `del_beep_id(id)`: removes `id` when present. */
  function DelBeepId(slot: Slot, id: nat): (r: Result<Registry>)
    ensures r.Err? <==> slot.None?
    ensures r.Err? ==> r.fault == KeyError
    ensures r.Ok? ==> r.value.Keys == slot.value.Keys - {id}
    ensures r.Ok? ==> forall k :: k in r.value ==> r.value[k] == slot.value[k]
  {
    match slot
    case None => Err(KeyError)
    case Some(m) => Ok(m - {id})
  }

  /** `id` is free and every smaller id is taken. */
  predicate LeastFreeId(m: Registry, id: nat) {
    id !in m && forall k :: 0 <= k < id ==> k in m
  }

  lemma SubsetCard<T>(a: set<T>, b: set<T>)
    requires a <= b
    ensures |a| <= |b|
  {
    assert b == a + (b - a);
  }

  /** The ids below `n`. */
  function Below(n: nat): (r: set<nat>)
    ensures |r| == n
    ensures forall k: nat :: k in r <==> k < n
  {
    if n == 0 then {} else Below(n - 1) + {n - 1}
  }

  /** A registry holding every id below `n` has at least `n` entries. */
  lemma TakenBelow(m: Registry, n: nat)
    requires forall k :: 0 <= k < n ==> k in m
    ensures |m.Keys| >= n
  {
    SubsetCard(Below(n), m.Keys);
  }

  /** The loop of `get_beep_id` from `k` on, all ids below `k` being taken. */
  function FreeFrom(m: Registry, k: nat): (id: nat)
    requires forall j :: 0 <= j < k ==> j in m
    ensures k <= id && LeastFreeId(m, id)
    decreases |m.Keys| - k
  {
    if k !in m then k
    else
      TakenBelow(m, k + 1);
      FreeFrom(m, k + 1)
  }

  /** `get_beep_id()`: creates the registry when it is missing and returns
      the least id that is not a key. */
  function GetBeepId(slot: Slot): (r: (Registry, nat))
    ensures r.0 == slot.GetOr(map[])
    ensures LeastFreeId(r.0, r.1)
  {
    var m := slot.GetOr(map[]);
    (m, FreeFrom(m, 0))
  }

  /** The least free id is unique. */
  lemma LeastFreeUnique(m: Registry, a: nat, b: nat)
    requires LeastFreeId(m, a) && LeastFreeId(m, b)
    ensures a == b
  {
  }

  /** Deleting an id frees it for the next `get_beep_id`, which returns it
      or a smaller id. */
  lemma DeletedIdReused(m: Registry, id: nat)
    ensures var d := DelBeepId(Some(m), id);
      d.Ok? && GetBeepId(Some(d.value)).1 <= id
  {
  }

  // ---------------------------------------------------------------------
  // Durations (python/dev.py:24, python/dev.py:195-202)
  // ---------------------------------------------------------------------

  /** `TIME_SUFFIX_DICT`: seconds per unit. The upper-case suffixes that the
      pattern accepts have no entry. */
  const TimeSuffixes: map<string, nat> := map["" := 1, "s" := 1, "m" := 60, "h" := 60 * 60]

  /** `[smhSMH]`. */
  predicate IsSuffixChar(c: char) {
    c == 's' || c == 'm' || c == 'h' || c == 'S' || c == 'M' || c == 'H'
  }

  /** `^(\d*)([smhSMH]?)$`: the digits and the suffix of `t`, when `t` has
      that shape. A suffix character is never a digit, so the split is
      unique. */
  function SuffixSplit(t: string): (r: Option<(string, string)>)
    ensures r.Some? ==> r.value.0 + r.value.1 == t && AllDigits(r.value.0)
    ensures r.Some? ==> r.value.1 == [] || (|r.value.1| == 1 && IsSuffixChar(r.value.1[0]))
  {
    if AllDigits(t) then Some((t, []))
    else if IsSuffixChar(t[|t| - 1]) && AllDigits(t[..|t| - 1]) then Some((t[..|t| - 1], [t[|t| - 1]]))
    else None
  }

  /** What the conversion leaves in the interval or duration variable: a
      number of seconds, the text unchanged when it is not an integer with
      a suffix, or the exception that the conversion raises. */
  datatype TimeValue = Seconds(n: nat) | Verbatim(text: string) | TimeFault(fault: Fault)

  /** `float(digits) * TIME_SUFFIX_DICT[suffix]`, left operand first: no
      digits is a ValueError, an upper-case suffix a KeyError. */
  function ToSeconds(t: string): (r: TimeValue)
    ensures r.Verbatim? <==> SuffixSplit(t).None?
    ensures r.Verbatim? ==> r.text == t
  {
    match SuffixSplit(t)
    case None => Verbatim(t)
    case Some(ds) =>
      if ds.0 == [] then TimeFault(ValueError)
      else if ds.1 !in TimeSuffixes then TimeFault(KeyError)
      else Seconds(DigitsValue(ds.0) * TimeSuffixes[ds.1])
  }

  /** An integer with no suffix or `s` counts seconds, `m` minutes and `h`
      hours. */
  lemma ToSecondsUnits(d: string)
    requires d != [] && AllDigits(d)
    ensures ToSeconds(d) == Seconds(DigitsValue(d))
    ensures ToSeconds(d + "s") == Seconds(DigitsValue(d))
    ensures ToSeconds(d + "m") == Seconds(DigitsValue(d) * 60)
    ensures ToSeconds(d + "h") == Seconds(DigitsValue(d) * 3600)
  {
    SuffixOf(d, 's');
    SuffixOf(d, 'm');
    SuffixOf(d, 'h');
  }

  /** The upper-case suffixes pass the pattern and fail the table lookup. */
  lemma ToSecondsUpperCase(d: string, c: char)
    requires d != [] && AllDigits(d)
    requires c == 'S' || c == 'M' || c == 'H'
    ensures ToSeconds(d + [c]) == TimeFault(KeyError)
  {
    SuffixOf(d, c);
  }

  lemma SuffixOf(d: string, c: char)
    requires AllDigits(d) && IsSuffixChar(c)
    ensures SuffixSplit(d + [c]) == Some((d, [c]))
  {
    var t := d + [c];
    assert !IsDigit(t[|t| - 1]);
    assert t[..|t| - 1] == d;
  }

  // ---------------------------------------------------------------------
  // The `beep` arguments (python/dev.py:154-192)
  // ---------------------------------------------------------------------

  /** `\d+(\.\d+)?|\.\d+`, the whole of `n`. */
  predicate IsNumeral(n: string) {
    var p := Args.FindChar(n, 0, '.');
    if p == |n| then n != [] && AllDigits(n)
    else p + 1 < |n| && AllDigits(n[..p]) && AllDigits(n[p + 1..])
  }

  /** `w` without a trailing suffix character. */
  function Unsuffixed(w: string): (r: string)
    ensures |r| <= |w| && r == w[..|r|]
  {
    if w != [] && IsSuffixChar(w[|w| - 1]) then w[..|w| - 1] else w
  }

  /** A time: a numeral followed by at most one suffix character. */
  predicate IsTime(w: string) {
    IsNumeral(Unsuffixed(w))
  }

  /** Which of the four patterns the stripped arguments match first, with
      the text of the groups the code reads. */
  datatype Form =
    | Full(interval: string, duration: string, message: string)
    | Pair(interval: string, duration: string)
    | WithMessage(interval: string, message: string)
    | Single(interval: string)
    | NoForm

  /** The four patterns, tried in order. A time cannot hold whitespace and
      must be followed by whitespace or the end, so the first time is the
      first word and the second time the second word. */
  function FormOf(s: string): (f: Form)
    requires Config.IsLine(s)
    ensures !f.NoForm? ==> IsTime(f.interval) && StartsWith(s, f.interval)
    ensures f.Full? || f.Pair? ==> IsTime(f.duration)
    ensures f.Single? ==> f.interval == s
    ensures f.Full? ==> |f.message| > 0 && !IsSpace(f.message[0])
    ensures f.WithMessage? ==> |f.message| > 0 && !IsSpace(f.message[0]) && !IsDigit(f.message[0])
  {
    var e1 := SkipWord(s, 0);
    var a1 := SkipSpaces(s, e1);
    var e2 := SkipWord(s, a1);
    var a2 := SkipSpaces(s, e2);
    var w1, w2 := s[..e1], s[a1..e2];
    if IsTime(w1) && e1 < a1 && IsTime(w2) && e2 < a2 < |s| then Full(w1, w2, s[a2..])
    else if IsTime(w1) && e1 < a1 && IsTime(w2) && e2 == |s| then Pair(w1, w2)
    else if IsTime(w1) && e1 < a1 < |s| && !IsDigit(s[a1]) then WithMessage(w1, s[a1..])
    else if IsTime(w1) && e1 == |s| then Single(w1)
    else NoForm
  }

  /** A time is a non-empty word that starts with a digit or a dot. */
  lemma TimeShape(w: string)
    requires IsTime(w)
    ensures w != [] && NoSpace(w) && (IsDigit(w[0]) || w[0] == '.')
  {
    var n := Unsuffixed(w);
    var p := Args.FindChar(n, 0, '.');
    assert forall t :: 0 <= t < |n| ==> IsDigit(n[t]) || n[t] == '.' by {
      if p < |n| {
        assert forall t :: 0 <= t < p ==> n[t] == n[..p][t];
        assert forall t :: p < t < |n| ==> n[t] == n[p + 1..][t - p - 1];
      }
    }
    assert n != [] && n[0] == w[0];
    assert forall t :: 0 <= t < |n| ==> w[t] == n[t];
  }

  /** A word that cannot start a time is not one. */
  lemma NotTime(w: string)
    requires w != [] && !IsDigit(w[0]) && w[0] != '.'
    ensures !IsTime(w)
  {
    if IsTime(w) {
      TimeShape(w);
    }
  }

  /** The pattern chosen once the first two words are located: two times
      and nothing after them. */
  lemma PairAt(s: string, e1: nat, a1: nat, i: string, d: string)
    requires Config.IsLine(s)
    requires e1 <= |s| && SkipWord(s, 0) == e1 && a1 <= |s| && SkipSpaces(s, e1) == a1 && e1 < a1
    requires SkipWord(s, a1) == |s| && s[..e1] == i && s[a1..|s|] == d && IsTime(i) && IsTime(d)
    ensures FormOf(s) == Pair(i, d)
  {
    assert SkipSpaces(s, |s|) == |s|;
  }

  /** Two times and more text after whitespace. */
  lemma FullAt(s: string, e1: nat, a1: nat, e2: nat, a2: nat, i: string, d: string, msg: string)
    requires Config.IsLine(s)
    requires e1 <= |s| && SkipWord(s, 0) == e1 && a1 <= |s| && SkipSpaces(s, e1) == a1 && e1 < a1
    requires SkipWord(s, a1) == e2 && e2 <= |s| && SkipSpaces(s, e2) == a2 && e2 < a2 < |s|
    requires s[..e1] == i && s[a1..e2] == d && s[a2..] == msg && IsTime(i) && IsTime(d)
    ensures FormOf(s) == Full(i, d, msg)
  {
  }

  /** A time, whitespace and a second word that is no time and does not
      start with a digit. */
  lemma WithMessageAt(s: string, e1: nat, a1: nat, i: string, w: string, msg: string)
    requires Config.IsLine(s)
    requires e1 <= |s| && SkipWord(s, 0) == e1 && a1 <= |s| && SkipSpaces(s, e1) == a1 && e1 < a1 < |s|
    requires s[..e1] == i && s[a1..SkipWord(s, a1)] == w && s[a1..] == msg
    requires IsTime(i) && !IsTime(w) && !IsDigit(s[a1])
    ensures FormOf(s) == WithMessage(i, msg)
  {
  }

  /** A lone time is the fourth pattern, and nothing else is. */
  lemma FormSingle(s: string)
    requires Config.IsLine(s)
    ensures FormOf(s).Single? <==> IsTime(s)
    ensures IsTime(s) ==> FormOf(s) == Single(s)
  {
    if IsTime(s) {
      TimeShape(s);
      SkipWordExact(s, 0, |s|);
      assert SkipSpaces(s, |s|) == |s|;
      assert s[..|s|] == s;
    }
  }

  /** Two times separated by whitespace are the second pattern. */
  lemma FormPair(i: string, sp: string, d: string)
    requires IsTime(i) && IsTime(d) && sp != [] && AllSpace(sp) && Config.IsLine(sp)
    ensures Config.IsLine(i + sp + d)
    ensures FormOf(i + sp + d) == Pair(i, d)
  {
    var s := i + sp + d;
    TimeShape(i);
    TimeShape(d);
    WordThenGap(i, sp, d);
    SkipWordAfter(i + sp, d, 0);
    SkipWordExact(d, 0, |d|);
    assert s[|i| + |sp|..|s|] == d;
    Config.WordIsLine(i);
    Config.WordIsLine(d);
    Config.LineConcat(i, sp);
    Config.LineConcat(i + sp, d);
    PairAt(s, |i|, |i| + |sp|, i, d);
  }

  /** Words without whitespace, runs of whitespace and a message that is a
      line make one line. */
  lemma FullLine(i: string, sp1: string, d: string, sp2: string, msg: string)
    requires NoSpace(i) && NoSpace(d) && Config.IsLine(sp1) && Config.IsLine(sp2) && Config.IsLine(msg)
    ensures Config.IsLine(i + sp1 + (d + sp2 + msg))
  {
    Config.WordIsLine(i);
    Config.WordIsLine(d);
    Config.LineConcat(i, sp1);
    Config.LineConcat(d, sp2);
    Config.LineConcat(d + sp2, msg);
    Config.LineConcat(i + sp1, d + sp2 + msg);
  }

  /** Where the words and runs of `i sp1 d sp2 msg` lie, for words
      without whitespace and a message that does not start with it. */
  lemma FullLayout(i: string, sp1: string, d: string, sp2: string, msg: string) returns (s: string, a1: nat)
    requires i != [] && NoSpace(i) && d != [] && NoSpace(d)
    requires sp1 != [] && AllSpace(sp1) && sp2 != [] && AllSpace(sp2) && msg != [] && !IsSpace(msg[0])
    requires Config.IsLine(sp1) && Config.IsLine(sp2) && Config.IsLine(msg)
    ensures s == i + sp1 + (d + sp2 + msg) && a1 == |i| + |sp1| && a1 + |d| + |sp2| < |s|
    ensures Config.IsLine(s)
    ensures SkipWord(s, 0) == |i| && SkipSpaces(s, |i|) == a1 && s[..|i|] == i
    ensures SkipWord(s, a1) == a1 + |d| && SkipSpaces(s, a1 + |d|) == a1 + |d| + |sp2|
    ensures s[a1..a1 + |d|] == d && s[a1 + |d| + |sp2|..] == msg
  {
    var rest := d + sp2 + msg;
    s, a1 := i + sp1 + rest, |i| + |sp1|;
    WordThenGap(i, sp1, rest);
    SecondWord(s, a1, d, sp2, msg);
    FullLine(i, sp1, d, sp2, msg);
  }

  /** The second word, its run of whitespace and the message, found in `s`
      from position `k` on. */
  lemma SecondWord(s: string, k: nat, d: string, sp2: string, msg: string)
    requires d != [] && NoSpace(d) && sp2 != [] && AllSpace(sp2) && msg != [] && !IsSpace(msg[0])
    requires k <= |s| && s[k..] == d + sp2 + msg
    ensures SkipWord(s, k) == k + |d| && SkipSpaces(s, k + |d|) == k + |d| + |sp2|
    ensures s[k..k + |d|] == d && s[k + |d| + |sp2|..] == msg
  {
    WordThenGap(d, sp2, msg);
    RunsFrom(s, k, d + sp2 + msg, d, |sp2|, msg);
  }

  /** Two times and a message, separated by whitespace, are the first
      pattern. */
  lemma FormFull(i: string, sp1: string, d: string, sp2: string, msg: string)
    requires IsTime(i) && IsTime(d)
    requires sp1 != [] && AllSpace(sp1) && Config.IsLine(sp1)
    requires sp2 != [] && AllSpace(sp2) && Config.IsLine(sp2)
    requires msg != [] && !IsSpace(msg[0]) && Config.IsLine(msg)
    ensures Config.IsLine(i + sp1 + (d + sp2 + msg))
    ensures FormOf(i + sp1 + (d + sp2 + msg)) == Full(i, d, msg)
  {
    var s, a1 := TimesLayout(i, sp1, d, sp2, msg);
    FullAt(s, |i|, a1, a1 + |d|, a1 + |d| + |sp2|, i, d, msg);
  }

  /** The layout of two times, whitespace and a message. */
  lemma TimesLayout(i: string, sp1: string, d: string, sp2: string, msg: string) returns (s: string, a1: nat)
    requires IsTime(i) && IsTime(d)
    requires sp1 != [] && AllSpace(sp1) && sp2 != [] && AllSpace(sp2) && msg != [] && !IsSpace(msg[0])
    requires Config.IsLine(sp1) && Config.IsLine(sp2) && Config.IsLine(msg)
    ensures s == i + sp1 + (d + sp2 + msg) && a1 == |i| + |sp1| && a1 + |d| + |sp2| < |s|
    ensures Config.IsLine(s)
    ensures SkipWord(s, 0) == |i| && SkipSpaces(s, |i|) == a1 && s[..|i|] == i
    ensures SkipWord(s, a1) == a1 + |d| && SkipSpaces(s, a1 + |d|) == a1 + |d| + |sp2|
    ensures s[a1..a1 + |d|] == d && s[a1 + |d| + |sp2|..] == msg
  {
    TimeShape(i);
    TimeShape(d);
    s, a1 := FullLayout(i, sp1, d, sp2, msg);
  }

  /** A time and a message that cannot start a time are the third pattern. */
  lemma FormWithMessage(i: string, sp: string, msg: string)
    requires IsTime(i) && sp != [] && AllSpace(sp) && Config.IsLine(sp)
    requires msg != [] && !IsSpace(msg[0]) && !IsDigit(msg[0]) && msg[0] != '.' && Config.IsLine(msg)
    ensures Config.IsLine(i + sp + msg)
    ensures FormOf(i + sp + msg) == WithMessage(i, msg)
  {
    var s := i + sp + msg;
    var o := |i| + |sp|;
    TimeShape(i);
    WordThenGap(i, sp, msg);
    SkipWordAfter(i + sp, msg, 0);
    var w := s[o..SkipWord(s, o)];
    assert SkipWord(msg, 0) > 0;
    assert w == msg[..SkipWord(msg, 0)];
    NotTime(w);
    Config.WordIsLine(i);
    Config.LineConcat(i, sp);
    Config.LineConcat(i + sp, msg);
    WithMessageAt(s, |i|, o, i, w, msg);
  }

  /** Interval, duration and message of a beep. */
  datatype BeepParams = BeepParams(interval: string, duration: string, message: string)

  const Defaults := BeepParams("1", "10", "beep")

  /** The assignments as written: the third pattern has four groups, so
      `m.group(7)` raises IndexError. */
  function ParamsAsWritten(f: Form): (r: Result<BeepParams>)
    ensures r.Err? <==> f.WithMessage?
  {
    match f
    case Full(i, d, msg) => Ok(BeepParams(i, d, msg))
    case Pair(i, d) => Ok(BeepParams(i, d, Defaults.message))
    case WithMessage(_, _) => Err(IndexError)
    case Single(i) => Ok(BeepParams(i, Defaults.duration, Defaults.message))
    case NoForm => Ok(Defaults)
  }

  /** The assignments with the message read from group 4, the group that
      holds it in the third pattern. */
  function Params(f: Form): (r: BeepParams)
    ensures !f.WithMessage? ==> ParamsAsWritten(f) == Ok(r)
    ensures f.WithMessage? ==> r.interval == f.interval && r.duration == Defaults.duration && r.message == f.message
  {
    match f
    case Full(i, d, msg) => BeepParams(i, d, msg)
    case Pair(i, d) => BeepParams(i, d, Defaults.message)
    case WithMessage(i, msg) => BeepParams(i, Defaults.duration, msg)
    case Single(i) => BeepParams(i, Defaults.duration, Defaults.message)
    case NoForm => Defaults
  }

  /** What `beep` is asked to do. */
  datatype Request = StopOne(id: nat) | StopEvery | BadStop | Start(form: Form)

  /** `^stop (\d*)$`, then `stop`, then the four patterns, on the stripped
      arguments. An empty id would be an `int('')` ValueError, but the
      stripped text cannot end in the space that `stop ` needs, so that
      branch is never taken. */
  function ParseBeep(args: string): (r: Request)
    requires Config.IsLine(args)
    ensures !r.BadStop?
    ensures r.StopEvery? <==> Strip(args) == "stop"
    ensures r.Start? ==> r.form == FormOf(Strip(args))
  {
    var s := Strip(args);
    Config.StripLine(args);
    if StartsWith(s, "stop ") && AllDigits(s[5..]) then
      if |s| == 5 then BadStop else StopOne(DigitsValue(s[5..]))
    else if s == "stop" then StopEvery
    else Start(FormOf(s))
  }

  /** Which reading of the third pattern's groups a run uses. */
  datatype Reading = AsWritten | Corrected

  /** What a `beep` command leaves behind. `Crashed`: the task raised
      `fault` and the registry is `slot`. `Ran`: beep `id` ran every
      `interval` seconds for `duration` seconds with `message`; the registry
      was `during` while it ran and is `after` once the `finally` block has
      run. */
  datatype Outcome =
    | Stopped(registry: Registry)
    | Crashed(fault: Fault, slot: Slot)
    | Ran(id: nat, interval: nat, duration: nat, message: string, during: Registry, after: Registry)

  /** The `beep` coroutine, its waiting left out. */
  function Beep(reading: Reading, slot: Slot, args: string): Outcome
    requires Config.IsLine(args)
  {
    match ParseBeep(args)
    case StopOne(n) => Settle(SetBeeping(slot, n, false), slot)
    case StopEvery => Settle(StopAll(slot), slot)
    case BadStop => Crashed(ValueError, slot)
    case Start(form) => StartBeep(reading, slot, form)
  }

  /** A stop request ends with the updated registry, or with the KeyError
      raised when there is none. */
  function Settle(r: Result<Registry>, slot: Slot): (o: Outcome)
    ensures o.Stopped? <==> r.Ok?
    ensures r.Ok? ==> o.registry == r.value
    ensures r.Err? ==> o == Crashed(r.fault, slot)
  {
    match r
    case Err(f) => Crashed(f, slot)
    case Ok(m) => Stopped(m)
  }

  /** The parameters a reading takes from a form. */
  function ParamsOf(reading: Reading, form: Form): (r: Result<BeepParams>)
    ensures reading == Corrected ==> r == Ok(Params(form))
    ensures reading == AsWritten ==> r == ParamsAsWritten(form)
  {
    if reading == AsWritten then ParamsAsWritten(form) else Ok(Params(form))
  }

  /** A new beep: an id is taken and marked as beeping before the
      arguments are read. A beep that crashes leaves its id registered, so
      no later beep gets that id again; one that runs leaves the registry
      as it found it. */
  function StartBeep(reading: Reading, slot: Slot, form: Form): (o: Outcome)
    ensures var (m, id) := GetBeepId(slot);
      && !o.Stopped?
      && (o.Ran? ==> o.id == id && o.during == m[id := true] && o.after == m)
      && (o.Crashed? ==> o.slot.Some? && o.slot.value.Keys == m.Keys + {id} && GetBeepId(o.slot).1 != id)
      && (o.Crashed? ==> forall k :: k in m ==> o.slot.value[k] == m[k])
  {
    var (m, id) := GetBeepId(slot);
    var params := ParamsOf(reading, form);
    if params.Err? then Crashed(params.fault, Some(m[id := true]))
    else RunWith(m, id, params.value)
  }

  /** The times are converted; a conversion error ends the task with the
      id still marked. Otherwise `run_beep` is started and the duration
      slept. A time still held as text reaches `asyncio.sleep`, whose
      `delay <= 0` raises TypeError: for the duration in `beep` itself, and
      the task that was cancelled before it ran then raises
      CancelledError from the `finally` block; for the interval inside the
      task, and `await beep_task` raises it again. Either way the flag is
      cleared but `del_beep_id` is never reached. Otherwise the `finally`
      block clears the flag and deletes the id. */
  function RunWith(m: Registry, id: nat, p: BeepParams): (o: Outcome)
    requires id !in m
    ensures var iv, du := ToSeconds(p.interval), ToSeconds(p.duration);
      && (o.Ran? <==> iv.Seconds? && du.Seconds?)
      && (o.Ran? ==> o.id == id && o.interval == iv.n && o.duration == du.n && o.message == p.message)
      && (o.Ran? ==> o.during == m[id := true] && o.after == m)
    ensures o.Crashed? ==>
      && o.slot.Some? && o.slot.value.Keys == m.Keys + {id}
      && (forall k :: k in m ==> o.slot.value[k] == m[k])
      && (o.slot.value[id] <==> ToSeconds(p.interval).TimeFault? || ToSeconds(p.duration).TimeFault?)
    ensures var iv, du := ToSeconds(p.interval), ToSeconds(p.duration);
      && (iv.TimeFault? ==> o == Crashed(iv.fault, Some(m[id := true])))
      && (!iv.TimeFault? && du.TimeFault? ==> o == Crashed(du.fault, Some(m[id := true])))
      && (!iv.TimeFault? && du.Verbatim? ==> o.Crashed? && o.fault == CancelledError)
      && (iv.Verbatim? && du.Seconds? ==> o.Crashed? && o.fault == TypeError)
  {
    var iv := ToSeconds(p.interval);
    var du := ToSeconds(p.duration);
    if iv.TimeFault? then Crashed(iv.fault, Some(m[id := true]))
    else if du.TimeFault? then Crashed(du.fault, Some(m[id := true]))
    else if du.Verbatim? then Crashed(CancelledError, Some(m[id := false]))
    else if iv.Verbatim? then Crashed(TypeError, Some(m[id := false]))
    else
      var after := m[id := false] - {id};
      assert after.Keys == m.Keys;
      Ran(id, iv.n, du.n, p.message, m[id := true], after)
  }

  // ---------------------------------------------------------------------
  // What a `beep` command does to the registry
  // ---------------------------------------------------------------------

  /** `stop N` disables beep N and touches no other entry. An id that was
      never handed out is entered as not beeping, so `get_beep_id` will not
      hand it out; with no registry yet the task dies with a KeyError. */
  lemma BeepStopOne(reading: Reading, slot: Slot, args: string, n: nat)
    requires Config.IsLine(args) && ParseBeep(args) == StopOne(n)
    ensures slot.None? ==> Beep(reading, slot, args) == Crashed(KeyError, slot)
    ensures slot.Some? ==> var o := Beep(reading, slot, args);
      && o.Stopped? && o.registry.Keys == slot.value.Keys + {n} && !o.registry[n]
      && forall k :: k in slot.value && k != n ==> o.registry[k] == slot.value[k]
  {
  }

  /** Bare `stop` disables every beep and adds or removes no id. */
  lemma BeepStopEvery(reading: Reading, slot: Slot, args: string)
    requires Config.IsLine(args) && ParseBeep(args) == StopEvery
    ensures slot.None? ==> Beep(reading, slot, args) == Crashed(KeyError, slot)
    ensures slot.Some? ==> var o := Beep(reading, slot, args);
      && o.Stopped? && o.registry.Keys == slot.value.Keys
      && forall k :: k in o.registry ==> !o.registry[k]
  {
  }

  /** `stop N` and `stop` are recognised after stripping. */
  lemma ParseStop(d: string)
    requires d != [] && AllDigits(d)
    ensures ParseBeep("stop " + d) == StopOne(DigitsValue(d))
    ensures ParseBeep("stop") == StopEvery
  {
    var s := "stop " + d;
    assert !IsSpace(s[0]) && !IsSpace(s[|s| - 1]);
    StripUnpadded(s);
    assert s[..5] == "stop " && s[5..] == d;
    StripUnpadded("stop");
  }

  /** A beep that gets going takes the least free id, marks it as beeping
      while it runs, and leaves the registry as it found it. It runs exactly
      when the parameters are read and both times convert to seconds. */
  lemma BeepRestoresRegistry(reading: Reading, slot: Slot, args: string, form: Form)
    requires Config.IsLine(args) && ParseBeep(args) == Start(form)
    ensures var o, m := Beep(reading, slot, args), slot.GetOr(map[]);
      o.Ran? ==> LeastFreeId(m, o.id) && o.during == m[o.id := true] && o.after == m
    ensures var p := ParamsOf(reading, form);
      Beep(reading, slot, args).Ran? <==>
        p.Ok? && ToSeconds(p.value.interval).Seconds? && ToSeconds(p.value.duration).Seconds?
  {
  }

  /** A beep that crashes after taking its id leaves that id in the
      registry and every other entry as it was, so no later beep is handed
      that id again. */
  lemma BeepCrashKeepsId(reading: Reading, slot: Slot, args: string, form: Form)
    requires Config.IsLine(args) && ParseBeep(args) == Start(form)
    ensures Beep(reading, slot, args) == StartBeep(reading, slot, form)
    ensures var o, (m, id) := StartBeep(reading, slot, form), GetBeepId(slot);
      o.Crashed? ==>
        && o.slot.Some? && id in o.slot.value && GetBeepId(o.slot).1 != id
        && forall k :: k in m ==> o.slot.value[k] == m[k]
  {
  }

  /** Stripped arguments that do not start with `s` are no stop request. */
  lemma ParseStart(s: string)
    requires Config.IsLine(s) && s != [] && !IsSpace(s[0]) && !IsSpace(s[|s| - 1]) && s[0] != 's'
    ensures ParseBeep(s) == Start(FormOf(s))
  {
    StripUnpadded(s);
    assert !StartsWith(s, "stop ") && s != "stop" by {
      assert s[0] != "stop"[0];
    }
  }

  /** Two texts joined by whitespace, the first starting with neither
      whitespace nor `s` and the second not ending in whitespace, are no
      stop request. */
  lemma ParseJoined(a: string, sp: string, b: string)
    requires a != [] && !IsSpace(a[0]) && a[0] != 's' && b != [] && !IsSpace(b[|b| - 1])
    requires Config.IsLine(a + sp + b)
    ensures ParseBeep(a + sp + b) == Start(FormOf(a + sp + b))
  {
    var s := a + sp + b;
    assert s[0] == a[0] && s[|s| - 1] == b[|b| - 1];
    ParseStart(s);
  }

  /** `i.f` with digits on both sides of the point: a time for the
      patterns, but not an integer for the conversion, so it stays text. */
  lemma DecimalTime(a: string, b: string)
    requires a != [] && AllDigits(a) && b != [] && AllDigits(b)
    ensures IsTime(a + "." + b) && ToSeconds(a + "." + b) == Verbatim(a + "." + b)
  {
    var w := a + "." + b;
    assert w[|a|] == '.';
    assert w[|w| - 1] == b[|b| - 1];
    assert Unsuffixed(w) == w;
    assert forall t :: 0 <= t < |a| ==> w[t] == a[t];
    assert Args.FindChar(w, 0, '.') == |a|;
    assert w[..|a|] == a && w[|a| + 1..] == b;
    assert !AllDigits(w);
  }

  /** A lone interval that stays text reaches `asyncio.sleep` in the task,
      after the default duration has started. */
  lemma VerbatimIntervalCrashes(reading: Reading, slot: Slot, w: string)
    requires ToSeconds(w).Verbatim?
    ensures var (m, id) := GetBeepId(slot);
      StartBeep(reading, slot, Single(w)) == Crashed(TypeError, Some(m[id := false]))
  {
    DigitsOfTen();
    assert ParamsOf(reading, Single(w)) == Ok(BeepParams(w, "10", "beep"));
  }

  /** A lone time is a request to start a beep with that interval. */
  lemma ParseSingle(w: string)
    requires IsTime(w)
    ensures Config.IsLine(w) && ParseBeep(w) == Start(Single(w))
  {
    TimeShape(w);
    Config.WordIsLine(w);
    ParseStart(w);
    FormSingle(w);
  }

  /** A decimal interval passes the patterns and reaches `asyncio.sleep`
      in the task: the beep crashes with TypeError, its flag cleared but its
      id never deleted. */
  lemma DecimalIntervalLeaks(reading: Reading, slot: Slot, a: string, b: string)
    requires a != [] && AllDigits(a) && b != [] && AllDigits(b)
    ensures Config.IsLine(a + "." + b)
    ensures var (m, id) := GetBeepId(slot);
      Beep(reading, slot, a + "." + b) == Crashed(TypeError, Some(m[id := false]))
  {
    DecimalTime(a, b);
    ParseSingle(a + "." + b);
    VerbatimIntervalCrashes(reading, slot, a + "." + b);
  }

  /** Two times separated by a space are a request to start a beep with
      that interval and duration. */
  lemma ParsePair(i: string, d: string)
    requires IsTime(i) && IsTime(d)
    ensures Config.IsLine(i + " " + d) && ParseBeep(i + " " + d) == Start(Pair(i, d))
  {
    TimeShape(i);
    TimeShape(d);
    assert IsSpace(" "[0]);
    FormPair(i, " ", d);
    ParseJoined(i, " ", d);
  }

  /** A duration that stays text, after an interval that converts or stays
      text, reaches `asyncio.sleep` in `beep`. */
  lemma VerbatimDurationCrashes(reading: Reading, slot: Slot, i: string, d: string)
    requires !ToSeconds(i).TimeFault? && ToSeconds(d).Verbatim?
    ensures var (m, id) := GetBeepId(slot);
      StartBeep(reading, slot, Pair(i, d)) == Crashed(CancelledError, Some(m[id := false]))
  {
    assert ParamsOf(reading, Pair(i, d)) == Ok(BeepParams(i, d, "beep"));
  }

  /** A decimal duration after a time that converts: `asyncio.sleep` in
      `beep` raises, and the cancelled task turns that into CancelledError;
      the flag is cleared and the id never deleted. */
  lemma DecimalDurationLeaks(reading: Reading, slot: Slot, i: string, a: string, b: string)
    requires IsTime(i) && !ToSeconds(i).TimeFault?
    requires a != [] && AllDigits(a) && b != [] && AllDigits(b)
    ensures Config.IsLine(i + " " + (a + "." + b))
    ensures var (m, id) := GetBeepId(slot);
      Beep(reading, slot, i + " " + (a + "." + b)) == Crashed(CancelledError, Some(m[id := false]))
  {
    DecimalTime(a, b);
    ParsePair(i, a + "." + b);
    VerbatimDurationCrashes(reading, slot, i, a + "." + b);
  }

  /** As written, `beep <time> <text>` crashes with IndexError once its id
      is marked as beeping, before the `try`/`finally` that would clear it:
      the id stays marked and is never handed out again. */
  lemma BeepAsWrittenLeaks(slot: Slot, i: string, msg: string)
    requires IsTime(i)
    requires msg != [] && Config.IsLine(msg)
    requires !IsSpace(msg[0]) && !IsDigit(msg[0]) && msg[0] != '.' && !IsSpace(msg[|msg| - 1])
    ensures Config.IsLine(i + " " + msg)
    ensures var (m, id) := GetBeepId(slot);
      && Beep(AsWritten, slot, i + " " + msg) == Crashed(IndexError, Some(m[id := true]))
      && IsBeeping(Some(m[id := true]), id) == Ok(true)
      && GetBeepId(Some(m[id := true])).1 != id
  {
    TimeThenMessage(i, msg);
    MessageAsWritten(slot, i + " " + msg, i, msg);
  }

  /** As written, every request of the third pattern crashes with its id
      still marked. */
  lemma MessageAsWritten(slot: Slot, args: string, i: string, msg: string)
    requires Config.IsLine(args) && ParseBeep(args) == Start(WithMessage(i, msg))
    ensures var (m, id) := GetBeepId(slot);
      && Beep(AsWritten, slot, args) == Crashed(IndexError, Some(m[id := true]))
      && IsBeeping(Some(m[id := true]), id) == Ok(true)
      && GetBeepId(Some(m[id := true])).1 != id
  {
  }

  /** With the message read from group 4, the same arguments run a beep
      with that message and the default duration exactly when the interval
      converts to seconds; a decimal interval crashes with TypeError and an
      unconvertible one with its conversion error. */
  lemma BeepWithMessage(slot: Slot, args: string, interval: string, message: string)
    requires Config.IsLine(args)
    requires ParseBeep(args) == Start(WithMessage(interval, message))
    ensures var o := Beep(Corrected, slot, args);
      && (o.Ran? <==> ToSeconds(interval).Seconds?)
      && (o.Ran? ==> o.message == message && o.duration == 10 && o.interval == ToSeconds(interval).n)
      && (ToSeconds(interval).Verbatim? ==> o.Crashed? && o.fault == TypeError)
      && (ToSeconds(interval).TimeFault? ==> o.Crashed? && o.fault == ToSeconds(interval).fault)
  {
    DigitsOfTen();
    var form := WithMessage(interval, message);
    assert ParamsOf(Corrected, form) == Ok(BeepParams(interval, "10", message));
    assert Beep(Corrected, slot, args) == StartBeep(Corrected, slot, form);
    var (m, id) := GetBeepId(slot);
    assert StartBeep(Corrected, slot, form) == RunWith(m, id, BeepParams(interval, "10", message));
  }

  lemma DigitsOfTen()
    ensures ToSeconds("10") == Seconds(10)
  {
    assert "10"[..1] == "1";
    assert DigitsValue("10") == 10 * DigitsValue("1");
  }

  /** `beep <time> <text>`: a time, one space and a message that cannot
      start a time are the third pattern, whatever the time and message. */
  lemma TimeThenMessage(i: string, msg: string)
    requires IsTime(i)
    requires msg != [] && Config.IsLine(msg)
    requires !IsSpace(msg[0]) && !IsDigit(msg[0]) && msg[0] != '.' && !IsSpace(msg[|msg| - 1])
    ensures Config.IsLine(i + " " + msg)
    ensures ParseBeep(i + " " + msg) == Start(WithMessage(i, msg))
  {
    TimeShape(i);
    assert IsSpace(" "[0]);
    assert Config.IsLine(" ");
    FormWithMessage(i, " ", msg);
    ParseJoined(i, " ", msg);
  }
}

=== FILE: config.dfy ===
/** The configuration loader of session.py (`get_config`) and its older
    variant in core.py: `key = value` lines from one or more files become
    entries of the configuration mapping, with boolean spellings coerced to
    bools and spaces inside `{...}` replaced by a delimiter so that a later
    whitespace split keeps a brace payload in one piece. */
module Config {
  import opened Wrappers
  import opened Text
  import Dict

  /** A configuration value: the text after `=`, or a bool when that text
      spells one. */
  datatype ConfigValue = Str(text: string) | Flag(flag: bool)

  type Config = Dict.Entries<ConfigValue>

  /** The non-printable character that stands for a space inside a brace
      segment. */
  const SpaceDelim: char := '\0'

  /** A line as the file reader yields it: no line break inside. */
  predicate IsLine(s: string) {
    forall i :: 0 <= i < |s| ==> s[i] != '\n'
  }

  /** Two lines joined are one line. */
  lemma LineConcat(a: string, b: string)
    requires IsLine(a) && IsLine(b)
    ensures IsLine(a + b)
  {
    assert forall t :: |a| <= t < |a + b| ==> (a + b)[t] == b[t - |a|];
  }

  /** A word without whitespace is a line: a line break is whitespace. */
  lemma WordIsLine(w: string)
    requires NoSpace(w)
    ensures IsLine(w)
  {
    assert forall t :: 0 <= t < |w| ==> !IsSpace(w[t]);
  }

  predicate AllLines(lines: seq<string>) {
    forall i :: 0 <= i < |lines| ==> IsLine(lines[i])
  }

  // ---------------------------------------------------------------------
  // The three patterns tried on a stripped line (session.py:37-41)
  // ---------------------------------------------------------------------

  /** No line break from position `a` up to `b`: where `.` may match. */
  predicate NoBreakIn(s: string, a: nat, b: nat) {
    a <= b <= |s| && forall t :: a <= t < b ==> s[t] != '\n'
  }

  /** `^(\S*)\s*=\s*(.*)$` matches `s` with group 1 = `s[..i]`, the `=` at
      `j` and group 2 = `s[k..]`. */
  predicate AssignShape(s: string, i: nat, j: nat, k: nat) {
    && i <= j < k <= |s|
    && NoSpaceIn(s, 0, i)
    && SpacesIn(s, i, j)
    && s[j] == '='
    && SpacesIn(s, j + 1, k)
    && NoBreakIn(s, k, |s|)
  }

  ghost predicate MatchesAssign(s: string) {
    exists i: nat, j: nat, k: nat :: AssignShape(s, i, j, k)
  }

  /** `^(\S*)\s*=()$` matches `s` with group 1 = `s[..i]` and the `=` at `j`. */
  predicate EmptyShape(s: string, i: nat, j: nat) {
    && i <= j
    && j + 1 == |s|
    && NoSpaceIn(s, 0, i)
    && SpacesIn(s, i, j)
    && s[j] == '='
  }

  ghost predicate MatchesEmpty(s: string) {
    exists i: nat, j: nat :: EmptyShape(s, i, j)
  }

  /** `^(\S*)\s*=(\{.*\})$` matches `s` with group 1 = `s[..i]` and the `=`
      at `j`, followed by a brace payload running to the end. */
  predicate BraceShape(s: string, i: nat, j: nat) {
    && i <= j
    && j + 3 <= |s|
    && NoSpaceIn(s, 0, i)
    && SpacesIn(s, i, j)
    && s[j] == '='
    && s[j + 1] == '{'
    && s[|s| - 1] == '}'
    && NoBreakIn(s, j + 2, |s| - 1)
  }

  ghost predicate MatchesBrace(s: string) {
    exists i: nat, j: nat :: BraceShape(s, i, j)
  }

  /** Every string the two fallback patterns match is matched by the first
      one; since they are only tried after it failed, they never match. */
  lemma FallbacksNeverMatch(s: string)
    ensures !MatchesAssign(s) ==> !MatchesEmpty(s) && !MatchesBrace(s)
  {
    if MatchesEmpty(s) {
      var i: nat, j: nat :| EmptyShape(s, i, j);
      assert AssignShape(s, i, j, j + 1);
    }
    if MatchesBrace(s) {
      var i: nat, j: nat :| BraceShape(s, i, j);
      assert AssignShape(s, i, j, j + 1);
    }
  }

  // ---------------------------------------------------------------------
  // How the first pattern settles its groups
  // ---------------------------------------------------------------------

  /** After skipping whitespace from position `i`, the next character is `=`. */
  predicate EqualsAfter(s: string, i: nat)
    requires i <= |s|
  {
    var e := SkipSpaces(s, i);
    e < |s| && s[e] == '='
  }

  /** The largest `j <= i` at which `EqualsAfter` holds: where the greedy
      `\S*` ends once backtracking has found an `=`. */
  function KeyEnd(s: string, i: nat): (r: Option<nat>)
    requires i <= |s|
    ensures r.Some? ==> r.value <= i && EqualsAfter(s, r.value)
    ensures r.Some? ==> forall j: nat :: r.value < j <= i ==> !EqualsAfter(s, j)
    ensures r.None? ==> forall j: nat :: j <= i ==> !EqualsAfter(s, j)
  {
    if EqualsAfter(s, i) then Some(i)
    else if i == 0 then None
    else KeyEnd(s, i - 1)
  }

  /** Every match of the first pattern ends its group 1 inside the leading
      non-space run, at a position followed (after whitespace) by `=`. */
  lemma ShapeIsCandidate(s: string, i: nat, j: nat, k: nat)
    requires AssignShape(s, i, j, k)
    ensures i <= SkipWord(s, 0) && EqualsAfter(s, i)
  {
    SkipSpacesExact(s, i, j);
  }

  /** The match of the first pattern: group 1 ends at `keyEnd`, the `=` is at
      `eq` and group 2 starts at `valueStart`. */
  datatype Match = Match(keyEnd: nat, eq: nat, valueStart: nat)

  /** Where group 1 ends at `i`, the `=` and group 2 follow by skipping
      whitespace greedily. */
  function MatchAt(s: string, i: nat): (m: Match)
    requires IsLine(s) && i <= SkipWord(s, 0) && EqualsAfter(s, i)
    ensures m.keyEnd == i
    ensures AssignShape(s, i, m.eq, m.valueStart)
    ensures m.valueStart == |s| || !IsSpace(s[m.valueStart])
  {
    var j := SkipSpaces(s, i);
    Match(i, j, SkipSpaces(s, j + 1))
  }

  /** A match of the first pattern leaves a candidate for group 1. */
  lemma MatchHasCandidate(s: string)
    ensures MatchesAssign(s) ==> KeyEnd(s, SkipWord(s, 0)).Some?
  {
    if MatchesAssign(s) {
      var i: nat, j: nat, k: nat :| AssignShape(s, i, j, k);
      ShapeIsCandidate(s, i, j, k);
    }
  }

  lemma CandidateIsLongest(s: string, i: nat)
    requires KeyEnd(s, SkipWord(s, 0)) == Some(i)
    ensures forall i': nat, j': nat, k': nat :: AssignShape(s, i', j', k') ==> i' <= i
  {
    forall i': nat, j': nat, k': nat | AssignShape(s, i', j', k') ensures i' <= i {
      ShapeIsCandidate(s, i', j', k');
    }
  }

  /** `re.match(r'^(\S*)\s*=\s*(.*)$', s)`: absent exactly when the pattern
      does not match; otherwise the match has the longest group 1 of all
      matches, and group 2 does not start with whitespace. */
  function MatchAssign(s: string): (r: Option<Match>)
    requires IsLine(s)
    ensures r.Some? <==> MatchesAssign(s)
    ensures r.Some? ==> AssignShape(s, r.value.keyEnd, r.value.eq, r.value.valueStart)
    ensures r.Some? ==> r.value.valueStart == |s| || !IsSpace(s[r.value.valueStart])
    ensures r.Some? ==>
      forall i: nat, j: nat, k: nat :: AssignShape(s, i, j, k) ==> i <= r.value.keyEnd
  {
    match KeyEnd(s, SkipWord(s, 0))
    case None =>
      MatchHasCandidate(s);
      None
    case Some(i) =>
      CandidateIsLongest(s, i);
      Some(MatchAt(s, i))
  }

  /** Two matches with the same group 1 and a greedy `\s*` after `=` agree. */
  lemma ShapeDetermined(s: string, i: nat, j: nat, k: nat, j': nat, k': nat)
    requires AssignShape(s, i, j, k) && AssignShape(s, i, j', k')
    requires k == |s| || !IsSpace(s[k])
    requires k' == |s| || !IsSpace(s[k'])
    ensures j == j' && k == k'
  {
    SkipSpacesExact(s, i, j);
    SkipSpacesExact(s, i, j');
    SkipSpacesExact(s, j + 1, k);
    SkipSpacesExact(s, j + 1, k');
  }

  // ---------------------------------------------------------------------
  // Space escaping inside braces (session.py:44) and everywhere (core.py:106)
  // ---------------------------------------------------------------------

  /** Position of the first `}` of `s`. */
  function FindClose(s: string): (r: Option<nat>)
    ensures r.Some? ==> r.value < |s| && s[r.value] == '}'
    ensures r.Some? ==> forall t :: 0 <= t < r.value ==> s[t] != '}'
    ensures r.None? ==> forall t :: 0 <= t < |s| ==> s[t] != '}'
  {
    if s == [] then None
    else if s[0] == '}' then Some(0)
    else
      match FindClose(s[1..])
      case None => None
      case Some(q) => Some(q + 1)
  }

  /** The nearest brace before position `i` is an opening one. */
  predicate OpenAt(s: string, i: nat)
    requires i <= |s|
    decreases i
  {
    i > 0 && (s[i - 1] == '{' || (s[i - 1] != '}' && OpenAt(s, i - 1)))
  }

  /** A `}` occurs after position `i`. */
  predicate CloseAfter(s: string, i: nat) {
    exists t :: i < t < |s| && s[t] == '}'
  }

  /** Position `i` lies inside the payload of a `{...}` segment, that is,
      between a `{` and the first `}` after it. */
  predicate InBraces(s: string, i: nat)
    requires i < |s|
  {
    OpenAt(s, i) && s[i] != '}' && CloseAfter(s, i)
  }

  /** `re.sub(r'\{([^}]*)\}', ...)` of session.py: the pattern is sought
      from left to right, each `{` taking everything up to the first `}`,
      and the spaces of each payload become the delimiter. */
  function EscapeBraces(s: string): (r: string)
    ensures |r| == |s|
    decreases |s|
  {
    if s == [] then []
    else if s[0] == '{' && FindClose(s[1..]).Some? then
      var q := FindClose(s[1..]).value;
      ['{'] + Replace(s[1..q + 1], ' ', SpaceDelim) + ['}'] + EscapeBraces(s[q + 2..])
    else
      [s[0]] + EscapeBraces(s[1..])
  }

  lemma {:induction false} OpenShift(s: string, m: nat, i: nat)
    requires m <= i <= |s| && !OpenAt(s, m)
    ensures OpenAt(s, i) == OpenAt(s[m..], i - m)
    decreases i - m
  {
    if i > m {
      OpenShift(s, m, i - 1);
      assert s[m..][i - m - 1] == s[i - 1];
    }
  }

  lemma CloseShift(s: string, m: nat, i: nat)
    requires m <= i < |s|
    ensures CloseAfter(s, i) == CloseAfter(s[m..], i - m)
  {
    if CloseAfter(s, i) {
      var t :| i < t < |s| && s[t] == '}';
      assert s[m..][t - m] == s[t];
    }
    if CloseAfter(s[m..], i - m) {
      var t :| i - m < t < |s[m..]| && s[m..][t] == '}';
      assert s[t + m] == s[m..][t];
    }
  }

  lemma {:induction false} OpenInside(s: string, q: nat, i: nat)
    requires q + 1 < |s| && s[0] == '{' && 1 <= i <= q + 1
    requires forall t :: 1 <= t <= q ==> s[t] != '}'
    ensures OpenAt(s, i)
    decreases i
  {
    if i > 1 {
      OpenInside(s, q, i - 1);
    }
  }

  /** The payload of the segment that starts at position 0. */
  lemma SegmentInside(s: string, q: nat)
    requires s != [] && s[0] == '{' && FindClose(s[1..]) == Some(q)
    ensures q + 1 < |s| && s[q + 1] == '}'
    ensures forall i :: 1 <= i <= q ==> InBraces(s, i)
  {
    assert s[q + 1] == s[1..][q];
    forall i | 1 <= i <= q ensures InBraces(s, i) {
      assert s[1..][i - 1] == s[i];
      OpenInside(s, q, i);
      assert s[q + 1] == '}';
    }
  }

  /** What the substitution leaves at position `i`: the delimiter for a
      space inside brace payloads, the character itself elsewhere. */
  function EscapedAt(s: string, i: nat): char
    requires i < |s|
  {
    if InBraces(s, i) && s[i] == ' ' then SpaceDelim else s[i]
  }

  /** `r` is what the substitution makes of `s`, position by position. */
  predicate Escapes(s: string, r: string) {
    |r| == |s| && forall i :: 0 <= i < |s| ==> r[i] == EscapedAt(s, i)
  }

  /** How the result is laid out when the string starts with a segment. */
  lemma SegmentLayout(s: string, q: nat)
    requires s != [] && s[0] == '{' && FindClose(s[1..]) == Some(q)
    ensures q + 1 < |s|
    ensures EscapeBraces(s) ==
      ['{'] + Replace(s[1..q + 1], ' ', SpaceDelim) + ['}'] + EscapeBraces(s[q + 2..])
  {
  }

  /** The result for a string that starts with a plain character. */
  lemma PlainLayout(s: string)
    requires s != [] && !(s[0] == '{' && FindClose(s[1..]).Some?)
    ensures EscapeBraces(s) == [s[0]] + EscapeBraces(s[1..])
  {
  }

  /** Where the segment starting at position 0 is rewritten, for a result
      `r` laid out as the substitution lays it out. */
  lemma EscapeSegment(s: string, q: nat, r: string, tail: string)
    requires s != [] && s[0] == '{' && FindClose(s[1..]) == Some(q)
    requires r == ['{'] + Replace(s[1..q + 1], ' ', SpaceDelim) + ['}'] + tail
    ensures q + 1 < |s|
    ensures forall i :: 0 <= i <= q + 1 ==> r[i] == EscapedAt(s, i)
  {
    SegmentInside(s, q);
    var payload := Replace(s[1..q + 1], ' ', SpaceDelim);
    var head := ['{'] + payload + ['}'];
    assert r == head + tail;
    forall i | 0 <= i <= q + 1
      ensures r[i] == EscapedAt(s, i)
    {
      assert r[i] == head[i];
      if 1 <= i <= q {
        assert head[i] == payload[i - 1];
        assert s[1..q + 1][i - 1] == s[i];
      }
    }
  }

  /** The closing bracket of the segment ends every bracket before it. */
  lemma ClosedAfterSegment(s: string, q: nat)
    requires s != [] && s[0] == '{' && FindClose(s[1..]) == Some(q)
    ensures q + 1 < |s| && s[q + 1] == '}'
    ensures !OpenAt(s, q + 2)
  {
    assert s[q + 1] == s[1..][q];
  }

  lemma AppendRight<T>(head: seq<T>, tail: seq<T>, r: seq<T>)
    requires r == head + tail
    ensures forall i :: |head| <= i < |r| ==> r[i] == tail[i - |head|]
  {
  }

  /** Positions after a closed bracket see the same brackets as in the
      suffix that starts there. */
  lemma InBracesShift(s: string, m: nat, i: nat)
    requires m <= i < |s| && !OpenAt(s, m)
    ensures InBraces(s, i) == InBraces(s[m..], i - m)
  {
    OpenShift(s, m, i);
    CloseShift(s, m, i);
    assert s[m..][i - m] == s[i];
  }

  /** The step of the induction for a string that starts with a segment:
      `r` agrees with the specification up to the closing brace and
      continues with `tail`, the result for the suffix. */
  lemma SegmentCase(s: string, q: nat, r: string, tail: string)
    requires q + 2 <= |s| && |r| == |s| && !OpenAt(s, q + 2)
    requires Escapes(s[q + 2..], tail)
    requires forall i :: 0 <= i <= q + 1 ==> r[i] == EscapedAt(s, i)
    requires forall i :: q + 2 <= i < |s| ==> r[i] == tail[i - (q + 2)]
    ensures Escapes(s, r)
  {
    forall i | q + 2 <= i < |s| ensures r[i] == EscapedAt(s, i) {
      InBracesShift(s, q + 2, i);
      assert s[q + 2..][i - (q + 2)] == s[i];
    }
  }

  /** The step of the induction for a string that starts with a segment. */
  lemma SegmentStep(s: string, q: nat, r: string, tail: string)
    requires s != [] && s[0] == '{' && FindClose(s[1..]) == Some(q)
    requires r == ['{'] + Replace(s[1..q + 1], ' ', SpaceDelim) + ['}'] + tail
    requires Escapes(s[q + 2..], tail)
    ensures Escapes(s, r)
  {
    var head := ['{'] + Replace(s[1..q + 1], ' ', SpaceDelim) + ['}'];
    ClosedAfterSegment(s, q);
    EscapeSegment(s, q, r, tail);
    assert |head| == q + 2;
    AppendRight(head, tail, r);
    SegmentCase(s, q, r, tail);
  }

  /** The step of the induction for a string whose first character is kept. */
  lemma PlainCase(s: string, r: string, tail: string)
    requires s != [] && !(s[0] == '{' && FindClose(s[1..]).Some?)
    requires Escapes(s[1..], tail) && r == [s[0]] + tail
    ensures Escapes(s, r)
  {
    forall i | 1 <= i < |s| ensures r[i] == EscapedAt(s, i) {
      assert r[i] == tail[i - 1];
      PlainAt(s, i);
    }
  }

  /** After a kept first character, each position sees the same brackets
      as in the suffix. */
  lemma PlainAt(s: string, i: nat)
    requires 1 <= i < |s| && !(s[0] == '{' && FindClose(s[1..]).Some?)
    ensures EscapedAt(s, i) == EscapedAt(s[1..], i - 1)
  {
    assert s[1..][i - 1] == s[i];
    CloseShift(s, 1, i);
    if s[0] == '{' {
      assert forall t :: 1 <= t < |s| ==> s[t] == s[1..][t - 1];
      assert !CloseAfter(s, i);
      assert !CloseAfter(s[1..], i - 1);
    } else {
      OpenShift(s, 1, i);
    }
  }

  /** Exactly the spaces inside brace payloads change, and they become the
      delimiter; every other character is kept. */
  lemma {:induction false} EscapeBracesSpec(s: string)
    ensures Escapes(s, EscapeBraces(s))
    decreases |s|
  {
    if s == [] {
    } else if s[0] == '{' && FindClose(s[1..]).Some? {
      var q := FindClose(s[1..]).value;
      EscapeBracesSpec(s[q + 2..]);
      SegmentLayout(s, q);
      SegmentStep(s, q, EscapeBraces(s), EscapeBraces(s[q + 2..]));
    } else {
      EscapeBracesSpec(s[1..]);
      PlainLayout(s);
      PlainCase(s, EscapeBraces(s), EscapeBraces(s[1..]));
    }
  }

  /** `str.replace('\x00', ' ')`, as python/dev.py and dev.py apply it to an
      edge-function payload. */
  function Unescape(s: string): string {
    Replace(s, SpaceDelim, ' ')
  }

  /** Undoing the brace escaping restores the value, provided the value did
      not already hold the delimiter. */
  lemma EscapeBracesRoundTrip(s: string)
    requires SpaceDelim !in s
    ensures Unescape(EscapeBraces(s)) == s
  {
    EscapeBracesSpec(s);
    var r := Unescape(EscapeBraces(s));
    forall i | 0 <= i < |s| ensures r[i] == s[i] {
      assert s[i] != SpaceDelim;
    }
  }

  /** A value holding the delimiter does not survive the round trip: the
      delimiter comes back as a space. */
  lemma EscapeBracesRoundTripNeedsNoDelimiter()
    ensures Unescape(EscapeBraces([SpaceDelim])) == " "
  {
    assert EscapeBraces([SpaceDelim]) == [SpaceDelim] + EscapeBraces([]);
  }

  /** A brace payload whose only whitespace is spaces escapes to one
      whitespace-free word, so a later `split()` keeps it whole. */
  lemma EscapedPayloadIsOneWord(inner: string)
    requires forall t :: 0 <= t < |inner| ==> inner[t] != '}'
    requires forall t :: 0 <= t < |inner| ==> inner[t] == ' ' || !IsSpace(inner[t])
    ensures EscapeBraces("{" + inner + "}") == "{" + Replace(inner, ' ', SpaceDelim) + "}"
    ensures NoSpace(EscapeBraces("{" + inner + "}"))
  {
    EscapeOneSegment(inner);
    EscapedWordHasNoSpace(inner);
  }

  lemma EscapeOneSegment(inner: string)
    requires forall t :: 0 <= t < |inner| ==> inner[t] != '}'
    ensures EscapeBraces("{" + inner + "}") == "{" + Replace(inner, ' ', SpaceDelim) + "}"
  {
    var s := "{" + inner + "}";
    assert s[1..|s| - 1] == inner;
    EscapeWholeSegment(s);
  }

  /** A string that is exactly one segment. */
  lemma EscapeWholeSegment(s: string)
    requires |s| >= 2 && s[0] == '{' && s[|s| - 1] == '}'
    requires forall t :: 1 <= t < |s| - 1 ==> s[t] != '}'
    ensures EscapeBraces(s) == ['{'] + Replace(s[1..|s| - 1], ' ', SpaceDelim) + ['}']
  {
    var q := |s| - 2;
    assert FindClose(s[1..]) == Some(q) by {
      FindFirst(s[1..], q);
    }
    SegmentLayout(s, q);
    assert s[q + 2..] == [];
  }

  lemma EscapedWordHasNoSpace(inner: string)
    requires forall t :: 0 <= t < |inner| ==> inner[t] == ' ' || !IsSpace(inner[t])
    ensures NoSpace("{" + Replace(inner, ' ', SpaceDelim) + "}")
  {
    EscapedMiddleHasNoSpace(inner);
    BracketedHasNoSpace(Replace(inner, ' ', SpaceDelim));
  }

  lemma EscapedMiddleHasNoSpace(inner: string)
    requires forall t :: 0 <= t < |inner| ==> inner[t] == ' ' || !IsSpace(inner[t])
    ensures NoSpace(Replace(inner, ' ', SpaceDelim))
  {
    var middle := Replace(inner, ' ', SpaceDelim);
    forall t | 0 <= t < |middle| ensures !IsSpace(middle[t]) {
      if inner[t] == ' ' {
        assert middle[t] == SpaceDelim;
      } else {
        assert middle[t] == inner[t];
      }
    }
  }

  lemma BracketedHasNoSpace(m: string)
    requires NoSpace(m)
    ensures NoSpace("{" + m + "}")
  {
    var r := "{" + m + "}";
    forall t | 0 <= t < |r| ensures !IsSpace(r[t]) {
      if t == 0 {
        assert r[t] == '{';
      } else if t == |r| - 1 {
        assert r[t] == '}';
      } else {
        assert r[t] == m[t - 1];
      }
    }
  }

  lemma {:induction false} FindFirst(s: string, q: nat)
    requires q < |s| && s[q] == '}' && forall t :: 0 <= t < q ==> s[t] != '}'
    ensures FindClose(s) == Some(q)
    decreases q
  {
    if q > 0 {
      assert s[1..][q - 1] == s[q];
      FindFirst(s[1..], q - 1);
    }
  }

  /** core.py's variant turns every space of the value into the delimiter;
      undoing it restores values that held no delimiter. */
  lemma EscapeAllRoundTrip(s: string)
    requires SpaceDelim !in s
    ensures Unescape(Replace(s, ' ', SpaceDelim)) == s
    ensures ' ' !in Replace(s, ' ', SpaceDelim)
  {
    ReplaceRoundTrip(s, ' ', SpaceDelim);
  }

  // ---------------------------------------------------------------------
  // Boolean coercion (session.py:45-48)
  // ---------------------------------------------------------------------

  const TrueSpellings: set<string> := {"t", "true", "y", "1"}
  const FalseSpellings: set<string> := {"f", "false", "n", "0"}

  /** A value whose lower-cased text is a boolean spelling becomes that
      bool; any other value stays text. */
  function Coerce(v: string): (r: ConfigValue)
    ensures r == Flag(true) <==> Lower(v) in TrueSpellings
    ensures r == Flag(false) <==> Lower(v) in FalseSpellings
    ensures r.Str? ==> r.text == v
  {
    if Lower(v) in TrueSpellings then Flag(true)
    else if Lower(v) in FalseSpellings then Flag(false)
    else Str(v)
  }

  /** The spelling test ignores case: values that differ only in the case
      of their letters are both flags or both text, and the same flag; a
      value that is a flag is read like its lower-case form. */
  lemma CoerceIgnoresCase(v: string, w: string)
    requires Lower(v) == Lower(w)
    ensures Coerce(v).Flag? <==> Coerce(w).Flag?
    ensures Coerce(v).Flag? ==> Coerce(v) == Coerce(w)
    ensures Coerce(v).Flag? ==> Coerce(Lower(v)) == Coerce(v)
  {
    LowerTwice(v);
  }

  /** Lower-casing twice is lower-casing once. */
  lemma LowerTwice(v: string)
    ensures Lower(Lower(v)) == Lower(v)
  {
    assert forall i :: 0 <= i < |v| ==> LowerChar(LowerChar(v[i])) == LowerChar(v[i]);
  }

  // ---------------------------------------------------------------------
  // One line (session.py:32-52, core.py:95-114)
  // ---------------------------------------------------------------------

  /** The two versions of the loader: session.py escapes spaces inside
      braces and reports a missing file or a directory as a plain error
      line; core.py escapes every space, reports a missing file through the
      generic error handler and a directory through its verbose branch. */
  datatype Loader = SessionLoader | CoreLoader

  /** The escaping a loader applies to a value: only spaces change, each
      into the delimiter; core.py's loader changes every space. */
  function EscapeValue(ld: Loader, v: string): (r: string)
    ensures |r| == |v|
    ensures forall i :: 0 <= i < |v| ==> r[i] == v[i] || (v[i] == ' ' && r[i] == SpaceDelim)
    ensures ld.CoreLoader? ==> forall i :: 0 <= i < |v| && v[i] == ' ' ==> r[i] == SpaceDelim
  {
    EscapeBracesSpec(v);
    match ld
    case SessionLoader => EscapeBraces(v)
    case CoreLoader => Replace(v, ' ', SpaceDelim)
  }

  /** Both loaders' escaping is undone by turning the delimiter back into a
      space, for values that did not hold the delimiter. */
  lemma EscapeValueRoundTrip(ld: Loader, v: string)
    requires SpaceDelim !in v
    ensures Unescape(EscapeValue(ld, v)) == v
  {
    match ld
    case SessionLoader => EscapeBracesRoundTrip(v);
    case CoreLoader => ReplaceRoundTrip(v, ' ', SpaceDelim);
  }

  /** What one line does: nothing, one assignment, or an echo of the
      stripped line followed by `?`. */
  datatype LineEffect = Skip | Assign(key: string, value: ConfigValue) | Unknown(echo: string)

  /** A stripped line that the loader ignores: blank or a comment. */
  predicate IsSkipped(s: string) {
    s == [] || s[0] == '#'
  }

  /** Stripping keeps a line a line. */
  lemma StripLine(line: string)
    requires IsLine(line)
    ensures IsLine(Strip(line))
  {
    var s := Strip(line);
    forall t | 0 <= t < |s| ensures s[t] != '\n' {
      assert s[t] == line[SkipSpaces(line, 0) + t];
    }
  }

  /** What one line does to the configuration (session.py:33-52). */
  function ParseLine(ld: Loader, line: string): LineEffect
    requires IsLine(line)
  {
    var s := Strip(line);
    StripLine(line);
    if IsSkipped(s) then Skip
    else
      match MatchAssign(s)
      case None => Unknown(s + "?")
      case Some(m) => Assign(s[..m.keyEnd], Coerce(EscapeValue(ld, s[m.valueStart..])))
  }

  /** A stripped blank or comment line is skipped; a line matching none of
      the patterns is echoed with `?`; an assignment's key holds no
      whitespace. */
  lemma ParseLineSpec(ld: Loader, line: string)
    requires IsLine(line)
    ensures var r := ParseLine(ld, line);
      && (r.Skip? <==> IsSkipped(Strip(line)))
      && (r.Unknown? <==> !IsSkipped(Strip(line)) && !MatchesAssign(Strip(line)))
      && (r.Unknown? ==> r.echo == Strip(line) + "?")
      && (r.Assign? ==> NoSpace(r.key) && MatchesAssign(Strip(line)))
  {
    var s := Strip(line);
    StripLine(line);
    if !IsSkipped(s) && MatchAssign(s).Some? {
      var m := MatchAssign(s).value;
      var key := s[..m.keyEnd];
      assert forall t :: 0 <= t < |key| ==> key[t] == s[t];
    }
  }

  /** The parse of a line whose stripped text matches the first pattern. */
  lemma ParseLineAssigns(ld: Loader, line: string, m: Match)
    requires IsLine(line) && IsLine(Strip(line)) && !IsSkipped(Strip(line))
    requires MatchAssign(Strip(line)) == Some(m)
    ensures ParseLine(ld, line) ==
      Assign(Strip(line)[..m.keyEnd], Coerce(EscapeValue(ld, Strip(line)[m.valueStart..])))
  {
  }

  /** The parse of a line whose stripped text matches no pattern. */
  lemma ParseLineEchoes(ld: Loader, line: string)
    requires IsLine(line) && IsLine(Strip(line)) && !IsSkipped(Strip(line))
    requires !MatchesAssign(Strip(line))
    ensures ParseLine(ld, line) == Unknown(Strip(line) + "?")
  {
  }

  /** What a parsed line does to the configuration: an assignment makes its
      key read as its value; every other key reads as before. */
  function ApplyEffect(c: Config, e: LineEffect): (r: Config)
    ensures e.Assign? ==> Dict.Get(r, e.key) == Some(e.value)
    ensures forall k :: (!e.Assign? || k != e.key) ==> Dict.Get(r, k) == Dict.Get(c, k)
  {
    match e
    case Assign(k, v) => Dict.Set(c, k, v)
    case _ => c
  }

  /** The lines that stripping leaves empty or turns into a comment leave the
      configuration as it was, and so does a line that matches no pattern. */
  lemma NonAssignmentKeepsConfig(ld: Loader, c: Config, line: string)
    requires IsLine(line)
    requires IsSkipped(Strip(line)) || !MatchesAssign(Strip(line))
    ensures ApplyEffect(c, ParseLine(ld, line)) == c
  {
  }

  /** A line `key = value`, with any whitespace around the key, the `=` and
      the value, stores the (escaped and coerced) value under the key. The
      key holds no whitespace; when nothing separates it from the `=`, the
      value may not contain another `=`, since group 1 would then reach up
      to the last `=` of the line. */
  lemma AssignmentLineStored(ld: Loader, pad1: string, key: string, ws1: string,
                             ws2: string, value: string, pad2: string)
    requires AllSpace(pad1) && AllSpace(ws1) && AllSpace(ws2) && AllSpace(pad2)
    requires NoSpace(key) && (key == [] || key[0] != '#') && (key != [] || ws1 == [])
    requires value == [] || (!IsSpace(value[0]) && !IsSpace(value[|value| - 1]))
    requires ws1 != [] || forall t :: 0 <= t < |value| ==> value[t] != '='
    requires IsLine(pad1 + key + ws1 + "=" + ws2 + value + pad2)
    ensures ParseLine(ld, pad1 + key + ws1 + "=" + ws2 + value + pad2)
         == Assign(key, Coerce(EscapeValue(ld, value)))
  {
    var line := pad1 + key + ws1 + "=" + ws2 + value + pad2;
    var ws2' := if value == [] then [] else ws2;
    StrippedAssignment(pad1, key, ws1, ws2, value, pad2);
    var core := key + ws1 + "=" + ws2' + value;
    MatchKeyValue(key, ws1, ws2', value);
    KeyValueLayout(key, ws1, ws2', value);
    ParseLineAssigns(ld, line, Match(|key|, |key| + |ws1|, |key| + |ws1| + 1 + |ws2'|));
  }

  /** Stripping a padded assignment line leaves `key ws1 = ws2 value`, the
      whitespace after `=` going with the padding when the value is empty. */
  lemma StrippedAssignment(pad1: string, key: string, ws1: string,
                           ws2: string, value: string, pad2: string)
    requires AllSpace(pad1) && AllSpace(ws1) && AllSpace(ws2) && AllSpace(pad2)
    requires NoSpace(key) && (key != [] || ws1 == [])
    requires value == [] || (!IsSpace(value[0]) && !IsSpace(value[|value| - 1]))
    requires IsLine(pad1 + key + ws1 + "=" + ws2 + value + pad2)
    ensures var core := key + ws1 + "=" + (if value == [] then [] else ws2) + value;
      && Strip(pad1 + key + ws1 + "=" + ws2 + value + pad2) == core
      && IsLine(core) && !IsSkipped(core) == (key == [] || key[0] != '#')
  {
    var ws2' := if value == [] then [] else ws2;
    StripAssignment(pad1, key, ws1, ws2, value, pad2);
    CoreIsLine(pad1, key, ws1, ws2, value, pad2);
    var core := key + ws1 + "=" + ws2' + value;
    assert core[0] == (if key != [] then key[0] else '=');
  }

  lemma StripAssignment(pad1: string, key: string, ws1: string,
                        ws2: string, value: string, pad2: string)
    requires AllSpace(pad1) && AllSpace(ws1) && AllSpace(ws2) && AllSpace(pad2)
    requires NoSpace(key) && (key != [] || ws1 == [])
    requires value == [] || (!IsSpace(value[0]) && !IsSpace(value[|value| - 1]))
    ensures Strip(pad1 + key + ws1 + "=" + ws2 + value + pad2)
         == key + ws1 + "=" + (if value == [] then [] else ws2) + value
  {
    var core := key + ws1 + "=" + (if value == [] then [] else ws2) + value;
    assert !IsSpace(core[0]) && !IsSpace(core[|core| - 1]) by {
      assert core[0] == (if key != [] then key[0] else '=');
      assert core[|core| - 1] == (if value != [] then value[|value| - 1] else '=');
    }
    PaddedLayout(pad1, key, ws1, ws2, value, pad2);
    StripPadding(pad1, core, if value == [] then ws2 + pad2 else pad2);
  }

  lemma CoreIsLine(pad1: string, key: string, ws1: string,
                   ws2: string, value: string, pad2: string)
    requires AllSpace(ws2) && AllSpace(pad2)
    requires IsLine(pad1 + key + ws1 + "=" + ws2 + value + pad2)
    ensures IsLine(key + ws1 + "=" + (if value == [] then [] else ws2) + value)
  {
    var line := pad1 + key + ws1 + "=" + ws2 + value + pad2;
    var core := key + ws1 + "=" + (if value == [] then [] else ws2) + value;
    PaddedLayout(pad1, key, ws1, ws2, value, pad2);
    forall t | 0 <= t < |core| ensures core[t] != '\n' {
      assert core[t] == line[|pad1| + t];
    }
  }

  /** The padded line is the stripped core between two runs of whitespace;
      with an empty value, the whitespace after `=` joins the padding. */
  lemma PaddedLayout(pad1: string, key: string, ws1: string,
                     ws2: string, value: string, pad2: string)
    requires AllSpace(ws2) && AllSpace(pad2)
    ensures var pad2' := if value == [] then ws2 + pad2 else pad2;
      && pad1 + key + ws1 + "=" + ws2 + value + pad2
         == pad1 + (key + ws1 + "=" + (if value == [] then [] else ws2) + value) + pad2'
      && AllSpace(pad2')
  {
    var pad2' := if value == [] then ws2 + pad2 else pad2;
    if value == [] {
      assert pad1 + key + ws1 + "=" + ws2 + value + pad2
          == pad1 + (key + ws1 + "=") + (ws2 + pad2);
      forall t | 0 <= t < |pad2'| ensures IsSpace(pad2'[t]) {
        if t < |ws2| { assert pad2'[t] == ws2[t]; } else { assert pad2'[t] == pad2[t - |ws2|]; }
      }
    }
  }

  /** A match shape whose group 1 cannot grow is the one the pattern
      finds: either group 1 already ends at whitespace, or no `=` follows
      the one at `j`. */
  lemma MatchIsShape(s: string, i: nat, j: nat, k: nat)
    requires IsLine(s) && AssignShape(s, i, j, k) && (k == |s| || !IsSpace(s[k]))
    requires i == SkipWord(s, 0) || (i == j && forall e :: j < e < |s| ==> s[e] != '=')
    ensures MatchAssign(s) == Some(Match(i, j, k))
  {
    var m := MatchAssign(s).value;
    assert i <= m.keyEnd;
    assert m.keyEnd <= i by {
      if i == SkipWord(s, 0) {
        ShapeIsCandidate(s, m.keyEnd, m.eq, m.valueStart);
      } else {
        assert s[m.eq] == '=';
        assert m.keyEnd <= m.eq <= j;
      }
    }
    ShapeDetermined(s, i, m.eq, m.valueStart, j, k);
  }

  /** The match on an already stripped `key ws1 = ws2 value`. */
  lemma MatchKeyValue(key: string, ws1: string, ws2: string, value: string)
    requires AllSpace(ws1) && AllSpace(ws2) && NoSpace(key)
    requires value == [] ==> ws2 == []
    requires value == [] || !IsSpace(value[0])
    requires ws1 != [] || forall t :: 0 <= t < |value| ==> value[t] != '='
    requires IsLine(key + ws1 + "=" + ws2 + value)
    ensures MatchAssign(key + ws1 + "=" + ws2 + value)
         == Some(Match(|key|, |key| + |ws1|, |key| + |ws1| + 1 + |ws2|))
  {
    var t := key + ws1 + "=" + ws2 + value;
    KeyValueLayout(key, ws1, ws2, value);
    if ws1 != [] {
      SkipWordExact(t, 0, |key|);
    } else {
      NoEqualsAfter(key, ws2, value);
    }
    MatchIsShape(t, |key|, |key| + |ws1|, |key| + |ws1| + 1 + |ws2|);
  }

  lemma KeyValueLayout(key: string, ws1: string, ws2: string, value: string)
    requires AllSpace(ws1) && AllSpace(ws2) && NoSpace(key)
    requires value == [] || !IsSpace(value[0])
    requires IsLine(key + ws1 + "=" + ws2 + value)
    ensures var t := key + ws1 + "=" + ws2 + value;
      var k0 := |key| + |ws1| + 1 + |ws2|;
      && AssignShape(t, |key|, |key| + |ws1|, k0)
      && (k0 == |t| || !IsSpace(t[k0]))
      && (ws1 != [] ==> IsSpace(t[|key|]))
      && t[..|key|] == key
      && t[k0..] == value
  {
    var t := key + ws1 + "=" + ws2 + value;
    var i0, j0 := |key|, |key| + |ws1|;
    var k0 := j0 + 1 + |ws2|;
    assert NoSpaceIn(t, 0, i0) by {
      forall x | 0 <= x < i0 ensures !IsSpace(t[x]) { assert t[x] == key[x]; }
    }
    assert SpacesIn(t, i0, j0) by {
      forall x | i0 <= x < j0 ensures IsSpace(t[x]) { assert t[x] == ws1[x - i0]; }
    }
    assert SpacesIn(t, j0 + 1, k0) by {
      forall x | j0 + 1 <= x < k0 ensures IsSpace(t[x]) { assert t[x] == ws2[x - j0 - 1]; }
    }
    assert t[j0] == '=';
    assert NoBreakIn(t, k0, |t|);
    if k0 < |t| {
      assert t[k0] == value[0];
    }
    if ws1 != [] {
      assert t[i0] == ws1[0];
    }
    assert t[..i0] == key;
    assert t[k0..] == value;
  }

  /** Without whitespace before `=`, no `=` follows the first one. */
  lemma NoEqualsAfter(key: string, ws2: string, value: string)
    requires AllSpace(ws2)
    requires forall t :: 0 <= t < |value| ==> value[t] != '='
    ensures var t := key + [] + "=" + ws2 + value;
      forall e :: |key| < e < |t| ==> t[e] != '='
  {
    var t := key + [] + "=" + ws2 + value;
    var k0 := |key| + 1 + |ws2|;
    forall e | |key| < e < |t| ensures t[e] != '=' {
      if e < k0 {
        assert t[e] == ws2[e - |key| - 1];
      } else {
        assert t[e] == value[e - k0];
      }
    }
  }

  /** `key =` with nothing after the `=` stores the empty string. */
  lemma EmptyValueStored(ld: Loader, key: string, ws: string)
    requires key != [] && NoSpace(key) && key[0] != '#' && AllSpace(ws)
    requires IsLine(key + ws + "=")
    ensures ParseLine(ld, key + ws + "=") == Assign(key, Str(""))
  {
    assert key + ws + "=" == [] + key + ws + "=" + [] + [] + [];
    AssignmentLineStored(ld, [], key, ws, [], [], []);
    EmptyCoercesToText(ld);
  }

  lemma EmptyCoercesToText(ld: Loader)
    ensures Coerce(EscapeValue(ld, [])) == Str("")
  {
    assert EscapeValue(ld, []) == [];
    assert Lower([]) == [];
  }

  /** A key with whitespace inside (`a b = 1`) matches no pattern: the line
      is echoed and the configuration is left alone. */
  lemma SpacedKeyIsUnknown(ld: Loader, w: string, ws: string, u: string)
    requires w != [] && NoSpace(w) && w[0] != '#' && (forall t :: 0 <= t < |w| ==> w[t] != '=')
    requires ws != [] && AllSpace(ws)
    requires u != [] && !IsSpace(u[0]) && u[0] != '=' && !IsSpace(u[|u| - 1])
    requires IsLine(w + ws + u)
    ensures ParseLine(ld, w + ws + u) == Unknown(w + ws + u + "?")
  {
    var t := w + ws + u;
    assert Strip(t) == t by {
      assert t[0] == w[0] && t[|t| - 1] == u[|u| - 1];
      StripUnpadded(t);
    }
    assert !MatchesAssign(t) by {
      SpacedKeyNoMatch(w, ws, u);
    }
    ParseLineEchoes(ld, t);
  }

  lemma SpacedKeyNoMatch(w: string, ws: string, u: string)
    requires w != [] && NoSpace(w) && (forall t :: 0 <= t < |w| ==> w[t] != '=')
    requires ws != [] && AllSpace(ws)
    requires u != [] && !IsSpace(u[0]) && u[0] != '='
    ensures !MatchesAssign(w + ws + u)
  {
    var t := w + ws + u;
    var e := |w| + |ws|;
    assert NoSpaceIn(t, 0, |w|) by {
      forall x | 0 <= x < |w| ensures !IsSpace(t[x]) { assert t[x] == w[x]; }
    }
    assert SpacesIn(t, |w|, e) by {
      forall x | |w| <= x < e ensures IsSpace(t[x]) { assert t[x] == ws[x - |w|]; }
    }
    assert t[|w|] == ws[0];
    SkipWordExact(t, 0, |w|);
    forall i: nat | i <= |w| ensures !EqualsAfter(t, i) {
      if i < |w| {
        assert t[i] == w[i];
        SkipSpacesExact(t, i, i);
      } else {
        assert t[e] == u[0];
        SkipSpacesExact(t, i, e);
      }
    }
    MatchHasCandidate(t);
  }

  /** A line without `=` matches no pattern. */
  lemma NoEqualsIsUnknown(ld: Loader, line: string)
    requires IsLine(line) && !IsSkipped(Strip(line))
    requires forall t :: 0 <= t < |line| ==> line[t] != '='
    ensures ParseLine(ld, line) == Unknown(Strip(line) + "?")
  {
    var s := Strip(line);
    StripLine(line);
    assert forall t :: 0 <= t < |s| ==> s[t] != '=' by {
      forall t | 0 <= t < |s| ensures s[t] != '=' {
        assert s[t] == line[SkipSpaces(line, 0) + t];
      }
    }
    assert !MatchesAssign(s);
    ParseLineEchoes(ld, line);
  }

  // ---------------------------------------------------------------------
  // A sequence of lines
  // ---------------------------------------------------------------------

  /** What each line does, in order. */
  function Effects(ld: Loader, lines: seq<string>): (r: seq<LineEffect>)
    requires AllLines(lines)
    ensures |r| == |lines|
    decreases |lines|
  {
    if lines == [] then [] else [ParseLine(ld, lines[0])] + Effects(ld, lines[1..])
  }

  lemma {:induction false} EffectsAt(ld: Loader, lines: seq<string>, i: nat)
    requires AllLines(lines) && i < |lines|
    ensures Effects(ld, lines)[i] == ParseLine(ld, lines[i])
    decreases i
  {
    if i > 0 {
      EffectsAt(ld, lines[1..], i - 1);
    }
  }

  lemma {:induction false} EffectsAppend(ld: Loader, a: seq<string>, b: seq<string>)
    requires AllLines(a) && AllLines(b)
    ensures AllLines(a + b)
    ensures Effects(ld, a + b) == Effects(ld, a) + Effects(ld, b)
    decreases |a|
  {
    assert AllLines(a + b) by {
      assert forall i :: 0 <= i < |a + b| ==> (a + b)[i] == if i < |a| then a[i] else b[i - |a|];
    }
    if a == [] {
      assert a + b == b;
    } else {
      assert (a + b)[0] == a[0];
      assert (a + b)[1..] == a[1..] + b;
      EffectsAppend(ld, a[1..], b);
    }
  }

  /** The loop body of session.py:31-52 run over the effects in turn. */
  function ApplyEffects(c: Config, es: seq<LineEffect>): Config
    decreases |es|
  {
    if es == [] then c else ApplyEffects(ApplyEffect(c, es[0]), es[1..])
  }

  /** The lines echoed with a `?`, in order. */
  function EchoesOf(es: seq<LineEffect>): (r: seq<string>)
    ensures |r| <= |es|
    decreases |es|
  {
    if es == [] then []
    else (if es[0].Unknown? then [es[0].echo] else []) + EchoesOf(es[1..])
  }

  function ApplyLines(ld: Loader, c: Config, lines: seq<string>): Config
    requires AllLines(lines)
  {
    ApplyEffects(c, Effects(ld, lines))
  }

  /** Reference definition: the value of the last effect that assigns `key`. */
  function LastAssigned(es: seq<LineEffect>, key: string): (r: Option<ConfigValue>)
    ensures r.Some? <==> exists i :: 0 <= i < |es| && es[i].Assign? && es[i].key == key
    decreases |es|
  {
    if es == [] then None
    else
      match LastAssigned(es[1..], key)
      case Some(v) =>
        assert es[1..][0] == es[1];
        Some(v)
      case None =>
        assert forall i :: 1 <= i < |es| ==> es[i] == es[1..][i - 1];
        if es[0].Assign? && es[0].key == key then Some(es[0].value) else None
  }

  /** The last assignment to a key wins; a key no line assigns keeps the value
      it had before. */
  lemma {:induction false} LastWriteWins(c: Config, es: seq<LineEffect>, key: string)
    ensures LastAssigned(es, key).Some? ==>
      Dict.Get(ApplyEffects(c, es), key) == LastAssigned(es, key)
    ensures LastAssigned(es, key).None? ==>
      Dict.Get(ApplyEffects(c, es), key) == Dict.Get(c, key)
    decreases |es|
  {
    if es != [] {
      LastWriteWins(ApplyEffect(c, es[0]), es[1..], key);
    }
  }

  /** Assignment never removes or reorders a key: the keys before come first,
      and no key occurs twice. */
  lemma {:induction false} ApplyEffectsKeepsKeys(c: Config, es: seq<LineEffect>)
    requires Dict.Distinct(c)
    ensures Dict.Distinct(ApplyEffects(c, es))
    ensures StartsWith(Dict.KeysOf(ApplyEffects(c, es)), Dict.KeysOf(c))
    decreases |es|
  {
    if es != [] {
      var c' := ApplyEffect(c, es[0]);
      ApplyEffectKeepsKeys(c, es[0]);
      ApplyEffectsKeepsKeys(c', es[1..]);
      StartsWithTrans(Dict.KeysOf(ApplyEffects(c, es)), Dict.KeysOf(c'), Dict.KeysOf(c));
    }
  }

  lemma ApplyEffectKeepsKeys(c: Config, e: LineEffect)
    requires Dict.Distinct(c)
    ensures Dict.Distinct(ApplyEffect(c, e))
    ensures StartsWith(Dict.KeysOf(ApplyEffect(c, e)), Dict.KeysOf(c))
  {
    var k := Dict.KeysOf(c);
    if e.Assign? {
      Dict.SetKeepsDistinct(c, e.key, e.value);
      var k' := Dict.KeysOf(ApplyEffect(c, e));
      assert k'[..|k|] == k;
    } else {
      assert k[..|k|] == k;
    }
  }

  lemma StartsWithTrans<T>(x: seq<T>, y: seq<T>, z: seq<T>)
    requires StartsWith(x, y) && StartsWith(y, z)
    ensures StartsWith(x, z)
  {
    assert x[..|z|] == x[..|y|][..|z|];
  }

  lemma {:induction false} ApplyEffectsAppend(c: Config, a: seq<LineEffect>, b: seq<LineEffect>)
    ensures ApplyEffects(c, a + b) == ApplyEffects(ApplyEffects(c, a), b)
    decreases |a|
  {
    if a == [] {
      assert a + b == b;
    } else {
      assert (a + b)[0] == a[0];
      assert (a + b)[1..] == a[1..] + b;
      ApplyEffectsAppend(ApplyEffect(c, a[0]), a[1..], b);
    }
  }

  lemma {:induction false} EchoesAppend(a: seq<LineEffect>, b: seq<LineEffect>)
    ensures EchoesOf(a + b) == EchoesOf(a) + EchoesOf(b)
    decreases |a|
  {
    if a == [] {
      assert a + b == b;
    } else {
      assert (a + b)[0] == a[0];
      assert (a + b)[1..] == a[1..] + b;
      EchoesAppend(a[1..], b);
      ConcatAssoc(if a[0].Unknown? then [a[0].echo] else [], EchoesOf(a[1..]), EchoesOf(b));
    }
  }

  // ---------------------------------------------------------------------
  // Several files (session.py:28-58, core.py:90-118)
  // ---------------------------------------------------------------------

  /** A configuration file as the reader finds it. */
  datatype ConfigFile = Readable(lines: seq<string>) | Missing | Directory

  predicate FileOk(f: ConfigFile) {
    f.Readable? ==> AllLines(f.lines)
  }

  predicate WellFormed(files: seq<ConfigFile>) {
    forall i :: 0 <= i < |files| ==> FileOk(files[i])
  }

  /** How an unreadable file is reported: the plain error line, or the
      generic handler with or without the forced traceback. */
  datatype Report = ErrorLine | Handled(forceVerbose: bool)

  function ReportFor(ld: Loader, f: ConfigFile): (r: Report)
    requires !f.Readable?
    ensures ld.SessionLoader? <==> r.ErrorLine?
    ensures r.Handled? ==> (r.forceVerbose <==> f.Directory?)
  {
    match ld
    case SessionLoader => ErrorLine
    case CoreLoader => if f.Missing? then Handled(false) else Handled(true)
  }

  /** The configuration after loading, the lines echoed with `?`, and the
      report of the file at which reading stopped, if any. */
  datatype Loaded = Loaded(config: Config, echoed: seq<string>, failure: Option<Report>)

  /** A file as the loop sees it: the effects of its lines, or the report
      raised on opening it. */
  datatype FileEffects = Lines(effects: seq<LineEffect>) | Unreadable(report: Report)

  /** One file as the loop sees it. */
  function ParseFile(ld: Loader, f: ConfigFile): (r: FileEffects)
    requires FileOk(f)
    ensures r.Lines? <==> f.Readable?
    ensures r.Lines? ==> |r.effects| == |f.lines|
    ensures r.Unreadable? ==> r.report == ReportFor(ld, f)
  {
    if f.Readable? then Lines(Effects(ld, f.lines)) else Unreadable(ReportFor(ld, f))
  }

  function ParseFiles(ld: Loader, files: seq<ConfigFile>): (r: seq<FileEffects>)
    requires WellFormed(files)
    ensures |r| == |files|
    ensures forall i :: 0 <= i < |files| ==> (r[i].Lines? <==> files[i].Readable?)
    ensures forall i :: 0 <= i < |files| ==> r[i].Unreadable? ==> r[i].report == ReportFor(ld, files[i])
  {
    seq(|files|, i requires 0 <= i < |files| => ParseFile(ld, files[i]))
  }

  lemma ParseFilesAppend(ld: Loader, a: seq<ConfigFile>, b: seq<ConfigFile>)
    requires WellFormed(a) && WellFormed(b)
    ensures WellFormed(a + b)
    ensures ParseFiles(ld, a + b) == ParseFiles(ld, a) + ParseFiles(ld, b)
  {
    assert forall i :: 0 <= i < |a + b| ==> (a + b)[i] == if i < |a| then a[i] else b[i - |a|];
  }

  /** The loop of session.py:31-52 over the files in turn, ending at the
      first file that cannot be opened. */
  function Load(c: Config, fx: seq<FileEffects>): (r: Loaded)
    ensures r.failure.None? <==> forall i :: 0 <= i < |fx| ==> fx[i].Lines?
    ensures r.failure.Some? ==>
      exists i :: 0 <= i < |fx| && fx[i].Unreadable? && r.failure.value == fx[i].report
        && forall j :: 0 <= j < i ==> fx[j].Lines?
    decreases |fx|
  {
    if fx == [] then Loaded(c, [], None)
    else if fx[0].Unreadable? then Loaded(c, [], Some(fx[0].report))
    else
      var rest := Load(ApplyEffects(c, fx[0].effects), fx[1..]);
      assert forall i :: 1 <= i < |fx| ==> fx[i] == fx[1..][i - 1];
      assert rest.failure.Some? ==>
        exists i :: 0 <= i < |fx| && fx[i].Unreadable? && rest.failure.value == fx[i].report
          && forall j :: 0 <= j < i ==> fx[j].Lines?
      by {
        if rest.failure.Some? {
          var k :| 0 <= k < |fx[1..]| && fx[1..][k].Unreadable? && rest.failure.value == fx[1..][k].report
            && forall j :: 0 <= j < k ==> fx[1..][j].Lines?;
          assert fx[k + 1].Unreadable? && forall j :: 0 <= j < k + 1 ==> fx[j].Lines?;
        }
      }
      Loaded(rest.config, EchoesOf(fx[0].effects) + rest.echoed, rest.failure)
  }

  /** The effects of the lines read before the first unreadable file. */
  function EffectsRead(fx: seq<FileEffects>): seq<LineEffect>
    decreases |fx|
  {
    if fx == [] || fx[0].Unreadable? then [] else fx[0].effects + EffectsRead(fx[1..])
  }

  /** Loading is applying all effects read, in order, until the first file
      that cannot be opened. */
  lemma {:induction false} LoadReadsInOrder(c: Config, fx: seq<FileEffects>)
    ensures Load(c, fx).config == ApplyEffects(c, EffectsRead(fx))
    ensures Load(c, fx).echoed == EchoesOf(EffectsRead(fx))
    decreases |fx|
  {
    if fx != [] && fx[0].Lines? {
      LoadReadsInOrder(ApplyEffects(c, fx[0].effects), fx[1..]);
      ApplyEffectsAppend(c, fx[0].effects, EffectsRead(fx[1..]));
      EchoesAppend(fx[0].effects, EffectsRead(fx[1..]));
    }
  }

  /** Loading `a` and then `b` is loading `a + b` when every file of `a`
      can be opened. */
  lemma {:induction false} LoadSequential(c: Config, a: seq<FileEffects>, b: seq<FileEffects>)
    requires forall i :: 0 <= i < |a| ==> a[i].Lines?
    ensures Load(Load(c, a).config, b).config == Load(c, a + b).config
    ensures Load(c, a).echoed + Load(Load(c, a).config, b).echoed == Load(c, a + b).echoed
    ensures Load(Load(c, a).config, b).failure == Load(c, a + b).failure
    decreases |a|
  {
    if a == [] {
      assert a + b == b;
    } else {
      assert (a + b)[0] == a[0];
      assert (a + b)[1..] == a[1..] + b;
      assert forall i :: 1 <= i < |a| ==> a[i] == a[1..][i - 1];
      var c' := ApplyEffects(c, a[0].effects);
      LoadSequential(c', a[1..], b);
      var first := Load(c', a[1..]);
      var second := Load(first.config, b);
      assert Load(c, a).echoed == EchoesOf(a[0].effects) + first.echoed;
      ConcatAssoc(EchoesOf(a[0].effects), first.echoed, second.echoed);
    }
  }

  /** `get_config(files)`: the files are read in order through one reader;
      the first file that is missing or a directory ends the loading and is
      reported, and what earlier files assigned stays assigned. */
  function GetConfig(ld: Loader, c: Config, files: seq<ConfigFile>): (r: Loaded)
    requires WellFormed(files)
    ensures r.failure.None? <==> forall i :: 0 <= i < |files| ==> files[i].Readable?
    ensures r.failure.Some? ==>
      exists i :: 0 <= i < |files| && !files[i].Readable? && r.failure.value == ReportFor(ld, files[i])
        && forall j :: 0 <= j < i ==> files[j].Readable?
  {
    Load(c, ParseFiles(ld, files))
  }

  /** The lines read before the first unreadable file. */
  function LinesRead(files: seq<ConfigFile>): (r: seq<string>)
    requires WellFormed(files)
    ensures AllLines(r)
    decreases |files|
  {
    if files == [] || !files[0].Readable? then []
    else
      assert WellFormed(files[1..]) by {
        assert forall i :: 1 <= i < |files| ==> files[i] == files[1..][i - 1];
      }
      var rest := LinesRead(files[1..]);
      EffectsAppend(SessionLoader, files[0].lines, rest);
      files[0].lines + rest
  }

  lemma {:induction false} EffectsReadParsed(ld: Loader, files: seq<ConfigFile>)
    requires WellFormed(files)
    ensures EffectsRead(ParseFiles(ld, files)) == Effects(ld, LinesRead(files))
    decreases |files|
  {
    if files != [] && files[0].Readable? {
      assert WellFormed(files[1..]) by {
        assert forall i :: 1 <= i < |files| ==> files[i] == files[1..][i - 1];
      }
      EffectsReadParsed(ld, files[1..]);
      assert ParseFiles(ld, files)[1..] == ParseFiles(ld, files[1..]);
      EffectsAppend(ld, files[0].lines, LinesRead(files[1..]));
    }
  }

  /** Loading several files is applying all lines read, in order, until the
      first unreadable file. */
  lemma GetConfigReadsInOrder(ld: Loader, c: Config, files: seq<ConfigFile>)
    requires WellFormed(files)
    ensures GetConfig(ld, c, files).config == ApplyLines(ld, c, LinesRead(files))
    ensures GetConfig(ld, c, files).echoed == EchoesOf(Effects(ld, LinesRead(files)))
  {
    LoadReadsInOrder(c, ParseFiles(ld, files));
    EffectsReadParsed(ld, files);
  }

  /** Across all files, the last assignment to a key wins and a key no line
      assigns keeps its earlier value. */
  lemma LastFileWins(ld: Loader, c: Config, files: seq<ConfigFile>, key: string)
    requires WellFormed(files)
    ensures var last := LastAssigned(Effects(ld, LinesRead(files)), key);
      Dict.Get(GetConfig(ld, c, files).config, key) == if last.Some? then last else Dict.Get(c, key)
  {
    GetConfigReadsInOrder(ld, c, files);
    LastWriteWins(c, Effects(ld, LinesRead(files)), key);
  }

  /** Loading `a` and then `b` is loading `a + b`, when every file of `a`
      can be read: the configuration is one mapping that each call updates. */
  lemma GetConfigSequential(ld: Loader, c: Config, a: seq<ConfigFile>, b: seq<ConfigFile>)
    requires WellFormed(a) && WellFormed(b)
    requires forall i :: 0 <= i < |a| ==> a[i].Readable?
    ensures WellFormed(a + b)
    ensures GetConfig(ld, GetConfig(ld, c, a).config, b).config == GetConfig(ld, c, a + b).config
    ensures GetConfig(ld, c, a).echoed + GetConfig(ld, GetConfig(ld, c, a).config, b).echoed
         == GetConfig(ld, c, a + b).echoed
    ensures GetConfig(ld, GetConfig(ld, c, a).config, b).failure == GetConfig(ld, c, a + b).failure
  {
    ParseFilesAppend(ld, a, b);
    LoadSequential(c, ParseFiles(ld, a), ParseFiles(ld, b));
  }
}

=== FILE: core.dfy ===
/** The session state kept in `Main` and the actions that change it:
    signing in behind the empty-credential guard, signing out, and leaving
    the program. The authentication service is a parameter: what it answers
    to a sign-in is given as a `SignInOutcome`. */
module Core {
  import opened Wrappers
  import opened Text
  import Config

  const DefaultUrl: string := "http://127.0.0.1:54321"
  const AuthPrompt: string := "> "
  const SessionPrompt: string := ">> "

  /** The values `Main` (and its successor, the session object) holds.
      `active` is `session_active`, called `authenticated` in the newer
      layout; `jwt` is None until a sign-in succeeds. */
  datatype State = State(
    url: string,
    config: Config.Config,
    jwt: Option<string>,
    running: bool,
    active: bool,
    verbose: bool)

  /** The state at start-up, before any configuration file is read. */
  const Initial: State := State(DefaultUrl, [], None, true, false, false)

  /** What the authentication service answers: an access token with the
      account's e-mail and last sign-in time, or an exception's text. */
  datatype SignInOutcome =
    | Accepted(token: string, accountEmail: string, lastSignIn: string)
    | Rejected(message: string)

  /** Lines printed, and the state afterwards. */
  datatype Step = Step(lines: seq<string>, state: State)

  /** Everything but the authentication fields is the same. */
  predicate SameSettings(a: State, b: State) {
    a.url == b.url && a.config == b.config && a.running == b.running && a.verbose == b.verbose
  }

  /** `sign_in(email, password)`. An empty e-mail or password is refused
      before the service is asked, and nothing changes. Otherwise the
      session is active exactly when the service accepted, and only an
      accepted sign-in replaces the token. The password is never printed. */
  function SignIn(st: State, email: string, password: string, outcome: SignInOutcome): (r: Step)
    ensures email == [] || password == [] ==>
      r == Step(["Invalid email or password."], st)
    ensures email != [] && password != [] ==>
      && SameSettings(r.state, st)
      && |r.lines| == 3 && r.lines[0] == "Logging in..."
      && (r.state.active <==> outcome.Accepted?)
      && r.state.jwt == (if outcome.Accepted? then Some(outcome.token) else st.jwt)
  {
    if email == [] || password == [] then Step(["Invalid email or password."], st)
    else match outcome
      case Rejected(message) =>
        Step(["Logging in...", "No response received.",
              "sign_in(" + email + ", ********): " + message],
             st.(active := false))
      case Accepted(token, accountEmail, lastSignIn) =>
        Step(["Logging in...", accountEmail + " logged in.", "Last login: " + lastSignIn],
             st.(jwt := Some(token), active := true))
  }

  /** The password is never shown: a refused sign-in prints a fixed mask
      in its place, so two attempts that differ only in a non-empty
      password print the same lines and end in the same state. */
  lemma SignInHidesPassword(st: State, email: string, p: string, q: string, outcome: SignInOutcome)
    requires p != [] && q != []
    ensures SignIn(st, email, p, outcome) == SignIn(st, email, q, outcome)
  {
  }

  /** `sign_out()`: the service is told to end the session (not modelled) and
      the session is no longer active; nothing else changes. */
  function SignOut(st: State): (r: Step)
    ensures !r.state.active && SameSettings(r.state, st) && r.state.jwt == st.jwt
    ensures r.lines == ["Logging out."]
  {
    Step(["Logging out."], st.(active := false))
  }

  /** `exit_completely(cr)`: a carriage return first when asked, sign out if
      the session is active, say goodbye, and stop the input loop. */
  function ExitCompletely(st: State, cr: bool): (r: Step)
    ensures !r.state.running && !r.state.active
    ensures r.state.url == st.url && r.state.config == st.config && r.state.jwt == st.jwt
    ensures r.state.verbose == st.verbose
    ensures |r.lines| > 0 && r.lines[|r.lines| - 1] == "Bye."
    ensures |r.lines| == (if cr then 1 else 0) + (if st.active then 1 else 0) + 1
    ensures cr ==> r.lines[0] == "\r"
    ensures "Logging out." in r.lines <==> st.active
  {
    var head := if cr then ["\r"] else [];
    if st.active then
      var out := SignOut(st);
      Step(head + out.lines + ["Bye."], out.state.(running := false))
    else Step(head + ["Bye."], st.(running := false))
  }

  /** Leaving twice signs out at most once: the second exit finds the session
      inactive, prints only the goodbye and leaves the state as the first
      exit left it. */
  lemma ExitTwice(st: State)
    ensures var first := ExitCompletely(st, false);
      ExitCompletely(first.state, false) == Step(["Bye."], first.state)
  {
  }

  /** A session that signed in and then left ends inactive and stopped, with
      the token it was given. */
  lemma SignInThenExit(st: State, email: string, password: string, token: string,
                       accountEmail: string, lastSignIn: string)
    requires email != [] && password != []
    ensures var s1 := SignIn(st, email, password, Accepted(token, accountEmail, lastSignIn)).state;
      var s2 := ExitCompletely(s1, false);
      && s2.lines == ["Logging out.", "Bye."]
      && !s2.state.running && !s2.state.active && s2.state.jwt == Some(token)
  {
  }
}

=== FILE: debug.dfy ===
/** The `debug` command: it prints selected session values, chosen by the
    whitespace-separated names in its argument, or all the standard ones
    when no name is given. There are three versions: core.py's, dev.py's,
    which reports `authenticated` in place of `session_active`, and
    python/dev.py's, which can also list the running tasks and threads. */
module Debug {
  import opened Wrappers
  import opened Text
  import Dict
  import Config
  import Output
  import Core

  datatype Version = CoreDebug | DevDebug | AsyncDevDebug

  /** The values `debug` can print, in the order it prints them. `Active` is
      the session flag under whichever name the version gives it. */
  datatype Field = Url | ApiKey | Email | JwtToken | Running | Active | ConfigDump | Tasks | Threads

  /** The names under which a field can be requested. */
  function Names(v: Version, f: Field): (r: seq<string>)
    ensures |r| >= 1
  {
    match f
    case Url => ["url"]
    case ApiKey => ["api_key"]
    case Email => ["email"]
    case JwtToken => ["jwt_token", "jwt"]
    case Running => ["running"]
    case Active => if v == CoreDebug then ["session_active"] else ["authenticated"]
    case ConfigDump => ["config"]
    case Tasks => ["tasks"]
    case Threads => ["threads"]
  }

  /** Tasks and threads exist only in python/dev.py's version. */
  predicate Known(v: Version, f: Field) {
    v == AsyncDevDebug || (f != Tasks && f != Threads)
  }

  /** The fields printed when no name is given. */
  const Standard: set<Field> := {Url, ApiKey, Email, JwtToken, Running, Active, ConfigDump}

  /** The field a filter word names, if any. */
  function Named(v: Version, n: string): Option<Field> {
    if n == "url" then Some(Url)
    else if n == "api_key" then Some(ApiKey)
    else if n == "email" then Some(Email)
    else if n == "jwt_token" || n == "jwt" then Some(JwtToken)
    else if n == "running" then Some(Running)
    else if n == Names(v, Active)[0] then Some(Active)
    else if n == "config" then Some(ConfigDump)
    else if n == "tasks" then Some(Tasks)
    else if n == "threads" then Some(Threads)
    else None
  }

  /** A word names a field exactly when it is one of the field's names, so
      no word names two fields. */
  lemma NamedSpec(v: Version, n: string, f: Field)
    ensures Named(v, n) == Some(f) <==> n in Names(v, f)
  {
  }

  /** The fields some filter word names. */
  function Requested(v: Version, filters: seq<string>): set<Field> {
    if filters == [] then {}
    else
      var rest := Requested(v, filters[1..]);
      match Named(v, filters[0])
      case None => rest
      case Some(f) => {f} + rest
  }

  /** A field is requested exactly when one of its names is a filter word. */
  lemma {:induction false} RequestedByName(v: Version, filters: seq<string>, f: Field)
    ensures f in Requested(v, filters) <==> exists n :: n in filters && n in Names(v, f)
    decreases |filters|
  {
    if filters != [] {
      NamedSpec(v, filters[0], f);
      RequestedByName(v, filters[1..], f);
      assert forall n :: n in filters <==> n == filters[0] || n in filters[1..];
    }
  }

  /** The fields a filter list asks for: the standard seven when it is
      empty, the named ones otherwise. */
  function Wanted(v: Version, filters: seq<string>): set<Field> {
    if filters == [] then Standard else Requested(v, filters)
  }

  function Pick(f: Field, wanted: set<Field>): seq<Field> {
    if f in wanted then [f] else []
  }

  /** The fields printed, in the order the code tests them. */
  function Sequence(v: Version, wanted: set<Field>): seq<Field> {
    Pick(Url, wanted) + Pick(ApiKey, wanted) + Pick(Email, wanted) + Pick(JwtToken, wanted)
      + Pick(Running, wanted) + Pick(Active, wanted) + Pick(ConfigDump, wanted)
      + (if v == AsyncDevDebug then Pick(Tasks, wanted) + Pick(Threads, wanted) else [])
  }

  /** A field is printed exactly when it is wanted and the version knows it. */
  lemma SequenceMembers(v: Version, wanted: set<Field>, f: Field)
    ensures f in Sequence(v, wanted) <==> f in wanted && Known(v, f)
  {
    var w := wanted;
    var p1 := Pick(Url, w) + Pick(ApiKey, w);
    var p2 := p1 + Pick(Email, w);
    var p3 := p2 + Pick(JwtToken, w);
    var p4 := p3 + Pick(Running, w);
    var p5 := p4 + Pick(Active, w);
    var p6 := p5 + Pick(ConfigDump, w);
    InConcat(p6, if v == AsyncDevDebug then Pick(Tasks, w) + Pick(Threads, w) else [], f);
    InConcat(p5, Pick(ConfigDump, w), f);
    InConcat(p4, Pick(Active, w), f);
    InConcat(p3, Pick(Running, w), f);
    InConcat(p2, Pick(JwtToken, w), f);
    InConcat(p1, Pick(Email, w), f);
    InConcat(Pick(Url, w), Pick(ApiKey, w), f);
    InConcat(Pick(Tasks, w), Pick(Threads, w), f);
  }

  lemma InConcat(a: seq<Field>, b: seq<Field>, f: Field)
    ensures f in a + b <==> f in a || f in b
  {
  }

  /** The fields `debug(args)` prints; None counts as the empty string. */
  function Selected(v: Version, args: Option<string>): (r: seq<Field>)
    ensures forall f :: f in r <==> Known(v, f) && f in Wanted(v, Split(args.GetOr("")))
  {
    var wanted := Wanted(v, Split(args.GetOr("")));
    assert forall f :: f in Sequence(v, wanted) <==> f in wanted && Known(v, f) by {
      forall f { SequenceMembers(v, wanted, f); }
    }
    Sequence(v, wanted)
  }

  /** With no names given, every version prints the same seven fields. */
  lemma NoFiltersShowsSeven(v: Version, args: Option<string>)
    requires args.None? || AllSpace(args.value)
    ensures Selected(v, args) == [Url, ApiKey, Email, JwtToken, Running, Active, ConfigDump]
  {
    assert Wanted(v, Split(args.GetOr(""))) == Standard;
    SequenceStandard(v);
  }

  /** Wanting one field prints just that field, if the version knows it. */
  lemma SequenceOne(v: Version, f: Field)
    ensures Sequence(v, {f}) == if Known(v, f) then [f] else []
  {
    match f
    case Url =>
    case ApiKey =>
    case Email =>
    case JwtToken =>
    case Running =>
    case Active =>
    case ConfigDump =>
    case Tasks =>
    case Threads =>
  }

  lemma SequenceStandard(v: Version)
    ensures Sequence(v, Standard) == [Url, ApiKey, Email, JwtToken, Running, Active, ConfigDump]
  {
  }

  /** With names given, a field is printed exactly when the version knows it
      and one of its names is among them. */
  lemma FiltersSelectByName(v: Version, args: string, f: Field)
    requires !AllSpace(args)
    ensures f in Selected(v, Some(args)) <==>
      Known(v, f) && exists n :: n in Split(args) && n in Names(v, f)
  {
    RequestedByName(v, Split(args), f);
  }

  /** A single filter word asks for the field it names and nothing else. */
  lemma SelectedOne(v: Version, name: string)
    requires name != [] && NoSpace(name)
    ensures Selected(v, Some(name)) ==
      Sequence(v, if Named(v, name).Some? then {Named(v, name).value} else {})
  {
    SplitWord(name);
    RequestedOne(v, name);
  }

  lemma RequestedOne(v: Version, name: string)
    ensures Requested(v, [name]) == if Named(v, name).Some? then {Named(v, name).value} else {}
  {
    assert [name][1..] == [];
  }

  /** `jwt` names the token as well as `jwt_token` does. */
  lemma JwtAlias(v: Version, name: string)
    requires name == "jwt" || name == "jwt_token"
    ensures Selected(v, Some(name)) == [JwtToken]
  {
    SelectedOne(v, name);
    NamedSpec(v, name, JwtToken);
    SequenceOne(v, JwtToken);
  }

  /** In both dev.py versions `authenticated` replaces `session_active`: the
      old name selects nothing, the new one selects the session flag; in
      core.py it is the other way round. */
  lemma AuthenticatedReplacesSessionActive(v: Version, name: string)
    requires name == "authenticated" || name == "session_active"
    ensures Selected(v, Some(name)) == (if name == Names(v, Active)[0] then [Active] else [])
  {
    if name == Names(v, Active)[0] {
      FlagNameSelectsFlag(v, name);
    } else {
      OtherFlagNameSelectsNothing(v, name);
    }
  }

  lemma FlagNameSelectsFlag(v: Version, name: string)
    requires name == Names(v, Active)[0]
    ensures Selected(v, Some(name)) == [Active]
  {
    SelectedOne(v, name);
    NamedSpec(v, name, Active);
    SequenceOne(v, Active);
  }

  lemma OtherFlagNameSelectsNothing(v: Version, name: string)
    requires name == "authenticated" || name == "session_active"
    requires name != Names(v, Active)[0]
    ensures Selected(v, Some(name)) == []
  {
    SelectedOne(v, name);
    OldNameUnknown(v, name);
    assert Sequence(v, {}) == [];
  }

  /** Each version's other name for the session flag names nothing. */
  lemma OldNameUnknown(v: Version, name: string)
    requires name == "authenticated" || name == "session_active"
    requires name != Names(v, Active)[0]
    ensures Named(v, name).None?
  {
  }

  /** A single word with no whitespace splits into itself. */
  lemma SplitWord(w: string)
    requires w != [] && NoSpace(w)
    ensures Split(w) == [w]
  {
    assert SkipSpaces(w, 0) == 0;
    SkipWordExact(w, 0, |w|);
    SplitFromWord(w, 0, |w|);
    assert w[0..|w|] == w;
  }

  /** What `debug` reads: the session state, and the tasks and threads the
      runtime reports. */
  datatype View = View(state: Core.State, tasks: seq<string>, threads: seq<string>)

  /** A missing configuration value prints as `None`. */
  function ShowSetting(c: Config.Config, key: string): (r: string)
    ensures Dict.Get(c, key).None? ==> r == "None"
    ensures Dict.Get(c, key).Some? ==> r == Output.Show(Dict.Get(c, key).value)
  {
    match Dict.Get(c, key)
    case None => "None"
    case Some(x) => Output.Show(x)
  }

  /** The lines one field prints; the configuration dump can stop early. */
  function FieldLines(v: Version, view: View, f: Field): (r: Output.Printed)
    ensures f != ConfigDump ==> r.fault.None?
    ensures r.lines != []
    ensures f != ConfigDump && f != Tasks && f != Threads ==>
      |r.lines| == 1 && StartsWith(r.lines[0], Names(v, f)[0] + " = ")
    ensures f == ConfigDump ==> (r.lines[0] == "config:" &&
      r.fault == Output.PrintItem(Output.Mapping(view.state.config), "   ").fault)
  {
    var st := view.state;
    match f
    case Url => Output.Printed(["url = " + st.url], None)
    case ApiKey => Output.Printed(["api_key = " + ShowSetting(st.config, "api_key")], None)
    case Email => Output.Printed(["email = " + ShowSetting(st.config, "email")], None)
    case JwtToken => Output.Printed(["jwt_token = " + st.jwt.GetOr("None")], None)
    case Running => Output.Printed(["running = " + ShowBool(st.running)], None)
    case Active => Output.Printed([Names(v, Active)[0] + " = " + ShowBool(st.active)], None)
    case ConfigDump =>
      var p := Output.PrintItem(Output.Mapping(st.config), "   ");
      Output.Printed(["config:"] + p.lines, p.fault)
    case Tasks => Output.Printed(["\nTasks:"] + seq(|view.tasks|, i requires 0 <= i < |view.tasks| => "   " + view.tasks[i]), None)
    case Threads => Output.Printed(["\nThreads:"] + seq(|view.threads|, i requires 0 <= i < |view.threads| => "   " + view.threads[i]), None)
  }

  /** The lines of the fields one after another, as printed when no field
      raises. */
  function AllLines(v: Version, view: View, fs: seq<Field>): (r: seq<string>)
    ensures |r| >= |fs|
  {
    if fs == [] then [] else FieldLines(v, view, fs[0]).lines + AllLines(v, view, fs[1..])
  }

  /** Printing field `f` raises nothing; only the configuration dump can
      raise. */
  predicate FieldCompletes(v: Version, view: View, f: Field) {
    FieldLines(v, view, f).fault.None?
  }

  /** Printing the fields in order; an exception ends the command. It
      completes exactly when every field completes, and then it has printed
      every field's lines in order; otherwise the exception is the one the
      configuration dump raised. */
  function PrintFields(v: Version, view: View, fs: seq<Field>): (r: Output.Printed)
    ensures r.fault.None? <==> forall i :: 0 <= i < |fs| ==> FieldCompletes(v, view, fs[i])
    ensures r.fault.None? ==> r.lines == AllLines(v, view, fs)
    ensures r.fault.Some? ==>
      ConfigDump in fs && r.fault == Output.PrintItem(Output.Mapping(view.state.config), "   ").fault
    ensures fs != [] ==> StartsWith(r.lines, FieldLines(v, view, fs[0]).lines)
  {
    if fs == [] then Output.Printed([], None)
    else
      var p := FieldLines(v, view, fs[0]);
      if p.fault.Some? then p
      else
        var rest := PrintFields(v, view, fs[1..]);
        assert forall i :: 1 <= i < |fs| ==> fs[i] == fs[1..][i - 1];
        Output.Printed(p.lines + rest.lines, rest.fault)
  }

  /** `debug(args)`: the selected fields' lines in order, unless the
      configuration dump among them raises. */
  function ShowDebug(v: Version, view: View, args: Option<string>): (r: Output.Printed)
    ensures r.fault.Some? ==> ConfigDump in Selected(v, args)
    ensures r.fault.None? ==> r.lines == AllLines(v, view, Selected(v, args))
    ensures r.fault.None? <==>
      !(ConfigDump in Selected(v, args) && Output.PrintItem(Output.Mapping(view.state.config), "   ").fault.Some?)
  {
    var fs := Selected(v, args);
    var r := PrintFields(v, view, fs);
    assert r.fault.None? <==> !(ConfigDump in fs && !FieldCompletes(v, view, ConfigDump)) by {
      if ConfigDump in fs {
        var i :| 0 <= i < |fs| && fs[i] == ConfigDump;
      }
    }
    r
  }

  /** Asking for the URL prints exactly its one line. */
  lemma DebugUrl(v: Version, view: View)
    ensures ShowDebug(v, view, Some("url")) == Output.Printed(["url = " + view.state.url], None)
  {
    SelectedOne(v, "url");
    NamedSpec(v, "url", Url);
    SequenceOne(v, Url);
    assert PrintFields(v, view, [Url]) == FieldLines(v, view, Url);
  }

  /** `debug` fails exactly when it dumps the configuration and the
      configuration holds a password stored as a bool; the exception is
      then the TypeError of `len()`. */
  lemma DebugFailsOnlyOnFlagPassword(v: Version, view: View, args: Option<string>)
    ensures var c := view.state.config;
      ShowDebug(v, view, args).fault.Some? <==>
        ConfigDump in Selected(v, args) &&
        exists i :: 0 <= i < |c| && c[i].0 == "password" && c[i].1.Flag?
    ensures ShowDebug(v, view, args).fault.Some? ==> ShowDebug(v, view, args).fault == Some(TypeError)
  {
    Output.PrintEntriesCompletes("   ", view.state.config);
  }
}

=== FILE: dev.dfy ===
/** The `dev` command: the experiment name is the first run of
    non-whitespace, the rest of the text (with its leading whitespace) is
    handed to the experiment. The older layout (dev.py) knows three
    experiments; the newer one (python/dev.py) adds the beep and realtime
    channel experiments, most of them under a long and a short name. The
    backend calls themselves are not modelled: an experiment's model is the
    request it would make. */
module Dev {
  import opened Wrappers
  import opened Text
  import Dict
  import opened Config
  import Args

  /** Which of the two source layouts is meant. */
  datatype Layout = Basic | Extended

  /** What `dev` with no text prints. */
  const HelpLines: seq<string> := ["dev?", "   explore [args]", "   ping [args]"]

  /** The experiment `dev` runs, with the text it hands over. */
  datatype Experiment =
    | Help
    | Explore(args: string)
    | Beep(args: string)
    | Edge(args: string)
    | Subscribe(args: string)
    | Unsubscribe(args: string)
    | ListChannels
    | ListenChannel(args: string)
    | SendChannel(args: string)
    | ListenTable(args: string)
    | Ping(args: string)
    | Unrecognised(name: string)

  /** The experiment names each layout recognises. */
  function Experiments(v: Layout): set<string> {
    if v.Basic? then {"explore", "edge", "ping"}
    else {"explore", "beep", "edge", "subscribe", "sub", "unsubscribe", "unsub",
          "listchannels", "lschan", "listenchan", "lchan", "sendchan", "schan",
          "listendb", "ldb", "ping"}
  }

  /** The long and short spellings of the same experiment. */
  const Aliases: set<(string, string)> := {
    ("subscribe", "sub"), ("unsubscribe", "unsub"), ("listchannels", "lschan"),
    ("listenchan", "lchan"), ("sendchan", "schan"), ("listendb", "ldb")}

  /** The experiment an already separated name selects. A recognised name
      hands the remaining text over unchanged; any other name is echoed. */
  function Route(v: Layout, name: string, rest: string): (r: Experiment)
    ensures !r.Help?
    ensures r.Unrecognised? <==> name !in Experiments(v)
    ensures r.Unrecognised? ==> r.name == name
    ensures !r.Unrecognised? && !r.ListChannels? ==> r.args == rest
    ensures r.Explore? <==> name == "explore"
    ensures r.Edge? <==> name == "edge"
    ensures r.Ping? <==> name == "ping"
    ensures r.Beep? <==> v.Extended? && name == "beep"
    ensures r.Subscribe? <==> v.Extended? && (name == "subscribe" || name == "sub")
    ensures r.Unsubscribe? <==> v.Extended? && (name == "unsubscribe" || name == "unsub")
    ensures r.ListChannels? <==> v.Extended? && (name == "listchannels" || name == "lschan")
    ensures r.ListenChannel? <==> v.Extended? && (name == "listenchan" || name == "lchan")
    ensures r.SendChannel? <==> v.Extended? && (name == "sendchan" || name == "schan")
    ensures r.ListenTable? <==> v.Extended? && (name == "listendb" || name == "ldb")
  {
    if name == "explore" then Explore(rest)
    else if v.Extended? && name == "beep" then Beep(rest)
    else if name == "edge" then Edge(rest)
    else if v.Extended? && (name == "subscribe" || name == "sub") then Subscribe(rest)
    else if v.Extended? && (name == "unsubscribe" || name == "unsub") then Unsubscribe(rest)
    else if v.Extended? && (name == "listchannels" || name == "lschan") then ListChannels
    else if v.Extended? && (name == "listenchan" || name == "lchan") then ListenChannel(rest)
    else if v.Extended? && (name == "sendchan" || name == "schan") then SendChannel(rest)
    else if v.Extended? && (name == "listendb" || name == "ldb") then ListenTable(rest)
    else if name == "ping" then Ping(rest)
    else Unrecognised(name)
  }

  /** `re.match(r'(\S*)(.*)$', args)` on a line: group 1 is the leading run
      of non-whitespace (empty when the text starts with whitespace) and
      group 2 everything after it. */
  function SplitExperiment(s: string): (r: (string, string))
    ensures r.0 + r.1 == s
    ensures NoSpace(r.0)
    ensures r.1 == [] || IsSpace(r.1[0])
  {
    var w := SkipWord(s, 0);
    assert s[..w] + s[w..] == s;
    (s[..w], s[w..])
  }

  /** The split is the only one with those three properties. */
  lemma SplitExperimentUnique(w: string, rest: string)
    requires NoSpace(w) && (rest == [] || IsSpace(rest[0]))
    ensures SplitExperiment(w + rest) == (w, rest)
  {
    var s := w + rest;
    assert NoSpaceIn(s, 0, |w|) by {
      forall t | 0 <= t < |w| ensures !IsSpace(s[t]) { assert s[t] == w[t]; }
    }
    if rest != [] {
      assert s[|w|] == rest[0];
    }
    SkipWordExact(s, 0, |w|);
    assert s[..|w|] == w;
    assert s[|w|..] == rest;
  }

  /** `dev(args)`: no text shows the help; otherwise the first word selects
      the experiment. The regular expression always matches a line. */
  function Dispatch(v: Layout, args: Option<string>): (r: Experiment)
    requires args.Some? ==> IsLine(args.value)
    ensures r.Help? <==> args.None?
    ensures args.Some? ==> (r.Unrecognised? <==> SplitExperiment(args.value).0 !in Experiments(v))
    ensures args.Some? && r.Unrecognised? ==> StartsWith(args.value, r.name) && NoSpace(r.name)
    ensures args.Some? && !r.Unrecognised? && !r.ListChannels? ==>
      args.value == SplitExperiment(args.value).0 + r.args
  {
    match args
    case None => Help
    case Some(s) =>
      var (name, rest) := SplitExperiment(s);
      Route(v, name, rest)
  }

  /** The lines `dev` itself prints; the other experiments print through the
      backend. */
  function Echo(e: Experiment): seq<string> {
    match e
    case Help => HelpLines
    case Ping(a) => ["ping " + a]
    case Unrecognised(n) => [n + "?"]
    case _ => []
  }

  /** Dispatching a name followed by its text is routing that name with
      that text, in both layouts. */
  lemma DispatchByName(v: Layout, name: string, rest: string)
    requires NoSpace(name) && (rest == [] || IsSpace(rest[0]))
    requires IsLine(name + rest)
    ensures Dispatch(v, Some(name + rest)) == Route(v, name, rest)
  {
    SplitExperimentUnique(name, rest);
  }

  /** Text that starts with whitespace names the empty experiment, which no
      layout knows: `dev` prints a lone question mark. */
  lemma LeadingSpaceIsUnrecognised(v: Layout, s: string)
    requires IsLine(s) && s != [] && IsSpace(s[0])
    ensures Dispatch(v, Some(s)) == Unrecognised([])
    ensures Echo(Dispatch(v, Some(s))) == ["?"]
  {
    DispatchByName(v, [], s);
    assert [] + s == s;
    assert [] + "?" == "?";
  }

  /** Any name the layout does not know is echoed back with a question
      mark, and nothing runs. */
  lemma UnknownEchoed(v: Layout, s: string)
    requires IsLine(s) && SplitExperiment(s).0 !in Experiments(v)
    ensures Dispatch(v, Some(s)) == Unrecognised(SplitExperiment(s).0)
    ensures Echo(Dispatch(v, Some(s))) == [SplitExperiment(s).0 + "?"]
  {
  }

  /** `dev` with no text prints the help and runs nothing. */
  lemma NoTextShowsHelp(v: Layout)
    ensures Echo(Dispatch(v, None)) == ["dev?", "   explore [args]", "   ping [args]"]
  {
  }

  /** `dev ping <text>` echoes the text with the whitespace that separated
      it, so one typed space gives two printed ones. */
  lemma PingEchoes(v: Layout, text: string)
    requires IsLine(text)
    ensures Echo(Dispatch(v, Some("ping " + text))) == ["ping  " + text]
  {
    assert "ping " + text == "ping" + (" " + text);
    DispatchByName(v, "ping", " " + text);
    assert "ping " + (" " + text) == "ping  " + text;
  }

  /** The two spellings of an experiment select the same experiment. */
  lemma AliasesAgree(long: string, short: string, rest: string)
    requires (long, short) in Aliases
    ensures Route(Extended, long, rest) == Route(Extended, short, rest)
    ensures !Route(Extended, long, rest).Unrecognised?
  {
  }

  /** The newer layout extends the older one: the names the older one knows
      select the same experiment in both, and the names it lacks are
      unknown to it. */
  lemma ExtendedExtendsBasic(name: string, rest: string)
    ensures Experiments(Basic) <= Experiments(Extended)
    ensures name in Experiments(Basic) ==> Route(Basic, name, rest) == Route(Extended, name, rest)
    ensures name in Experiments(Extended) - Experiments(Basic) ==>
      Route(Basic, name, rest) == Unrecognised(name)
  {
  }

  // ---------------------------------------------------------------------
  // edge
  // ---------------------------------------------------------------------

  /** The payload `ast.literal_eval` produced, or the empty dict it falls
      back to when evaluation raises. */
  datatype Payload = Literal(text: string) | EmptyDict

  /** The edge-function call: the URL and the payload. */
  datatype EdgeCall = EdgeCall(url: string, payload: Payload)

  /** `parse_args(args)`: `split()` in the older layout, the quote-aware
      tokenizer in the newer one. */
  function EdgeTokens(v: Layout, args: string): seq<string> {
    if v.Basic? then Split(args) else Args.ParseArgs(args)
  }

  /** `edge(args)`. The endpoint is the first token and the payload text the
      second, with the delimiter turned back into spaces; whether that text
      evaluates as a Python literal is the parameter `evaluates`. A missing
      token raises IndexError, a missing `url` setting KeyError, and a
      `url` held as a bool TypeError. */
  function EdgeRequest(v: Layout, config: Config, args: string, evaluates: string -> bool): (r: Result<EdgeCall>)
    ensures r == Err(IndexError) <==> |EdgeTokens(v, args)| < 2
    ensures r == Err(KeyError) <==>
      |EdgeTokens(v, args)| >= 2 && Dict.Get(config, "url").None?
    ensures r == Err(TypeError) <==>
      |EdgeTokens(v, args)| >= 2 && Dict.Get(config, "url").Some? && Dict.Get(config, "url").value.Flag?
    ensures r.Ok? ==>
      var pa := EdgeTokens(v, args);
      var base := Dict.Get(config, "url").value.text + "/functions/v1/";
      && StartsWith(r.value.url, base) && r.value.url[|base|..] == pa[0]
      && (r.value.payload.Literal? <==> evaluates(Unescape(pa[1])))
      && (r.value.payload.Literal? ==> r.value.payload.text == Unescape(pa[1]))
  {
    var pa := EdgeTokens(v, args);
    if |pa| < 2 then Err(IndexError)
    else
      var text := Unescape(pa[1]);
      var payload := if evaluates(text) then Literal(text) else EmptyDict;
      var url := Dict.Get(config, "url");
      if url.None? then Err(KeyError)
      else if url.value.Flag? then Err(TypeError)
      else Ok(EdgeCall(url.value.text + "/functions/v1/" + pa[0], payload))
  }

  /** The words of a text that starts with a space and joins `words`. */
  lemma SplitAfterSpace(words: seq<string>)
    requires Words(words) && words != []
    ensures Split(" " + JoinSpaced(words)) == words
  {
    SplitJoinedFrom(" ", words);
    SplitSkipsSpace(" " + JoinSpaced(words), 0);
  }

  /** The older tokenizer needs no condition on quotes. */
  lemma PlainTokensIfNeeded(v: Layout, words: seq<string>)
    requires Words(words) && words != []
    requires v.Extended? ==> Args.NoQuotes(" " + JoinSpaced(words))
    ensures EdgeTokens(v, " " + JoinSpaced(words)) == words
  {
    if v.Extended? {
      PlainTokens(v, words);
    } else {
      SplitAfterSpace(words);
    }
  }

  /** Without quotes both tokenizers return the joined words. */
  lemma PlainTokens(v: Layout, words: seq<string>)
    requires Words(words) && words != []
    requires Args.NoQuotes(" " + JoinSpaced(words))
    ensures EdgeTokens(v, " " + JoinSpaced(words)) == words
    ensures Args.ParseArgs(" " + JoinSpaced(words)) == words
  {
    SplitAfterSpace(words);
    Args.ParseArgsPlain(" " + JoinSpaced(words));
  }

  lemma JoinOne(a: string)
    ensures " " + a == " " + JoinSpaced([a])
  {
  }

  lemma JoinTwo(a: string, b: string)
    ensures " " + a + " " + b == " " + JoinSpaced([a, b])
  {
    assert JoinSpaced([a, b]) == a + " " + JoinSpaced([b]);
  }

  lemma JoinThree(a: string, b: string, c: string)
    ensures " " + a + " " + b + " " + c == " " + JoinSpaced([a, b, c])
  {
    assert [a, b, c][1..] == [b, c];
    assert JoinSpaced([a, b, c]) == a + " " + JoinSpaced([b, c]);
    assert JoinSpaced([b, c]) == b + " " + JoinSpaced([c]);
  }

  /** A brace payload taken from the configuration, escaped when the file was
      read, reaches the edge function intact: `dev edge <endpoint> <payload>`
      calls `<url>/functions/v1/<endpoint>` with the payload text as written
      in the file. In the newer layout this needs a text without quotes. */
  lemma EdgeKeepsPayload(v: Layout, config: Config, u: string, endpoint: string, inner: string,
                         evaluates: string -> bool)
    requires Dict.Get(config, "url") == Some(Str(u))
    requires endpoint != [] && NoSpace(endpoint)
    requires forall t :: 0 <= t < |inner| ==> inner[t] != '}'
    requires forall t :: 0 <= t < |inner| ==> inner[t] == ' ' || !IsSpace(inner[t])
    requires SpaceDelim !in inner
    requires v.Extended? ==> Args.NoQuotes(" " + endpoint + " " + EscapeBraces("{" + inner + "}"))
    ensures var payload := "{" + inner + "}";
      EdgeRequest(v, config, " " + endpoint + " " + EscapeBraces(payload), evaluates) ==
      Ok(EdgeCall(u + "/functions/v1/" + endpoint,
                  if evaluates(payload) then Literal(payload) else EmptyDict))
  {
    var payload := "{" + inner + "}";
    var escaped := EscapeBraces(payload);
    var args := " " + endpoint + " " + escaped;
    PayloadTokens(v, endpoint, inner);
    EscapeBracesRoundTrip(payload);
    EdgeOnTokens(v, config, u, args, endpoint, escaped, evaluates);
  }

  /** The endpoint and the escaped payload are the two tokens. */
  lemma PayloadTokens(v: Layout, endpoint: string, inner: string)
    requires endpoint != [] && NoSpace(endpoint)
    requires forall t :: 0 <= t < |inner| ==> inner[t] != '}'
    requires forall t :: 0 <= t < |inner| ==> inner[t] == ' ' || !IsSpace(inner[t])
    requires v.Extended? ==> Args.NoQuotes(" " + endpoint + " " + EscapeBraces("{" + inner + "}"))
    ensures var escaped := EscapeBraces("{" + inner + "}");
      EdgeTokens(v, " " + endpoint + " " + escaped) == [endpoint, escaped]
  {
    var escaped := EscapeBraces("{" + inner + "}");
    EscapedPayloadIsOneWord(inner);
    TwoTokens(v, endpoint, escaped);
  }

  /** Two words after a space are the two tokens. */
  lemma TwoTokens(v: Layout, a: string, w: string)
    requires a != [] && NoSpace(a) && w != [] && NoSpace(w)
    requires v.Extended? ==> Args.NoQuotes(" " + a + " " + w)
    ensures EdgeTokens(v, " " + a + " " + w) == [a, w]
  {
    JoinTwo(a, w);
    PlainTokensIfNeeded(v, [a, w]);
  }

  /** Two tokens and a configured url make the call to the first token,
      with the second one unescaped as its payload. */
  lemma EdgeOnTokens(v: Layout, config: Config, u: string, args: string, endpoint: string, w: string,
                     evaluates: string -> bool)
    requires Dict.Get(config, "url") == Some(Str(u))
    requires EdgeTokens(v, args) == [endpoint, w]
    ensures EdgeRequest(v, config, args, evaluates) ==
      Ok(EdgeCall(u + "/functions/v1/" + endpoint,
                  if evaluates(Unescape(w)) then Literal(Unescape(w)) else EmptyDict))
  {
  }

  /** Without a second token the request fails before the configuration is
      consulted: `dev edge <endpoint>` raises IndexError. */
  lemma EdgeNeedsPayload(v: Layout, config: Config, endpoint: string, evaluates: string -> bool)
    requires endpoint != [] && NoSpace(endpoint)
    requires v.Extended? ==> Args.NoQuotes(" " + endpoint)
    ensures EdgeRequest(v, config, " " + endpoint, evaluates) == Err(IndexError)
  {
    JoinOne(endpoint);
    PlainTokensIfNeeded(v, [endpoint]);
  }

  // ---------------------------------------------------------------------
  // realtime channels (newer layout)
  // ---------------------------------------------------------------------

  /** The channel and event `lchan` listens to. */
  datatype Listen = Listen(channel: string, event: string)

  /** The channel, event and message `schan` sends. */
  datatype Send = Send(channel: string, event: string, message: string)

  /** The event name used when none is given. */
  const DefaultEvent: string := "test"

  /** `lchan(args)`: the first token names the channel, the second, if any,
      the event. No token at all raises IndexError. */
  function ListenArgs(args: string): (r: Result<Listen>)
    ensures r.Err? <==> Args.ParseArgs(args) == []
    ensures r.Err? ==> r.fault == IndexError
    ensures r.Ok? ==> r.value.channel == Args.ParseArgs(args)[0]
    ensures r.Ok? && |Args.ParseArgs(args)| > 1 ==> r.value.event == Args.ParseArgs(args)[1]
    ensures r.Ok? && |Args.ParseArgs(args)| == 1 ==> r.value.event == DefaultEvent
  {
    var pa := Args.ParseArgs(args);
    if |pa| == 0 then Err(IndexError)
    else Ok(Listen(pa[0], if |pa| > 1 then pa[1] else DefaultEvent))
  }

  /** `schan(args)`: the first token names the channel, the last is the
      message, and the second is the event only when there are at least
      three tokens. No token at all raises IndexError. */
  function SendArgs(args: string): (r: Result<Send>)
    ensures r.Err? <==> Args.ParseArgs(args) == []
    ensures r.Err? ==> r.fault == IndexError
    ensures r.Ok? ==>
      var pa := Args.ParseArgs(args);
      && r.value.channel == pa[0] && r.value.message == pa[|pa| - 1]
      && r.value.event == (if |pa| > 2 then pa[1] else DefaultEvent)
  {
    var pa := Args.ParseArgs(args);
    if |pa| == 0 then Err(IndexError)
    else Ok(Send(pa[0], if |pa| > 2 then pa[1] else DefaultEvent, pa[|pa| - 1]))
  }

  /** `lchan` with nothing after it listens on the empty channel name with the
      default event: `parse_args('')` is one empty token. */
  lemma ListenWithoutText()
    ensures ListenArgs("") == Ok(Listen("", DefaultEvent))
  {
  }

  /** `lchan <channel> <event>` and `lchan <channel>`, without quotes. */
  lemma ListenWords(channel: string, event: string)
    requires channel != [] && NoSpace(channel) && event != [] && NoSpace(event)
    requires Args.NoQuotes(" " + channel + " " + event)
    ensures ListenArgs(" " + channel + " " + event) == Ok(Listen(channel, event))
    ensures Args.NoQuotes(" " + channel) ==> ListenArgs(" " + channel) == Ok(Listen(channel, DefaultEvent))
  {
    JoinTwo(channel, event);
    PlainTokens(Extended, [channel, event]);
    if Args.NoQuotes(" " + channel) {
      JoinOne(channel);
      PlainTokens(Extended, [channel]);
    }
  }

  /** `schan <channel> <message>` sends on the default event, and with a
      third word the middle one is the event. */
  lemma SendWords(channel: string, event: string, message: string)
    requires channel != [] && NoSpace(channel) && event != [] && NoSpace(event)
    requires message != [] && NoSpace(message)
    requires Args.NoQuotes(" " + channel + " " + event + " " + message)
    ensures SendArgs(" " + channel + " " + event + " " + message) == Ok(Send(channel, event, message))
    ensures Args.NoQuotes(" " + channel + " " + message) ==>
      SendArgs(" " + channel + " " + message) == Ok(Send(channel, DefaultEvent, message))
  {
    JoinThree(channel, event, message);
    PlainTokens(Extended, [channel, event, message]);
    if Args.NoQuotes(" " + channel + " " + message) {
      JoinTwo(channel, message);
      PlainTokens(Extended, [channel, message]);
    }
  }

  /** `schan <channel>` alone sends the channel name as the message. */
  lemma SendChannelOnly(channel: string)
    requires channel != [] && NoSpace(channel) && Args.NoQuotes(" " + channel)
    ensures SendArgs(" " + channel) == Ok(Send(channel, DefaultEvent, channel))
  {
    JoinOne(channel);
    PlainTokens(Extended, [channel]);
  }

  /** `sub`, `unsub` and `ldb`: the channel or table name is the text with
      its surrounding whitespace removed. */
  function TargetName(args: string): (r: string)
    ensures r == [] <==> AllSpace(args)
    ensures r != [] ==> !IsSpace(r[0]) && !IsSpace(r[|r| - 1])
  {
    Strip(args)
  }

  /** The name is the same however much whitespace surrounds it. */
  lemma TargetNameIgnoresPadding(a: string, name: string, b: string)
    requires AllSpace(a) && AllSpace(b)
    requires name == [] || (!IsSpace(name[0]) && !IsSpace(name[|name| - 1]))
    ensures TargetName(a + name + b) == name
  {
    StripPadding(a, name, b);
  }
}

=== FILE: dict.dfy ===
/** Python dicts keep their keys in insertion order, and assigning to a key
    that is already present keeps its position. The configuration mapping is
    printed in that order, so it is modelled as a list of entries. */
module Dict {
  import opened Wrappers

  type Entries<V> = seq<(string, V)>

  function KeysOf<V>(d: Entries<V>): (r: seq<string>)
    ensures |r| == |d|
    ensures forall i :: 0 <= i < |d| ==> r[i] == d[i].0
  {
    if d == [] then [] else [d[0].0] + KeysOf(d[1..])
  }

  /** No key occurs twice, as in every Python dict. */
  predicate Distinct<V>(d: Entries<V>) {
    forall i, j :: 0 <= i < j < |d| ==> d[i].0 != d[j].0
  }

  /** `d.get(k)`: the value of the first entry with key `k`. */
  function Get<V>(d: Entries<V>, k: string): (r: Option<V>)
    ensures r.None? <==> k !in KeysOf(d)
  {
    if d == [] then None
    else if d[0].0 == k then Some(d[0].1)
    else Get(d[1..], k)
  }

  /** `d[k] = v`: overwrite in place when `k` is present, append otherwise. */
  function Set<V>(d: Entries<V>, k: string, v: V): (r: Entries<V>)
    ensures Get(r, k) == Some(v)
    ensures forall k' :: k' != k ==> Get(r, k') == Get(d, k')
    ensures k in KeysOf(d) ==> KeysOf(r) == KeysOf(d)
    ensures k !in KeysOf(d) ==> KeysOf(r) == KeysOf(d) + [k]
  {
    if d == [] then [(k, v)]
    else if d[0].0 == k then
      var r := [(k, v)] + d[1..];
      assert r[1..] == d[1..];
      r
    else
      var r := [d[0]] + Set(d[1..], k, v);
      assert r[1..] == Set(d[1..], k, v);
      r
  }

  /** Assignment keeps the keys distinct. */
  lemma SetKeepsDistinct<V>(d: Entries<V>, k: string, v: V)
    requires Distinct(d)
    ensures Distinct(Set(d, k, v))
  {
    var r := Set(d, k, v);
    forall i, j | 0 <= i < j < |r| ensures r[i].0 != r[j].0 {
      var keys := KeysOf(r);
      assert keys[i] == r[i].0 && keys[j] == r[j].0;
      if k !in KeysOf(d) {
        if j == |d| {
          assert keys[i] == KeysOf(d)[i];
        } else {
          assert keys[j] == KeysOf(d)[j] && keys[i] == KeysOf(d)[i];
        }
      } else {
        assert keys[j] == KeysOf(d)[j] && keys[i] == KeysOf(d)[i];
      }
    }
  }
}

=== FILE: lab.dfy ===
/** The lab's command-line front end: every typed line first has its
    `.word` references replaced by configuration values, then is split into
    a command and its arguments at the first whitespace character, and the
    command is dispatched. The older layout (lab.py) has no guard against an
    empty command; the newer one (python/lab.py) ignores it. */
module Lab {
  import opened Wrappers
  import opened Text
  import Dict
  import opened Config
  import Output
  import Core

  // ---------------------------------------------------------------------
  // dot references
  // ---------------------------------------------------------------------

  predicate WordCharsIn(s: string, a: nat, b: nat) {
    a <= b <= |s| && forall t :: a <= t < b ==> IsWordChar(s[t])
  }

  /** The end of the run of word characters that starts at `i`: what `\w+`
      consumes greedily. */
  function WordRun(s: string, i: nat): (e: nat)
    requires i <= |s|
    ensures i <= e <= |s| && WordCharsIn(s, i, e)
    ensures e < |s| ==> !IsWordChar(s[e])
    decreases |s| - i
  {
    if i == |s| || !IsWordChar(s[i]) then i else WordRun(s, i + 1)
  }

  lemma {:induction false} WordRunExact(s: string, i: nat, e: nat)
    requires WordCharsIn(s, i, e) && (e < |s| ==> !IsWordChar(s[e]))
    ensures WordRun(s, i) == e
    decreases e - i
  {
    if i < e {
      WordRunExact(s, i + 1, e);
    }
  }

  /** The text a reference to `w` stands for before masking: the configured
      value, a bool as `True` or `False`, or the reference itself, dot
      included, when the key is missing. */
  function ReferenceText(c: Config, w: string): string {
    match Dict.Get(c, w)
    case None => "." + w
    case Some(v) => Output.Show(v)
  }

  /** `parse_dot_references`: the replacement for `.w`. The password is
      replaced by one star per character of its text, so a missing password
      gives the nine stars of `.password`. */
  function DotValue(c: Config, w: string): (r: string)
    ensures w != "password" && Dict.Get(c, w).None? ==> r == "." + w
    ensures w != "password" && Dict.Get(c, w).Some? && Dict.Get(c, w).value.Str? ==>
      r == Dict.Get(c, w).value.text
    ensures w != "password" && Dict.Get(c, w).Some? && Dict.Get(c, w).value.Flag? ==>
      r == (if Dict.Get(c, w).value.flag then "True" else "False")
    ensures w == "password" ==> forall t :: 0 <= t < |r| ==> r[t] == '*'
    ensures w == "password" && Dict.Get(c, w).None? ==> |r| == 9
    ensures w == "password" && Dict.Get(c, w).Some? && Dict.Get(c, w).value.Str? ==>
      |r| == |Dict.Get(c, w).value.text|
  {
    var text := ReferenceText(c, w);
    if w == "password" then Stars(|text|) else text
  }

  /** `re.sub(r'\.\w+', parse_dot_references, line)`: scanning left to
      right, a dot followed by word characters is replaced together with
      the longest such run; every other character is kept. */
  function Subst(c: Config, s: string): string
    decreases |s|
  {
    if s == [] then []
    else if s[0] == '.' && |s| > 1 && IsWordChar(s[1]) then
      var e := WordRun(s, 1);
      DotValue(c, s[1..e]) + Subst(c, s[e..])
    else
      [s[0]] + Subst(c, s[1..])
  }

  /** A line without a dot is left as it is. */
  lemma {:induction false} SubstWithoutDot(c: Config, s: string)
    requires forall t :: 0 <= t < |s| ==> s[t] != '.'
    ensures Subst(c, s) == s
    decreases |s|
  {
    if s != [] {
      assert forall t :: 0 <= t < |s| - 1 ==> s[1..][t] == s[t + 1];
      SubstWithoutDot(c, s[1..]);
    }
  }

  /** A lone reference is replaced by its value. */
  lemma SubstReference(c: Config, w: string, y: string)
    requires w != [] && WordCharsIn(w, 0, |w|)
    requires y == [] || !IsWordChar(y[0])
    ensures Subst(c, "." + w + y) == DotValue(c, w) + Subst(c, y)
  {
    var s := "." + w + y;
    assert WordCharsIn(s, 1, 1 + |w|) by {
      forall t | 1 <= t < 1 + |w| ensures IsWordChar(s[t]) { assert s[t] == w[t - 1]; }
    }
    if y != [] {
      assert s[1 + |w|] == y[0];
    }
    WordRunExact(s, 1, 1 + |w|);
    assert s[1..1 + |w|] == w;
    assert s[1 + |w|..] == y;
  }

  /** One step of the scan at a reference. */
  lemma SubstAtReference(c: Config, s: string, e: nat)
    requires |s| > 1 && s[0] == '.' && IsWordChar(s[1]) && e == WordRun(s, 1)
    ensures Subst(c, s) == DotValue(c, s[1..e]) + Subst(c, s[e..])
  {
  }

  /** One step of the scan at any other character. */
  lemma SubstAtOther(c: Config, s: string)
    requires s != [] && !(s[0] == '.' && |s| > 1 && IsWordChar(s[1]))
    ensures Subst(c, s) == [s[0]] + Subst(c, s[1..])
  {
  }

  /** A reference at the start of `x` is the same reference in `x + y`
      when `y` does not continue its word. */
  lemma ReferenceInPrefix(x: string, y: string, e: nat)
    requires |x| > 1 && x[0] == '.' && IsWordChar(x[1]) && e == WordRun(x, 1)
    requires y == [] || !IsWordChar(y[0])
    ensures var s := x + y;
      && |s| > 1 && s[0] == '.' && IsWordChar(s[1]) && WordRun(s, 1) == e
      && s[1..e] == x[1..e] && s[e..] == x[e..] + y
  {
    var s := x + y;
    assert s[0] == '.' && s[1] == x[1];
    assert WordCharsIn(s, 1, e) by {
      forall t | 1 <= t < e ensures IsWordChar(s[t]) { assert s[t] == x[t]; }
    }
    if e < |x| {
      assert s[e] == x[e];
    } else if y != [] {
      assert s[e] == y[0];
    }
    WordRunExact(s, 1, e);
    assert s[1..e] == x[1..e];
    assert s[e..] == x[e..] + y;
  }

  /** Substitution works piece by piece, provided the second piece does not
      continue a word the first one ends with. */
  lemma {:induction false} SubstAppend(c: Config, x: string, y: string)
    requires y == [] || !IsWordChar(y[0])
    ensures Subst(c, x + y) == Subst(c, x) + Subst(c, y)
    decreases |x|, 1
  {
    if x == [] {
      assert x + y == y;
    } else if x[0] == '.' && |x| > 1 && IsWordChar(x[1]) {
      SubstAppendReference(c, x, y);
    } else {
      SubstAppendOther(c, x, y);
    }
  }

  lemma {:induction false} SubstAppendReference(c: Config, x: string, y: string)
    requires |x| > 1 && x[0] == '.' && IsWordChar(x[1])
    requires y == [] || !IsWordChar(y[0])
    ensures Subst(c, x + y) == Subst(c, x) + Subst(c, y)
    decreases |x|, 0
  {
    var e := WordRun(x, 1);
    ReferenceInPrefix(x, y, e);
    SubstAtReference(c, x + y, e);
    SubstAtReference(c, x, e);
    SubstAppend(c, x[e..], y);
    ConcatAssoc(DotValue(c, x[1..e]), Subst(c, x[e..]), Subst(c, y));
  }

  lemma {:induction false} SubstAppendOther(c: Config, x: string, y: string)
    requires x != [] && !(x[0] == '.' && |x| > 1 && IsWordChar(x[1]))
    requires y == [] || !IsWordChar(y[0])
    ensures Subst(c, x + y) == Subst(c, x) + Subst(c, y)
    decreases |x|, 0
  {
    OtherInPrefix(x, y);
    SubstAtOther(c, x + y);
    SubstAtOther(c, x);
    SubstAppend(c, x[1..], y);
    ConcatAssoc([x[0]], Subst(c, x[1..]), Subst(c, y));
  }

  /** A character that is not the start of a reference in `x` is not one in
      `x + y` either. */
  lemma OtherInPrefix(x: string, y: string)
    requires x != [] && !(x[0] == '.' && |x| > 1 && IsWordChar(x[1]))
    requires y == [] || !IsWordChar(y[0])
    ensures var s := x + y;
      s != [] && s[0] == x[0] && !(s[0] == '.' && |s| > 1 && IsWordChar(s[1])) && s[1..] == x[1..] + y
  {
    var s := x + y;
    if |x| > 1 {
      assert s[1] == x[1];
    } else if y != [] {
      assert s[1] == y[0];
    }
    assert s[1..] == x[1..] + y;
  }

  /** A reference in the middle of a line is replaced and the text around it
      is substituted on its own. */
  lemma SubstAround(c: Config, x: string, w: string, y: string)
    requires w != [] && WordCharsIn(w, 0, |w|)
    requires y == [] || !IsWordChar(y[0])
    ensures Subst(c, x + ("." + w) + y) == Subst(c, x) + DotValue(c, w) + Subst(c, y)
  {
    var ref := "." + w + y;
    assert x + ("." + w) + y == x + ref;
    SubstAppend(c, x, ref);
    SubstReference(c, w, y);
  }

  /** The password is never substituted in clear: `.password` becomes as
      many stars as the password has characters. */
  lemma PasswordMasked(c: Config, x: string, y: string, p: string)
    requires Dict.Get(c, "password") == Some(Str(p))
    requires y == [] || !IsWordChar(y[0])
    ensures Subst(c, x + ".password" + y) == Subst(c, x) + Stars(|p|) + Subst(c, y)
  {
    PasswordIsWord();
    SubstAround(c, x, "password", y);
    PasswordValue(c, p);
  }

  lemma PasswordIsWord()
    ensures "password" != [] && WordCharsIn("password", 0, |"password"|)
    ensures "." + "password" == ".password"
  {
  }

  lemma PasswordValue(c: Config, p: string)
    requires Dict.Get(c, "password") == Some(Str(p))
    ensures DotValue(c, "password") == Stars(|p|)
  {
  }

  // ---------------------------------------------------------------------
  // command and arguments
  // ---------------------------------------------------------------------

  /** `re.search(r'^(\S*)\s(.*)$', line)`: the command is the leading run of
      non-whitespace and the arguments everything after the one whitespace
      character that ends it. Without such a character the whole line is the
      command and there are no arguments. */
  function SplitCommand(line: string): (r: (string, Option<string>))
    ensures NoSpace(r.0)
    ensures r.1.None? ==> r.0 == line
    ensures r.1.Some? ==>
      && |r.0| < |line| && IsSpace(line[|r.0|])
      && line == r.0 + [line[|r.0|]] + r.1.value
  {
    var w := SkipWord(line, 0);
    if w < |line| then
      assert line == line[..w] + [line[w]] + line[w + 1..];
      (line[..w], Some(line[w + 1..]))
    else
      assert line[..w] == line;
      (line, None)
  }

  /** The split is determined by its three parts. */
  lemma SplitCommandUnique(command: string, sep: char, args: string)
    requires NoSpace(command) && IsSpace(sep)
    ensures SplitCommand(command + [sep] + args) == (command, Some(args))
  {
    var s := command + [sep] + args;
    assert NoSpaceIn(s, 0, |command|) by {
      forall t | 0 <= t < |command| ensures !IsSpace(s[t]) { assert s[t] == command[t]; }
    }
    assert s[|command|] == sep;
    SkipWordExact(s, 0, |command|);
    assert s[..|command|] == command;
    assert s[|command| + 1..] == args;
  }

  /** A line without whitespace is a command without arguments. */
  lemma SplitCommandBare(line: string)
    requires NoSpace(line)
    ensures SplitCommand(line) == (line, None)
  {
    SkipWordExact(line, 0, |line|);
  }

  /** Which of the two source layouts is meant. */
  datatype Layout = Older | Newer

  /** The commands the front end tells apart. */
  datatype Command =
    | Nothing
    | Login
    | Exit
    | Print(text: Option<string>)
    | Logout
    | DebugCommand(args: Option<string>)
    | DevCommand(args: Option<string>)
    | Unrecognised(name: string)

  const Commands: set<string> := {"login", "exit", "print", "logout", "debug", "dev"}

  /** The command a split line selects. */
  function Select(v: Layout, command: string, args: Option<string>): (r: Command)
    ensures r.Nothing? <==> v.Newer? && Strip(command) == []
    ensures r.Unrecognised? <==> command !in Commands && !(v.Newer? && Strip(command) == [])
    ensures r.Unrecognised? ==> r.name == command
    ensures r.Login? <==> command == "login"
    ensures r.Exit? <==> command == "exit"
    ensures r.Print? <==> command == "print"
    ensures r.Logout? <==> command == "logout"
    ensures r.DebugCommand? <==> command == "debug"
    ensures r.DevCommand? <==> command == "dev"
    ensures r.Print? ==> r.text == args
    ensures r.DebugCommand? ==> r.args == args
    ensures r.DevCommand? ==> r.args == args
  {
    if v.Newer? && Strip(command) == [] then Nothing
    else if command == "login" then Login
    else if command == "exit" then Exit
    else if command == "print" then Print(args)
    else if command == "logout" then Logout
    else if command == "debug" then DebugCommand(args)
    else if command == "dev" then DevCommand(args)
    else Unrecognised(command)
  }

  /** `parse(line)`. */
  function Parse(v: Layout, line: string): (r: Command)
    requires IsLine(line)
    ensures r.Nothing? <==> v.Newer? && SplitCommand(line).0 == []
    ensures r.Unrecognised? ==> NoSpace(r.name) && StartsWith(line, r.name)
  {
    var (command, args) := SplitCommand(line);
    assert Strip(command) == [] <==> command == [] by {
      if command != [] { assert !IsSpace(command[0]); }
    }
    assert StartsWith(line, command) by {
      if args.Some? {
        assert line[..|command|] == command;
      } else {
        assert line[..|command|] == line;
      }
    }
    Select(v, command, args)
  }

  /** A command word followed by one whitespace character and its
      arguments. */
  lemma ParseByName(v: Layout, command: string, sep: char, args: string)
    requires command != [] && NoSpace(command) && IsSpace(sep)
    requires IsLine(command + [sep] + args)
    ensures Parse(v, command + [sep] + args) == Select(v, command, Some(args))
  {
    SplitCommandUnique(command, sep, args);
  }

  /** What the front end prints itself for a command it handles without the
      backend. */
  function Reply(cmd: Command): seq<string> {
    match cmd
    case Print(text) => [text.GetOr("")]
    case Unrecognised(name) => [name + "?", "   login", "   exit", "   print [text]"]
    case _ => []
  }

  /** `print` echoes everything after the single separating character,
      further whitespace included, and a bare `print` prints an empty
      line. */
  lemma PrintEchoes(v: Layout, sep: char, text: string)
    requires IsSpace(sep) && IsLine("print" + [sep] + text)
    ensures Reply(Parse(v, "print" + [sep] + text)) == [text]
    ensures Reply(Parse(v, "print")) == [""]
  {
    ParseByName(v, "print", sep, text);
    SplitCommandBare("print");
  }

  /** A line that starts with whitespace has the empty command: the newer
      layout ignores it, the older one reports it as unknown. */
  lemma EmptyCommand(line: string)
    requires IsLine(line) && (line == [] || IsSpace(line[0]))
    ensures Parse(Newer, line) == Nothing
    ensures Parse(Older, line) == Unrecognised([])
    ensures Reply(Parse(Older, line)) == ["?", "   login", "   exit", "   print [text]"]
  {
    if line != [] {
      SplitCommandUnique([], line[0], line[1..]);
      assert [] + [line[0]] + line[1..] == line;
    }
    assert [] + "?" == "?";
  }

  /** Which credentials `login` uses: the configured e-mail and password
      when both are configured; an empty one is asked for instead. */
  function Credentials(c: Config, typedEmail: string, typedPassword: string): (r: (ConfigValue, ConfigValue))
    ensures r.0 != Str(typedEmail) ==>
      Dict.Get(c, "email") == Some(r.0) && Dict.Get(c, "password").Some? && r.0 != Str("")
    ensures r.1 != Str(typedPassword) ==>
      Dict.Get(c, "password") == Some(r.1) && Dict.Get(c, "email").Some? && r.1 != Str("")
    ensures var e, p := Dict.Get(c, "email"), Dict.Get(c, "password");
      e.Some? && p.Some? && e.value != Str("") ==> r.0 == e.value
    ensures var e, p := Dict.Get(c, "email"), Dict.Get(c, "password");
      e.Some? && p.Some? && p.value != Str("") ==> r.1 == p.value
  {
    var both := Dict.Get(c, "email").Some? && Dict.Get(c, "password").Some?;
    var email := if both then Dict.Get(c, "email").value else Str("");
    var password := if both then Dict.Get(c, "password").value else Str("");
    (if email == Str("") then Str(typedEmail) else email,
     if password == Str("") then Str(typedPassword) else password)
  }

  /** With both keys configured and non-empty nothing is asked for; with
      both configured and one of them empty, only that one is asked for;
      with either one missing, both are asked for. */
  lemma CredentialsFromConfig(c: Config, typedEmail: string, typedPassword: string)
    ensures var e, p := Dict.Get(c, "email"), Dict.Get(c, "password");
      e.Some? && p.Some? && e.value != Str("") && p.value != Str("") ==>
        Credentials(c, typedEmail, typedPassword) == (e.value, p.value)
    ensures var e, p := Dict.Get(c, "email"), Dict.Get(c, "password");
      e.Some? && p.Some? && e.value != Str("") && p.value == Str("") ==>
        Credentials(c, typedEmail, typedPassword) == (e.value, Str(typedPassword))
    ensures var e, p := Dict.Get(c, "email"), Dict.Get(c, "password");
      e.Some? && p.Some? && e.value == Str("") && p.value != Str("") ==>
        Credentials(c, typedEmail, typedPassword) == (Str(typedEmail), p.value)
    ensures Dict.Get(c, "email").None? || Dict.Get(c, "password").None? ==>
      Credentials(c, typedEmail, typedPassword) == (Str(typedEmail), Str(typedPassword))
  {
  }

  /** The effect of a parsed command on the session. Sign-in goes through
      the empty-credential guard with the credentials printed as Python
      prints them; what the authentication service answers is a parameter.
      `debug` and `dev` leave the session as it is. */
  function Respond(st: Core.State, cmd: Command, typedEmail: string, typedPassword: string,
                   outcome: Core.SignInOutcome): (r: Core.Step)
    ensures cmd.Nothing? || cmd.Print? || cmd.Unrecognised? || cmd.DebugCommand? || cmd.DevCommand? ==>
      r.state == st
    ensures cmd.Print? || cmd.Unrecognised? ==> r.lines == Reply(cmd)
    ensures cmd.Exit? ==> !r.state.running && !r.state.active && r.state.config == st.config
    ensures cmd.Logout? ==> !r.state.active && Core.SameSettings(r.state, st)
    ensures cmd.Login? ==> Core.SameSettings(r.state, st) && (r.state.active ==> st.active || outcome.Accepted?)
  {
    match cmd
    case Login =>
      var (e, p) := Credentials(st.config, typedEmail, typedPassword);
      Core.SignIn(st, Output.Show(e), Output.Show(p), outcome)
    case Exit => Core.ExitCompletely(st, false)
    case Logout => Core.SignOut(st)
    case _ => Core.Step(Reply(cmd), st)
  }

  /** An unknown command prints its name with a question mark and the three
      help lines, and changes nothing. */
  lemma UnknownChangesNothing(v: Layout, st: Core.State, line: string, typedEmail: string,
                              typedPassword: string, outcome: Core.SignInOutcome)
    requires IsLine(line) && Parse(v, line).Unrecognised?
    ensures var name := Parse(v, line).name;
      Respond(st, Parse(v, line), typedEmail, typedPassword, outcome) ==
      Core.Step([name + "?", "   login", "   exit", "   print [text]"], st)
  {
  }

  /** An empty configured credential is asked for, so a configured empty
      password cannot reach the service: with an empty typed password the
      guard refuses the sign-in and nothing changes. */
  lemma EmptyPasswordRefused(st: Core.State, typedEmail: string, outcome: Core.SignInOutcome)
    requires Dict.Get(st.config, "password") == Some(Str(""))
    ensures Respond(st, Login, typedEmail, "", outcome) ==
      Core.Step(["Invalid email or password."], st)
  {
    var (e, p) := Credentials(st.config, typedEmail, "");
    assert p == Str("");
  }

  /** The prompt shown: the session prompt exactly when signed in. */
  function PromptFor(active: bool): (r: string)
    ensures r == Core.SessionPrompt <==> active
    ensures r == Core.AuthPrompt <==> !active
  {
    if active then Core.SessionPrompt else Core.AuthPrompt
  }
}

=== FILE: output.dfy ===
/** The console output helpers: printing a configuration mapping with the
    password masked, printing lists and scalars, the verbosity override and
    the one-line error report. */
module Output {
  import opened Wrappers
  import opened Text
  import Dict
  import opened Config

  /** `str()` of a configuration value, as an f-string prints it. */
  function Show(v: ConfigValue): string {
    match v
    case Str(t) => t
    case Flag(b) => ShowBool(b)
  }

  /** Python truthiness of a configuration value. */
  predicate Truthy(v: ConfigValue) {
    match v
    case Str(t) => t != []
    case Flag(b) => b
  }

  /** The three shapes `print_item` distinguishes. */
  datatype Item =
    | Mapping(entries: Config)
    | Listing(items: seq<ConfigValue>)
    | Scalar(value: ConfigValue)

  /** The lines printed, and the exception that stopped printing, if any. */
  datatype Printed = Printed(lines: seq<string>, fault: Option<Fault>)

  /** The line for one mapping entry. The value under `password` is printed
      as one star per character; `len()` of a bool raises TypeError. */
  function EntryLine(indent: string, key: string, v: ConfigValue): (r: Result<string>)
    ensures r.Err? <==> key == "password" && v.Flag?
    ensures r.Err? ==> r.fault == TypeError
    ensures r.Ok? ==> StartsWith(r.value, indent + key + ": ")
    ensures key == "password" && v.Str? ==> r == Ok(indent + key + ": " + Stars(|v.text|))
    ensures key != "password" ==> r == Ok(indent + key + ": " + Show(v))
  {
    if key != "password" then Ok(indent + key + ": " + Show(v))
    else match v
      case Str(t) => Ok(indent + key + ": " + Stars(|t|))
      case Flag(_) => Err(TypeError)
  }

  /** The password line shows the password's length and nothing else: two
      passwords of the same length print the same line. */
  lemma PasswordShowsOnlyLength(indent: string, p: string, q: string)
    requires |p| == |q|
    ensures EntryLine(indent, "password", Str(p)) == EntryLine(indent, "password", Str(q))
    ensures EntryLine(indent, "password", Str(p)).Ok?
    ensures |EntryLine(indent, "password", Str(p)).value| == |indent| + |"password: "| + |p|
  {
  }

  /** Every other key prints its value verbatim after `key: `. */
  lemma OtherKeysShown(indent: string, key: string, v: ConfigValue)
    requires key != "password"
    ensures EntryLine(indent, key, v).Ok?
    ensures EntryLine(indent, key, v).value[|indent + key + ": "|..] == Show(v)
  {
  }

  /** Printing a mapping, one entry per line in insertion order, stopping at
      the first entry whose line raises. */
  function PrintEntries(indent: string, d: Config): (r: Printed)
    ensures |r.lines| <= |d|
    ensures forall i :: 0 <= i < |r.lines| ==> EntryLine(indent, d[i].0, d[i].1) == Ok(r.lines[i])
    ensures r.fault.None? ==> |r.lines| == |d|
    ensures r.fault.Some? ==>
      |r.lines| < |d| && EntryLine(indent, d[|r.lines|].0, d[|r.lines|].1) == Err(r.fault.value)
  {
    if d == [] then Printed([], None)
    else match EntryLine(indent, d[0].0, d[0].1)
      case Err(f) => Printed([], Some(f))
      case Ok(line) =>
        var rest := PrintEntries(indent, d[1..]);
        Printed([line] + rest.lines, rest.fault)
  }

  /** Printing completes exactly when no entry is a password held as a bool. */
  lemma PrintEntriesCompletes(indent: string, d: Config)
    ensures PrintEntries(indent, d).fault.None? <==>
      forall i :: 0 <= i < |d| ==> !(d[i].0 == "password" && d[i].1.Flag?)
  {
    var r := PrintEntries(indent, d);
    if r.fault.Some? {
      var i := |r.lines|;
      assert d[i].0 == "password" && d[i].1.Flag?;
    }
  }

  /** `print_item(print_data, indent)`. */
  function PrintItem(item: Item, indent: string): (r: Printed)
    ensures item.Mapping? ==> r == PrintEntries(indent, item.entries)
    ensures !item.Mapping? ==> r.fault.None?
    ensures item.Listing? ==> |r.lines| == |item.items|
    ensures item.Listing? ==> forall i :: 0 <= i < |r.lines| ==>
      StartsWith(r.lines[i], indent + ShowNat(i) + ": ") &&
      r.lines[i][|indent + ShowNat(i) + ": "|..] == Show(item.items[i])
    ensures item.Scalar? ==> r.lines == [indent + Show(item.value)]
  {
    match item
    case Mapping(d) => PrintEntries(indent, d)
    case Listing(xs) =>
      Printed(seq(|xs|, i requires 0 <= i < |xs| => indent + ShowNat(i) + ": " + Show(xs[i])), None)
    case Scalar(v) => Printed([indent + Show(v)], None)
  }

  /** The numbers at the head of the list lines count up from zero. */
  lemma ListingNumbered(indent: string, xs: seq<ConfigValue>, i: nat)
    requires i < |xs|
    ensures var line := PrintItem(Listing(xs), indent).lines[i];
      var n := |ShowNat(i)|;
      line[|indent|..|indent| + n] == ShowNat(i) && DigitsValue(line[|indent|..|indent| + n]) == i
  {
    var line := PrintItem(Listing(xs), indent).lines[i];
    assert line[..|indent + ShowNat(i) + ": "|] == indent + ShowNat(i) + ": ";
    assert line[|indent|..|indent| + |ShowNat(i)|] == (indent + ShowNat(i) + ": ")[|indent|..|indent| + |ShowNat(i)|];
  }

  /** `verbose()`: the configured `verbose` value overrides `Main.verbose`. */
  function Verbose(config: Config, mainVerbose: bool): (r: ConfigValue)
    ensures Dict.Get(config, "verbose").Some? ==> r == Dict.Get(config, "verbose").value
    ensures Dict.Get(config, "verbose").None? ==> r == Flag(mainVerbose)
  {
    Dict.Get(config, "verbose").GetOr(Flag(mainVerbose))
  }

  /** What `handle_error` prints: one line naming the exception, and a
      traceback when verbose or forced. */
  datatype ErrorReport = ErrorReport(line: string, traceback: bool)

  function HandleError(message: string, name: string, text: string, config: Config,
                       mainVerbose: bool, force: bool): (r: ErrorReport)
    ensures StartsWith(r.line, message + ": " + name + ": ")
    ensures r.line[|message + ": " + name + ": "|..] == text
    ensures r.traceback <==> force || Truthy(Verbose(config, mainVerbose))
  {
    ErrorReport(message + ": " + name + ": " + text, force || Truthy(Verbose(config, mainVerbose)))
  }

  /** A configured `verbose` wins over `Main.verbose` in both directions. */
  lemma ConfiguredVerboseWins(message: string, name: string, text: string, config: Config,
                              mainVerbose: bool)
    requires Dict.Get(config, "verbose") == Some(Flag(!mainVerbose))
    ensures HandleError(message, name, text, config, mainVerbose, false).traceback == !mainVerbose
  {
  }

  /** `verbose = no` in a configuration file turns verbose output on: `no` is
      not one of the false spellings, so it is stored as the non-empty text
      `no`, which is truthy. */
  lemma VerboseNoIsOn(ld: Loader, c: Config, mainVerbose: bool)
    ensures var c' := ApplyEffect(c, ParseLine(ld, "verbose = no"));
      Verbose(c', mainVerbose) == Str("no") && Truthy(Verbose(c', mainVerbose))
  {
    NoIsText(ld);
    assert "" + "verbose" + " " + "=" + " " + "no" + "" == "verbose = no";
    AssignmentLineStored(ld, "", "verbose", " ", " ", "no", "");
  }

  /** The value `no` is stored as text by either loader. */
  lemma NoIsText(ld: Loader)
    ensures Coerce(EscapeValue(ld, "no")) == Str("no")
  {
    EscapeBracesSpec("no");
    assert EscapeValue(ld, "no") == "no";
    assert Lower("no") == "no";
  }
}

=== FILE: pipeline.dfy ===
/** How the pieces fit together for the one use the space delimiter exists
    for: a brace payload written in a configuration file, referenced on the
    command line as `.key` and sent to an edge function. */
module Pipeline {
  import opened Wrappers
  import opened Text
  import Dict
  import opened Config
  import Lab
  import Dev
  import Args

  lemma NoDotConcat(a: string, b: string)
    requires forall t :: 0 <= t < |a| ==> a[t] != '.'
    requires forall t :: 0 <= t < |b| ==> b[t] != '.'
    ensures forall t :: 0 <= t < |a + b| ==> (a + b)[t] != '.'
  {
    assert forall t :: |a| <= t < |a + b| ==> (a + b)[t] == b[t - |a|];
  }

  /** The typed line before substitution has no dot up to the reference. */
  lemma CommandHasNoDot(endpoint: string)
    requires forall t :: 0 <= t < |endpoint| ==> endpoint[t] != '.'
    ensures forall t :: 0 <= t < |"dev edge " + endpoint + " "| ==> ("dev edge " + endpoint + " ")[t] != '.'
  {
    NoDotConcat("dev edge ", endpoint);
    NoDotConcat("dev edge " + endpoint, " ");
  }

  /** A line prefix followed by two words is one line. */
  lemma WordsAfterLine(p: string, endpoint: string, escaped: string)
    requires IsLine(p) && NoSpace(endpoint) && NoSpace(escaped)
    ensures IsLine(p + endpoint + " " + escaped)
  {
    WordIsLine(endpoint);
    WordIsLine(escaped);
    LineConcat(p, endpoint);
    LineConcat(p + endpoint, " ");
    LineConcat(p + endpoint + " ", escaped);
  }

  /** The typed line `dev edge <endpoint> .<key>` becomes the substituted
      line with the stored, escaped payload in place of the reference. */
  lemma ReferenceSubstituted(c: Config, endpoint: string, key: string, escaped: string)
    requires key != [] && key != "password" && Lab.WordCharsIn(key, 0, |key|)
    requires Dict.Get(c, key) == Some(Str(escaped))
    requires forall t :: 0 <= t < |endpoint| ==> endpoint[t] != '.'
    ensures Lab.Subst(c, "dev edge " + endpoint + " " + ("." + key)) ==
      "dev edge " + endpoint + " " + escaped
  {
    var x := "dev edge " + endpoint + " ";
    CommandHasNoDot(endpoint);
    Lab.SubstWithoutDot(c, x);
    Lab.SubstAround(c, x, key, []);
    assert x + ("." + key) + [] == x + ("." + key);
    assert Lab.Subst(c, []) == [];
  }

  lemma DevLineLayout(endpoint: string, escaped: string)
    ensures "dev edge " + endpoint + " " + escaped == "dev" + [' '] + ("edge " + endpoint + " " + escaped)
  {
  }

  lemma EdgeArgsLayout(endpoint: string, escaped: string)
    ensures "edge " + endpoint + " " + escaped == "edge" + (" " + endpoint + " " + escaped)
  {
  }

  /** The substituted line is a `dev` command. */
  lemma LineIsDevCommand(lv: Lab.Layout, endpoint: string, escaped: string)
    requires NoSpace(endpoint) && NoSpace(escaped)
    ensures IsLine("dev edge " + endpoint + " " + escaped)
    ensures Lab.Parse(lv, "dev edge " + endpoint + " " + escaped) ==
      Lab.DevCommand(Some("edge " + endpoint + " " + escaped))
  {
    WordsAfterLine("dev edge ", endpoint, escaped);
    DevLineLayout(endpoint, escaped);
    Lab.ParseByName(lv, "dev", ' ', "edge " + endpoint + " " + escaped);
  }

  /** Its arguments run the edge experiment on the text after `edge`. */
  lemma ArgsRunEdge(dv: Dev.Layout, endpoint: string, escaped: string)
    requires NoSpace(endpoint) && NoSpace(escaped)
    ensures IsLine("edge " + endpoint + " " + escaped)
    ensures Dev.Dispatch(dv, Some("edge " + endpoint + " " + escaped)) ==
      Dev.Edge(" " + endpoint + " " + escaped)
  {
    WordsAfterLine("edge ", endpoint, escaped);
    EdgeArgsLayout(endpoint, escaped);
    Dev.DispatchByName(dv, "edge", " " + endpoint + " " + escaped);
  }

  /** A configured brace payload, referenced as `.key` after `dev edge
      <endpoint>`, is sent to `<url>/functions/v1/<endpoint>` exactly as it
      was written in the file, spaces included. In the newer experiment
      layout this needs text without quotes. */
  lemma PayloadReachesEdgeFunction(lv: Lab.Layout, dv: Dev.Layout, c: Config, u: string,
                                   endpoint: string, key: string, inner: string,
                                   evaluates: string -> bool)
    requires Dict.Get(c, "url") == Some(Str(u))
    requires key != [] && key != "password" && Lab.WordCharsIn(key, 0, |key|)
    requires Dict.Get(c, key) == Some(Str(EscapeBraces("{" + inner + "}")))
    requires endpoint != [] && NoSpace(endpoint)
    requires forall t :: 0 <= t < |endpoint| ==> endpoint[t] != '.'
    requires forall t :: 0 <= t < |inner| ==> inner[t] != '}'
    requires forall t :: 0 <= t < |inner| ==> inner[t] == ' ' || !IsSpace(inner[t])
    requires SpaceDelim !in inner
    requires dv.Extended? ==> Args.NoQuotes(" " + endpoint + " " + EscapeBraces("{" + inner + "}"))
    ensures var line := Lab.Subst(c, "dev edge " + endpoint + " " + ("." + key));
      && IsLine(line)
      && Lab.Parse(lv, line).DevCommand?
      && Lab.Parse(lv, line).args.Some?
      && IsLine(Lab.Parse(lv, line).args.value)
      && Dev.Dispatch(dv, Lab.Parse(lv, line).args).Edge?
      && Dev.EdgeRequest(dv, c, Dev.Dispatch(dv, Lab.Parse(lv, line).args).args, evaluates) ==
         Ok(Dev.EdgeCall(u + "/functions/v1/" + endpoint,
                         if evaluates("{" + inner + "}") then Dev.Literal("{" + inner + "}") else Dev.EmptyDict))
  {
    var escaped := EscapeBraces("{" + inner + "}");
    EscapedPayloadIsOneWord(inner);
    ReferenceSubstituted(c, endpoint, key, escaped);
    LineIsDevCommand(lv, endpoint, escaped);
    ArgsRunEdge(dv, endpoint, escaped);
    Dev.EdgeKeepsPayload(dv, c, u, endpoint, inner, evaluates);
  }
}

=== FILE: text.dfy ===
/** Python string primitives that the lab's parsers rely on: whitespace,
    `strip()`, `split()`, `replace()`, ASCII lower-casing and decimal
    digits. Strings are sequences of characters. */
module Text {

  /** Python's whitespace: the characters for which `str.isspace()` holds.
      The same set is matched by `\s` in a `str` pattern and removed by
      `strip()` and `split()`. */
  predicate IsSpace(c: char) {
    ('\t' <= c <= '\r') || ('\U{1C}' <= c <= ' ')
    || c == '\U{85}' || c == '\U{A0}' || c == '\U{1680}'
    || ('\U{2000}' <= c <= '\U{200A}')
    || c == '\U{2028}' || c == '\U{2029}' || c == '\U{202F}' || c == '\U{205F}' || c == '\U{3000}'
  }

  /** `\w`, restricted to ASCII: letters, digits and the underscore. */
  predicate IsWordChar(c: char) {
    ('a' <= c <= 'z') || ('A' <= c <= 'Z') || ('0' <= c <= '9') || c == '_'
  }

  predicate IsDigit(c: char) {
    '0' <= c <= '9'
  }

  predicate NoSpace(s: string) {
    forall i :: 0 <= i < |s| ==> !IsSpace(s[i])
  }

  predicate AllSpace(s: string) {
    forall i :: 0 <= i < |s| ==> IsSpace(s[i])
  }

  predicate AllDigits(s: string) {
    forall i :: 0 <= i < |s| ==> IsDigit(s[i])
  }

  predicate StartsWith<T(==)>(s: seq<T>, prefix: seq<T>) {
    |prefix| <= |s| && s[..|prefix|] == prefix
  }

  /** Every character of `s[a..b]` is whitespace. */
  predicate SpacesIn(s: string, a: nat, b: nat) {
    a <= b <= |s| && forall t :: a <= t < b ==> IsSpace(s[t])
  }

  /** No character of `s[a..b]` is whitespace. */
  predicate NoSpaceIn(s: string, a: nat, b: nat) {
    a <= b <= |s| && forall t :: a <= t < b ==> !IsSpace(s[t])
  }

  /** The end of the whitespace run that starts at position `i`: what `\s*`
      consumes greedily from there. */
  function SkipSpaces(s: string, i: nat): (e: nat)
    requires i <= |s|
    ensures i <= e <= |s|
    ensures SpacesIn(s, i, e)
    ensures e < |s| ==> !IsSpace(s[e])
    decreases |s| - i
  {
    if i == |s| || !IsSpace(s[i]) then i else SkipSpaces(s, i + 1)
  }

  /** The end of the non-whitespace run that starts at position `i`: what
      `\S*` consumes greedily from there. */
  function SkipWord(s: string, i: nat): (e: nat)
    requires i <= |s|
    ensures i <= e <= |s|
    ensures NoSpaceIn(s, i, e)
    ensures e < |s| ==> IsSpace(s[e])
    decreases |s| - i
  {
    if i == |s| || IsSpace(s[i]) then i else SkipWord(s, i + 1)
  }

  /** The start of the whitespace run that ends at position `b`, looking
      no further back than `a`. */
  function SkipSpacesBack(s: string, a: nat, b: nat): (e: nat)
    requires a <= b <= |s|
    ensures a <= e <= b
    ensures SpacesIn(s, e, b)
    ensures a < e ==> !IsSpace(s[e - 1])
    decreases b
  {
    if b == a || !IsSpace(s[b - 1]) then b else SkipSpacesBack(s, a, b - 1)
  }

  /** Each run end is the only position with its defining shape. */
  lemma {:induction false} SkipSpacesExact(s: string, i: nat, e: nat)
    requires SpacesIn(s, i, e) && (e < |s| ==> !IsSpace(s[e]))
    ensures SkipSpaces(s, i) == e
    decreases e - i
  {
    if i < e {
      SkipSpacesExact(s, i + 1, e);
    }
  }

  lemma {:induction false} SkipWordExact(s: string, i: nat, e: nat)
    requires NoSpaceIn(s, i, e) && (e < |s| ==> IsSpace(s[e]))
    ensures SkipWord(s, i) == e
    decreases e - i
  {
    if i < e {
      SkipWordExact(s, i + 1, e);
    }
  }

  lemma {:induction false} SkipSpacesBackExact(s: string, a: nat, b: nat, e: nat)
    requires a <= e && SpacesIn(s, e, b) && (a < e ==> !IsSpace(s[e - 1]))
    ensures SkipSpacesBack(s, a, b) == e
    decreases b - e
  {
    if e < b {
      SkipSpacesBackExact(s, a, b - 1, e);
    }
  }

  /** The runs of a text that follows a prefix are the runs of the text,
      shifted by the prefix's length. */
  lemma SkipWordAfter(p: string, b: string, k: nat)
    requires k <= |b|
    ensures SkipWord(p + b, |p| + k) == |p| + SkipWord(b, k)
  {
    var s := p + b;
    var e := SkipWord(b, k);
    assert forall t :: |p| + k <= t < |s| ==> s[t] == b[t - |p|];
    SkipWordExact(s, |p| + k, |p| + e);
  }

  lemma SkipSpacesAfter(p: string, b: string, k: nat)
    requires k <= |b|
    ensures SkipSpaces(p + b, |p| + k) == |p| + SkipSpaces(b, k)
  {
    var s := p + b;
    var e := SkipSpaces(b, k);
    assert forall t :: |p| + k <= t < |s| ==> s[t] == b[t - |p|];
    SkipSpacesExact(s, |p| + k, |p| + e);
  }

  /** A word `w`, a run of `n` whitespace characters and then `b`, found in
      `s` from position `k` on. */
  lemma RunsFrom(s: string, k: nat, r: string, w: string, n: nat, b: string)
    requires k <= |s| && s[k..] == r && |w| + n <= |r|
    requires SkipWord(r, 0) == |w| && SkipSpaces(r, |w|) == |w| + n && r[..|w|] == w && r[|w| + n..] == b
    ensures SkipWord(s, k) == k + |w| && SkipSpaces(s, k + |w|) == k + |w| + n
    ensures s[k..k + |w|] == w && s[k + |w| + n..] == b
  {
    assert forall t :: k <= t < |s| ==> s[t] == r[t - k];
    SkipWordExact(s, k, k + |w|);
    SkipSpacesExact(s, k + |w|, k + |w| + n);
    assert s[k..k + |w|] == r[..|w|];
    assert s[k + |w| + n..] == r[|w| + n..];
  }

  /** In `a + sp + b`, a word, a run of whitespace and a text that does not
      start with whitespace, the first word is `a` and the text after the
      run is `b`. */
  lemma WordThenGap(a: string, sp: string, b: string)
    requires NoSpace(a) && sp != [] && AllSpace(sp) && (b == [] || !IsSpace(b[0]))
    ensures var s := a + sp + b;
      && SkipWord(s, 0) == |a| && SkipSpaces(s, |a|) == |a| + |sp|
      && s[..|a|] == a && s[|a| + |sp|..] == b
  {
    WordGapRuns(a, sp, b);
    WordGapParts(a, sp, b);
  }

  lemma WordGapRuns(a: string, sp: string, b: string)
    requires NoSpace(a) && sp != [] && AllSpace(sp) && (b == [] || !IsSpace(b[0]))
    ensures var s := a + sp + b;
      SkipWord(s, 0) == |a| && SkipSpaces(s, |a|) == |a| + |sp|
  {
    WordRun(a, sp, b);
    GapRun(a, sp, b);
  }

  lemma WordRun(a: string, sp: string, b: string)
    requires NoSpace(a) && sp != [] && AllSpace(sp)
    ensures SkipWord(a + sp + b, 0) == |a|
  {
    var p := a + sp;
    var s := p + b;
    PrefixChars(p, b);
    assert forall t :: 0 <= t < |a| ==> p[t] == a[t];
    assert s[|a|] == sp[0];
    SkipWordExact(s, 0, |a|);
  }

  lemma GapRun(a: string, sp: string, b: string)
    requires AllSpace(sp) && (b == [] || !IsSpace(b[0]))
    ensures SkipSpaces(a + sp + b, |a|) == |a| + |sp|
  {
    var p := a + sp;
    var s := p + b;
    PrefixChars(p, b);
    assert forall t :: |a| <= t < |p| ==> p[t] == sp[t - |a|];
    assert |p| < |s| ==> s[|p|] == b[0];
    SkipSpacesExact(s, |a|, |a| + |sp|);
  }

  lemma PrefixChars(p: string, b: string)
    ensures forall t :: 0 <= t < |p| ==> (p + b)[t] == p[t]
  {
  }

  lemma WordGapParts(a: string, sp: string, b: string)
    ensures var s := a + sp + b;
      s[..|a|] == a && s[|a| + |sp|..] == b
  {
    var p := a + sp;
    var s := p + b;
    assert s[..|p|] == p;
    assert p[..|a|] == a;
    assert s[..|a|] == a;
    assert s[|p|..] == b;
  }

  /** `str.strip()`: drop leading and trailing whitespace. The result is the
      part of `s` that starts at the end of the leading whitespace. */
  function Strip(s: string): (r: string)
    ensures r == [] <==> AllSpace(s)
    ensures r != [] ==> !IsSpace(r[0]) && !IsSpace(r[|r| - 1])
    ensures SkipSpaces(s, 0) + |r| <= |s|
    ensures forall t :: 0 <= t < |r| ==> r[t] == s[SkipSpaces(s, 0) + t]
    ensures SpacesIn(s, SkipSpaces(s, 0) + |r|, |s|)
  {
    var a := SkipSpaces(s, 0);
    s[a..SkipSpacesBack(s, a, |s|)]
  }

  /** A string whose two ends are not whitespace is its own strip. */
  lemma StripUnpadded(t: string)
    requires t == [] || (!IsSpace(t[0]) && !IsSpace(t[|t| - 1]))
    ensures Strip(t) == t
  {
    if t != [] {
      SkipSpacesExact(t, 0, 0);
      SkipSpacesBackExact(t, 0, |t|, |t|);
      assert t[0..|t|] == t;
    }
  }

  /** Stripping removes exactly the whitespace padding around a string whose
      two ends are not whitespace. */
  lemma StripPadding(a: string, t: string, b: string)
    requires AllSpace(a) && AllSpace(b)
    requires t == [] || (!IsSpace(t[0]) && !IsSpace(t[|t| - 1]))
    ensures Strip(a + t + b) == t
  {
    var s := a + t + b;
    if t == [] {
      assert AllSpace(s) by {
        forall i | 0 <= i < |s| ensures IsSpace(s[i]) {
          if i < |a| { assert s[i] == a[i]; } else { assert s[i] == b[i - |a|]; }
        }
      }
    } else {
      assert SpacesIn(s, 0, |a|) by {
        forall i | 0 <= i < |a| ensures IsSpace(s[i]) { assert s[i] == a[i]; }
      }
      assert s[|a|] == t[0];
      SkipSpacesExact(s, 0, |a|);
      var e := |a| + |t|;
      assert SpacesIn(s, e, |s|) by {
        forall i | e <= i < |s| ensures IsSpace(s[i]) { assert s[i] == b[i - e]; }
      }
      assert s[e - 1] == t[|t| - 1];
      SkipSpacesBackExact(s, |a|, |s|, e);
      assert s[|a|..e] == t;
    }
  }

  /** Non-empty words without whitespace, as `split()` returns them. */
  predicate Words(ws: seq<string>) {
    forall n :: 0 <= n < |ws| ==> ws[n] != [] && NoSpace(ws[n])
  }

  lemma WordsTail(ws: seq<string>)
    requires ws != [] && Words(ws)
    ensures Words(ws[1..])
  {
    assert forall n :: 0 <= n < |ws| - 1 ==> ws[1..][n] == ws[n + 1];
  }

  /** The words of `s` from position `i` on. */
  function SplitFrom(s: string, i: nat): seq<string>
    requires i <= |s|
    decreases |s| - i
  {
    var a := SkipSpaces(s, i);
    if a == |s| then
      []
    else
      [s[a..SkipWord(s, a)]] + SplitFrom(s, SkipWord(s, a))
  }

  /** Every word is non-empty and free of whitespace, and there are none
      exactly when only whitespace is left. */
  lemma {:induction false} SplitFromWords(s: string, i: nat)
    requires i <= |s|
    ensures var r := SplitFrom(s, i);
      && Words(r)
      && (r == [] <==> SpacesIn(s, i, |s|))
    decreases |s| - i
  {
    var a := SkipSpaces(s, i);
    if a < |s| {
      var b := SkipWord(s, a);
      SplitFromWords(s, b);
      var r := SplitFrom(s, i);
      assert r == [s[a..b]] + SplitFrom(s, b);
      forall n | 0 <= n < |r| ensures r[n] != [] && NoSpace(r[n]) {
        if n > 0 {
          assert r[n] == SplitFrom(s, b)[n - 1];
        }
      }
    }
  }

  /** `str.split()` with no separator: the maximal runs of non-whitespace,
      in order. */
  function Split(s: string): (r: seq<string>)
    ensures Words(r)
    ensures r == [] <==> AllSpace(s)
  {
    SplitFromWords(s, 0);
    SplitFrom(s, 0)
  }

  /** Joins words with one space between consecutive ones. */
  function JoinSpaced(words: seq<string>): string {
    if words == [] then []
    else if |words| == 1 then words[0]
    else words[0] + " " + JoinSpaced(words[1..])
  }

  /** Splitting undoes joining, for words that are non-empty and hold no
      whitespace. */
  lemma SplitJoinSpaced(words: seq<string>)
    requires Words(words)
    ensures Split(JoinSpaced(words)) == words
  {
    SplitJoinedFrom([], words);
    assert [] + JoinSpaced(words) == JoinSpaced(words);
  }

  /** The words of a joined text that follows an arbitrary prefix. */
  lemma {:induction false} SplitJoinedFrom(p: string, words: seq<string>)
    requires Words(words)
    ensures SplitFrom(p + JoinSpaced(words), |p|) == words
    decreases |words|, 1
  {
    if words == [] {
      assert p + JoinSpaced(words) == p;
    } else {
      JoinLayout(p, words);
      if |words| > 1 {
        SplitTail(p, words);
      }
      SplitWordThen(p + JoinSpaced(words), |p|, |p| + |words[0]|, words);
    }
  }

  /** A joined text of several words is the first word, a space and the
      joined rest. */
  lemma JoinTail(p: string, words: seq<string>)
    requires |words| > 1
    ensures p + JoinSpaced(words) == p + words[0] + " " + JoinSpaced(words[1..])
  {
    var w, j := words[0], JoinSpaced(words[1..]);
    assert JoinSpaced(words) == w + " " + j;
    ConcatAssoc(p, w, " ");
    ConcatAssoc(p, w + " ", j);
  }

  /** The words after the first one of a joined text are the words of the
      joined rest. */
  lemma {:induction false} SplitTail(p: string, words: seq<string>)
    requires |words| > 1
    requires Words(words)
    ensures SplitFrom(p + JoinSpaced(words), |p| + |words[0]| + 1) == words[1..]
    decreases |words|, 0
  {
    var p' := p + words[0] + " ";
    WordsTail(words);
    SplitJoinedFrom(p', words[1..]);
    SplitFromTail(p, words);
  }

  lemma SplitFromTail(p: string, words: seq<string>)
    requires |words| > 1
    ensures var p' := p + words[0] + " ";
      SplitFrom(p + JoinSpaced(words), |p| + |words[0]| + 1) == SplitFrom(p' + JoinSpaced(words[1..]), |p'|)
  {
    JoinTail(p, words);
  }

  lemma ConcatAssoc<T>(x: seq<T>, y: seq<T>, z: seq<T>)
    ensures x + y + z == x + (y + z)
  {
  }

  /** Where the first word of a joined text lies, and what follows it. */
  lemma JoinLayout(p: string, words: seq<string>)
    requires words != [] && words[0] != [] && NoSpace(words[0])
    ensures var s := p + JoinSpaced(words);
      var e := |p| + |words[0]|;
      && e <= |s| && NoSpaceIn(s, |p|, e) && s[|p|..e] == words[0]
      && (|words| == 1 ==> e == |s|)
      && (|words| > 1 ==> e < |s| && IsSpace(s[e]))
  {
    var w := words[0];
    var e := |p| + |w|;
    var s := p + JoinSpaced(words);
    if |words| > 1 {
      JoinTail(p, words);
      assert s == p + w + " " + JoinSpaced(words[1..]);
      assert s[e] == ' ';
    } else {
      assert s == p + w;
    }
    assert NoSpaceIn(s, |p|, e) by {
      forall t | |p| <= t < e ensures !IsSpace(s[t]) { assert s[t] == w[t - |p|]; }
    }
    assert s[|p|..e] == w;
  }

  /** A word from position `i` to `e`, then either the end of the text or a
      whitespace character followed by the remaining words. */
  lemma SplitWordThen(s: string, i: nat, e: nat, words: seq<string>)
    requires words != [] && i < e && NoSpaceIn(s, i, e) && (e < |s| ==> IsSpace(s[e]))
    requires s[i..e] == words[0]
    requires e == |s| ==> |words| == 1
    requires e < |s| ==> SplitFrom(s, e + 1) == words[1..]
    ensures SplitFrom(s, i) == words
  {
    SplitFromWord(s, i, e);
    if e == |s| {
      assert SpacesIn(s, e, |s|);
    } else {
      SplitSkipsSpace(s, e);
    }
    assert words == [words[0]] + words[1..];
  }

  /** A word starting at position `i` is the first of the words from `i`. */
  lemma SplitFromWord(s: string, i: nat, e: nat)
    requires i < e && NoSpaceIn(s, i, e) && (e < |s| ==> IsSpace(s[e]))
    ensures SplitFrom(s, i) == [s[i..e]] + SplitFrom(s, e)
  {
    SkipSpacesExact(s, i, i);
    SkipWordExact(s, i, e);
  }

  /** Splitting at a position where a word cannot continue: the words from
      `i` are the words of `s[..p]` from `i`, then the words from `p`. */
  lemma {:induction false} SplitAt(s: string, p: nat, i: nat)
    requires i <= p <= |s| && (p < |s| ==> IsSpace(s[p]))
    ensures SplitFrom(s, i) == SplitFrom(s[..p], i) + SplitFrom(s, p)
    decreases p - i
  {
    if i == p {
      SplitAtEnd(s[..p], p);
    } else if IsSpace(s[i]) {
      SpaceInPrefix(s, p, i);
      SplitAt(s, p, i + 1);
    } else {
      var e := WordInPrefix(s, p, i);
      SplitAt(s, p, e);
      WordStep(s, p, i, e);
    }
  }

  /** Past a word that ends by `p`, both splits continue alike. */
  lemma WordStep(s: string, p: nat, i: nat, e: nat)
    requires i < e <= p <= |s|
    requires SplitFrom(s, i) == [s[i..e]] + SplitFrom(s, e)
    requires SplitFrom(s[..p], i) == [s[i..e]] + SplitFrom(s[..p], e)
    requires SplitFrom(s, e) == SplitFrom(s[..p], e) + SplitFrom(s, p)
    ensures SplitFrom(s, i) == SplitFrom(s[..p], i) + SplitFrom(s, p)
  {
    ConsSplit(SplitFrom(s, i), SplitFrom(s[..p], i), [s[i..e]], SplitFrom(s, e), SplitFrom(s[..p], e), SplitFrom(s, p));
  }

  /** The step of `SplitAt` past one word, on the sequences alone. */
  lemma SplitAtEnd(t: string, p: nat)
    requires p == |t|
    ensures SplitFrom(t, p) == []
  {
    assert SkipSpaces(t, p) == |t|;
  }

  lemma ConsSplit<T>(x: seq<T>, z: seq<T>, w: seq<T>, y: seq<T>, u: seq<T>, c: seq<T>)
    requires x == w + y && z == w + u && y == u + c
    ensures x == z + c
  {
  }

  /** A whitespace character before `p` adds no word to either split. */
  lemma SpaceInPrefix(s: string, p: nat, i: nat)
    requires i < p <= |s| && IsSpace(s[i])
    ensures SplitFrom(s, i) == SplitFrom(s, i + 1)
    ensures SplitFrom(s[..p], i) == SplitFrom(s[..p], i + 1)
  {
    assert s[..p][i] == s[i];
    SplitSkipsSpace(s, i);
    SplitSkipsSpace(s[..p], i);
  }

  /** A word starting before `p` ends by `p`, and is the first word of both
      splits. */
  lemma WordInPrefix(s: string, p: nat, i: nat) returns (e: nat)
    requires i < p <= |s| && (p < |s| ==> IsSpace(s[p])) && !IsSpace(s[i])
    ensures i < e <= p
    ensures SplitFrom(s, i) == [s[i..e]] + SplitFrom(s, e)
    ensures SplitFrom(s[..p], i) == [s[i..e]] + SplitFrom(s[..p], e)
  {
    var t := s[..p];
    e := SkipWord(s, i);
    assert i < e;
    assert e <= p;
    assert NoSpaceIn(t, i, e) && (e < |t| ==> IsSpace(t[e])) by {
      assert forall k :: i <= k < p ==> t[k] == s[k];
    }
    SplitFromWord(s, i, e);
    SplitFromWord(t, i, e);
    SliceOfPrefix(s, p, i, e);
  }

  lemma SliceOfPrefix(s: string, p: nat, i: nat, e: nat)
    requires i <= e <= p <= |s|
    ensures s[..p][i..e] == s[i..e]
  {
    assert forall k :: 0 <= k < e - i ==> s[..p][i..e][k] == s[i + k];
  }

  /** The words of a text followed by whitespace and joined words are the
      text's own words followed by the joined words. */
  lemma SplitJoinedAfter(p: string, words: seq<string>)
    requires Words(words)
    ensures Split(p + " " + JoinSpaced(words)) == Split(p) + words
  {
    var s := p + " " + JoinSpaced(words);
    assert s[..|p|] == p;
    assert s[|p|] == ' ';
    SplitAt(s, |p|, 0);
    SplitSkipsSpace(s, |p|);
    SplitJoinedFrom(p + " ", words);
  }

  /** A space does not change the words that follow it. */
  lemma SplitSkipsSpace(s: string, i: nat)
    requires i < |s| && IsSpace(s[i])
    ensures SplitFrom(s, i) == SplitFrom(s, i + 1)
  {
    assert SkipSpaces(s, i) == SkipSpaces(s, i + 1);
  }

  /** `str.replace(a, b)` for one-character strings. */
  function Replace(s: string, a: char, b: char): (r: string)
    ensures |r| == |s|
    ensures forall i :: 0 <= i < |s| ==> r[i] == (if s[i] == a then b else s[i])
  {
    if s == [] then [] else [if s[0] == a then b else s[0]] + Replace(s[1..], a, b)
  }

  /** Replacing back restores the text when the replacement character did not
      occur in it. */
  lemma ReplaceRoundTrip(s: string, a: char, b: char)
    requires b !in s
    ensures Replace(Replace(s, a, b), b, a) == s
  {
    var r := Replace(Replace(s, a, b), b, a);
    forall i | 0 <= i < |s| ensures r[i] == s[i] {
      assert s[i] != b;
    }
  }

  function LowerChar(c: char): char {
    if 'A' <= c <= 'Z' then (c as int + 32) as char else c
  }

  /** `str.lower()` on ASCII letters; other characters are left alone. */
  function Lower(s: string): (r: string)
    ensures |r| == |s|
    ensures forall i :: 0 <= i < |s| ==> r[i] == LowerChar(s[i])
  {
    if s == [] then [] else [LowerChar(s[0])] + Lower(s[1..])
  }

  /** `'*' * n`. */
  function Stars(n: nat): (r: string)
    ensures |r| == n
    ensures forall i :: 0 <= i < n ==> r[i] == '*'
  {
    seq(n, i => '*')
  }

  /** The value of a string of decimal digits, as Python's `int()` reads it
      (an empty string has no value in Python; callers rule it out). */
  function DigitsValue(d: string): nat
    requires AllDigits(d)
  {
    if d == [] then 0 else 10 * DigitsValue(d[..|d| - 1]) + (d[|d| - 1] as int - '0' as int)
  }

  function DigitChar(n: nat): (c: char)
    requires n < 10
    ensures IsDigit(c) && c as int - '0' as int == n
  {
    ('0' as int + n) as char
  }

  /** The decimal text of `n`, as Python's `str()` prints it. */
  function ShowNat(n: nat): (r: string)
    ensures r != [] && AllDigits(r)
    ensures DigitsValue(r) == n
  {
    if n < 10 then [DigitChar(n)] else ShowNat(n / 10) + [DigitChar(n % 10)]
  }

  /** `str()` of a Python bool. */
  function ShowBool(b: bool): string {
    if b then "True" else "False"
  }
}

=== FILE: wrappers.dfy ===
/** Option and Result types used throughout the model, and the Python
    exceptions that the modelled code can raise on its error paths. */
module Wrappers {

  datatype Option<+T> = None | Some(value: T) {

    /** Returns the value held in Some, or `default` for None. */
    function GetOr(default: T): T {
      match this
      case Some(v) => v
      case None => default
    }
  }

  /** The Python exceptions the modelled routines can raise. */
  datatype Fault =
    | KeyError
    | IndexError
    | TypeError
    | ValueError
    | CancelledError

  datatype Result<+T> = Ok(value: T) | Err(fault: Fault)
}
